=== FILE: README.md ===
# Precedence climbing parsers with binding powers

This project models a family of small expression parsers. Each operator has
a left binding power (LBP) and a right binding power (RBP). The parsers
turn a string of space- or class-separated tokens into a binary parse tree.
The family includes:

- the iterative and recursive precedence climbing parser (`pcp_ir_0`) and
  its stand-alone demo (`direct_pcp_ir_0`);
- four recursive variants that work on a cursor, on a linked pair list of
  names, or on a pair list of tokens carrying their powers
  (`pcp_rec_0_0` to `pcp_rec_0_3`);
- a variant that parses prefix and postfix operators without placeholder
  operands (`pcp_ir_0_no_ins`);
- three loop-only variants with two stacks, one stack, or one stack fed by
  a generator (`pcp_it_0_2w`, `pcp_it_0_1w`, `pcp_it_0_1wg`).

The model also covers the helpers the parsers share:

- filling in the binding powers of unary operators and of the `$BEGIN` and
  `$END` markers (`_set_bp`);
- the raw tokenizer (`_raw_toklist`) and the five token-list builders
  (`tokenizer_a` to `tokenizer_e`);
- the pair-list accessors `first`, `second`, `third` and `rrest`;
- tree building and printing (`c_sex`, `s_expr`, `extr_names`);
- two independent correctness oracles. One checks weights
  (`_left_weight`, `_right_weight`, `_is_weight_correct`). The other
  checks operator ranges (`_lrange`, `_rrange`, `_range`,
  `_is_range_correct`);
- the enumeration of all binary trees over a token list (`_makebintrees`),
  which `_check_all_parsings` runs both oracles on;
- `_fakes_to_tree`, which adds the placeholder operands back to a tree
  built without them.

Modules follow the program's structure:

| module | models |
|---|---|
| `Wrappers` | Option and Result |
| `Tables` | the LBP/RBP dictionaries, `_set_bp` |
| `Trees` | parse trees, `c_sex`, `s_expr`, `_fakes_to_tree` |
| `Weights` | the weight oracle |
| `Ranges` | the range oracle |
| `Agreement` | the two oracles agree, and at most one tree passes them |
| `Enumeration` | `_makebintrees`, the Catalan count, `_check_all_parsings` |
| `Tokenizers` | `_raw_toklist`, the tokenizers, the pair-list accessors, the demo tokenizer |
| `Climbing` | `pcp_ir_0` and the demo's `parse_expr` |
| `Recursive` | `pcp_rec_0_0`, `pcp_rec_0_1` |
| `TokenParsers` | `pcp_rec_0_2`, `pcp_rec_0_3`, `extr_names` |
| `NoIns` | `pcp_ir_0_no_ins` |
| `Iterative` | `pcp_it_0_2w`, `pcp_it_0_1w`, `pcp_it_0_1wg` |
| `Demos` | the four demo strings of `direct_pcp_ir_0` |

## What is proved

- `pcp_ir_0` always builds a tree whose flattening is the input, and that
  tree is weight correct. It is also the only weight-correct tree over its
  tokens.
- For any tree over an oracle list, weight correctness and range
  correctness coincide, and at most one tree is correct.
- Among the trees `_makebintrees` lists, exactly one is weight correct and
  exactly one is range correct, and they are the same tree: the one
  `pcp_ir_0` returns. There are Catalan(n) such trees for n operators, all
  distinct, and every tree over the tokens is among them.
- Every other parser returns the tree `pcp_ir_0` returns. For
  `pcp_ir_0_no_ins` this holds after `_fakes_to_tree`, on the lists
  `pcp_ir_0` accepts. `pcp_ir_0_no_ins` accepts more: it also parses a
  prefix-only operator in operator position, such as `&` in `a & b`,
  where `pcp_ir_0` meets `$PRE` and raises `KeyError`.
- `s_expr` is modelled for trees with and without unary nodes. Reading a
  rendering back gives the tree, so two trees whose names are non-empty
  and hold no space or parenthesis never print alike.
- The raw tokenizer's output is the list of maximal runs of one character
  class between whitespace. Removing the inserted marker names from
  `tokenizer_e`'s list gives the raw tokens back, and `$PRE` and `$POST`
  stand right before exactly the prefix operators and right after exactly
  the postfix operators.
- The four demo strings parse to the trees shown in each demo lemma.

Parsing is modelled on the list of tokens still to be read. The closure
`toks(advance)` keeps a position in a list; `ToksOnRemaining` shows that
reading through it is reading the remaining suffix. The parsers are
therefore written as functions from that suffix to a tree and the suffix
left over. Binding-power lookups that would raise `KeyError`, and reads
past the end of the list, are excluded by preconditions. `WellFormed`
states them: the list reads `$BEGIN`, an operand, then operator/operand
pairs ending at `$END`, where `$END` has a negative LBP. Every operator in
it has both powers, a positive LBP and a non-negative RBP. These sign
conditions are not checks the program makes: they follow from its
documented range of binding powers, integers from 6 to 99, together with
the 100 it fills in for prefix and postfix operators.

## Model

| member | source | states |
|---|---|---|
| Tables.SetBp | helpers.py:192-201 | every name of either dictionary, and both markers, ends up in both; powers given explicitly are kept; a name missing from one dictionary gets 100 there; the markers get 0/-2 and -1/0 |
| Tables.SetBpIdempotent | helpers.py:192-201 | filling the powers a second time changes nothing |
| Tables.NonInfixOps | helpers.py:725-726 | `non_infix_ops` holds exactly the names with an RBP and no LBP as prefix, and exactly those with an LBP and no RBP as postfix |
| Tables.NonInfixOpsAreSentinels | helpers.py:192-201 | when no given power is 100, a name is a prefix operator exactly when `_set_bp` gives it LBP 100, and a postfix operator exactly when it gets RBP 100 |
| Trees.Flat | helpers.py:367-371 | a tree's in-order token list has odd length |
| Trees.NumToks | helpers.py:367-371 | a tree always counts an odd number of tokens; `NumToksIsLength` equates the count with the length of its token list |
| Trees.NumToksIsLength | helpers.py:367-371 | `_num_toks_in_tree` is the length of the tree's token list |
| Trees.RootPos | helpers.py:374-377 | an atom has no root position; a node's zero-based root position is odd and holds its operator in the token list |
| Trees.FlatSplit | helpers.py:367-377 | two nodes over the same tokens whose left parts have the same size have the same operator and the same token lists left and right |
| Trees.OpsAtOddPositions | helpers.py:367-377 | a property holds for every operator of a tree exactly when it holds at every odd position of its token list |
| Trees.SExpr | helpers.py:162-167 | an atom prints as its name; a node prints between parentheses |
| Trees.USExpr | helpers.py:162-167 | `s_expr` of a tree that may hold unary nodes (printed at helpers.py:651 for `pcp_ir_0_no_ins`): an atom prints as its name, a node between parentheses |
| Trees.AsUTree | helpers.py:162-167 | a binary tree viewed as a tree with unary nodes: atoms stay atoms, nodes become binary nodes with the same operator |
| Trees.SExprIsUSExpr | helpers.py:162-167 | both renderings agree on binary trees |
| Trees.ReadAtUSExpr | helpers.py:162-167 | where a rendering stands in a string followed by a space, `)` or the end, reading there gives the tree back and stops right after the rendering |
| Trees.ReadUSExpr | helpers.py:162-167 | reading a whole rendering gives the tree back, for names that are non-empty and hold no space or parenthesis |
| Trees.USExprInjective | helpers.py:162-167 | two trees with such names that print alike are equal |
| Trees.SExprInjective | helpers.py:162-167 | two binary trees with such names that print alike are equal |
| Trees.SExprBalanced | helpers.py:162-167 | for names without parentheses, the printed form has one `(` and one `)` per node |
| Trees.CSex | helpers.py:177-189 | with a second operand the result is a binary node, without one a unary node; the operator and operands are kept in place |
| Trees.FakesToTree | helpers.py:467-481 | for every tree, it succeeds exactly when every unary node's operator is in the prefix or the postfix set (`UnaryTagged`), and its only error is `InvalidTreeShape` |
| Trees.FakesToTreeRoundTrip | helpers.py:467-481 | on a tree without placeholder atoms, a successful result gives the tree back once its placeholders are dropped (`DropFakes`) |
| Weights.OpsKnownFlat | helpers.py:309-330 | every operator of a tree has both powers exactly when every odd position of its token list does |
| Weights.LeftWeight | helpers.py:309-313 | the left weight is infinite exactly for an atom, and at most the root's LBP otherwise |
| Weights.RightWeight | helpers.py:316-320 | the right weight is infinite exactly for an atom, and at most the root's RBP otherwise |
| Weights.LeftWeightIsSpineMin | helpers.py:309-313 | the left weight is the least LBP on the tree's left spine, attained there |
| Weights.RightWeightIsSpineMin | helpers.py:316-320 | the right weight is the least RBP on the tree's right spine, attained there |
| Weights.IsWeightCorrect | helpers.py:323-330 | defined as the source's test; what it means is proved by `Climbing.ParseCorrect` (the parser's tree is the one weight-correct tree over a token list) and `Agreement.WeightIffRange` |
| Ranges.LRange | helpers.py:383-387 | the left end of a range lies left of the operator |
| Ranges.RRange | helpers.py:390-394 | the right end of a range lies right of the operator |
| Ranges.Range | helpers.py:397-401 | an operator's range strictly contains its position |
| Ranges.IsRangeCorrect | helpers.py:404-417 | defined as the source's test; `Agreement.WeightIffRange` proves it agrees with weight correctness on the whole list, and `Agreement.RangeUnique` that at most one tree passes it |
| Ranges.LRangeFacts | helpers.py:383-387 | the leftward scan from an operator stops at an operand position; it passes every operator it covers and is stopped by the next one, if any |
| Ranges.RRangeFacts | helpers.py:390-394 | the rightward scan from an operator stops at an operand position; it passes every operator it covers and is stopped by the next one, if any |
| Ranges.LRangeIs | helpers.py:383-387 | any operand position the scan passes up to, and is stopped just before, is the left range |
| Ranges.RRangeIs | helpers.py:390-394 | any operand position the scan passes up to, and is stopped just after, is the right range |
| Ranges.Exclusion | helpers.py:383-394 | of two operators, the later cannot reach over the earlier while the earlier also reaches over the later |
| Ranges.RangeDetermines | helpers.py:397-401 | two operators with the same range are the same operator |
| Agreement.WeightIffRange | helpers.py:323-330 | a tree over an oracle list is weight correct exactly when it is range correct from 1 to the list's end |
| Agreement.WeightImpliesRange | helpers.py:404-417 | a weight-correct tree placed between operators whose scans stop at its edges is range correct there |
| Agreement.RangeImpliesWeight | helpers.py:404-417 | a range-correct placed tree is weight correct |
| Agreement.RangeNest | helpers.py:404-417 | inside a range-correct placed tree, every operator's range stays within the tree's stretch |
| Agreement.RangeUnique | helpers.py:404-417 | two range-correct trees placed over the same stretch are equal |
| Agreement.WeightCorrectUnique | helpers.py:323-330 | two weight-correct trees over the same oracle list are equal |
| Enumeration.Cross | helpers.py:360-363 | the trees built for one root position pair every listed left tree with every listed right tree, in number and content |
| Enumeration.MakeBinTrees | helpers.py:349-364 | the enumeration refuses exactly the empty and the even-length lists |
| Enumeration.AllTreesFlat | helpers.py:349-364 | every enumerated tree flattens back to the token list |
| Enumeration.AllTreesComplete | helpers.py:349-364 | every tree over the token list is enumerated |
| Enumeration.AllTreesDistinct | helpers.py:349-364 | no tree is enumerated twice |
| Enumeration.AllTreesCount | helpers.py:349-364 | a list with n operators has Catalan(n) trees |
| Enumeration.WeightCorrectOnes | helpers.py:447-448 | the trees `_check_all_parsings` marks weight correct are exactly the listed ones that are |
| Enumeration.RangeCorrectOnes | helpers.py:447-449 | the trees `_check_all_parsings` marks range correct are exactly the listed ones that are |
| Enumeration.ExactlyOneCorrect | helpers.py:429-464 | given one weight-correct tree over an oracle list, it is the only tree marked weight correct and the only one marked range correct |
| Tokenizers.RunEnd | helpers.py:204-227 | a run stops at the end of the text, at whitespace, or where the character class changes |
| Tokenizers.RawTokens | helpers.py:204-227 | `_raw_toklist` yields exactly the maximal runs of one character class between whitespace; no token is empty or holds whitespace, and together they are the text without whitespace |
| Tokenizers.WordsShape | direct_pcp_ir_0.py:37 | `code.split()` yields non-empty words without whitespace that together are the text without whitespace |
| Tokenizers.StripExpand | helpers.py:236-243 | deleting the inserted placeholders from the expanded list gives the raw tokens back |
| Tokenizers.TokE | helpers.py:230-243 | `tokenizer_e`'s list starts with `$BEGIN` and ends with `$END`; when no raw token is a marker name it is the raw token list once the four inserted names are deleted, and between the brackets `$PRE` stands right before exactly the tokens with LBP 100 and `$POST` right after exactly those with RBP 100 |
| Tokenizers.Bracketed | helpers.py:236-243 | the list is bracketed by `$BEGIN` and `$END`; for raw tokens that are not marker names, deleting the inserted names gives them back and the placeholders stand exactly at the prefix and postfix operators |
| Tokenizers.ExpandPlacement | helpers.py:237-242 | in the expanded list a source token has `$PRE` immediately before it iff its LBP is 100 and `$POST` immediately after it iff its RBP is 100; every `$PRE` is followed and every `$POST` preceded by a source token, and no `$BEGIN` or `$END` occurs |
| Tokenizers.TokB | helpers.py:263-268 | when no raw token is a marker name, `tokenizer_b`'s list is `tokenizer_e`'s with the placeholders deleted |
| Tokenizers.AsciiNoMarkers | helpers.py:204-227 | on ASCII text, no raw token is one of the four marker names |
| Tokenizers.ToksOnRemaining | helpers.py:254-258 | `toks(n)` returns the n-th remaining token and leaves the list shortened by n; `toks()` does not move |
| Tokenizers.TokenizerA | helpers.py:246-260 | the closure starts at position 0 of `tokenizer_e`'s list |
| Tokenizers.TokenizerB | helpers.py:263-277 | the closure starts at position 0 of `tokenizer_b`'s list |
| Tokenizers.PairUpOrder | helpers.py:285-286 | folding the reversed list into pairs keeps the list's order |
| Tokenizers.First | helpers.py:303 | `first` is the list's first element |
| Tokenizers.Second | helpers.py:304 | `second` is the list's second element |
| Tokenizers.Third | helpers.py:305 | `third` is the list's third element |
| Tokenizers.RRest | helpers.py:306 | `rrest` is the list without its first two elements |
| Tokenizers.TokenizerC | helpers.py:280-286 | the pair list holds `tokenizer_e`'s list in order |
| Tokenizers.ToToken | helpers.py:294-295 | a name with an LBP becomes a token carrying both its powers; any other name a token without powers |
| Tokenizers.TokenizerD | helpers.py:289-296 | the pair list holds the tokens of `tokenizer_e`'s list in order |
| Tokenizers.TokenizerDNames | helpers.py:289-296 | the token names of `tokenizer_d`'s list are `tokenizer_e`'s list |
| Tokenizers.DirectTable | direct_pcp_ir_0.py:30-34 | the demo's table gets 100 for a missing power of any operator and LBP -1 for `$END`, keeping every given power |
| Tokenizers.DirectTokenizer | direct_pcp_ir_0.py:27-45 | the demo's cursor starts at position 0 on the updated table's bracketed list; when no split word is a marker name, deleting the inserted names gives the words back, and `$PRE` stands right before exactly the words with LBP 100 and `$POST` right after exactly those with RBP 100 in the updated table |
| Climbing.ParseExpr | pcp_ir_0.py:10-16 | the parser consumes an operand and operators, leaving an operator sequence whose first LBP is at most the minimum; the tree flattens to what was consumed |
| Climbing.Climb | pcp_ir_0.py:14-15 | the loop turns the tree so far and the tokens it consumes into one tree over those tokens, and stops before an operator whose LBP is at most the minimum |
| Climbing.Parse | pcp_ir_0.py:19-22 | the parse tree flattens to the token list between the markers |
| Climbing.ParseEndsAtEnd | pcp_ir_0.py:10-16 | the top-level call stops only at `$END` |
| Climbing.ParseExprSound | pcp_ir_0.py:10-16 | the subtree built is weight correct; its left weight exceeds the minimum RBP; its right weight is at least the LBP of the operator that stops it |
| Climbing.ParseCorrect | pcp_ir_0.py:10-22 | the parse tree is weight correct and is the only weight-correct tree over the tokens |
| Climbing.ParseIsTheCorrectTree | helpers.py:429-464 | among all enumerated trees, the parser's is the one tree marked weight correct and the one marked range correct |
| Climbing.DirectParse | direct_pcp_ir_0.py:61-76 | the demo parser's tree flattens to the split words with placeholders and is weight correct |
| Recursive.RecExpr | pcp_rec_0_0.py:30-50 | the recursion consumes operators and operands into the tree and stops before an operator whose LBP is at most the minimum |
| Recursive.RecOperand | pcp_rec_0_0.py:46-48 | the right operand of an operator takes the operators binding more strongly than its RBP |
| Recursive.RecParse | pcp_rec_0_0.py:53-65 | the tree of `pcp_rec_0_0` flattens to the token list between `$BEGIN` and `$END` |
| Recursive.RecExprIsClimb | pcp_rec_0_0.py:30-50 | the recursion returns what `pcp_ir_0`'s loop returns |
| Recursive.RecParseIsParse | pcp_rec_0_0.py:53-71 | `pcp_rec_0_0` builds the same tree as `pcp_ir_0` |
| Recursive.LinkedExpr | pcp_rec_0_1.py:37-62 | the pair-list recursion consumes into the tree what it removes from the list |
| Recursive.LinkedOperand | pcp_rec_0_1.py:57-59 | the right operand of the list's first operator consumes into its tree what it removes from the list and stops at an operator binding no tighter than that operator's RBP |
| Recursive.LinkedExprIsRecExpr | pcp_rec_0_1.py:37-62 | the pair-list recursion returns what the cursor recursion returns |
| Recursive.LinkedOperandIsRecOperand | pcp_rec_0_1.py:57-59 | the pair-list operand step returns what `pcp_rec_0_0`'s operand step returns |
| Recursive.LinkedParse | pcp_rec_0_1.py:65-71 | the tree of `pcp_rec_0_1` flattens to the pair list's elements between `$BEGIN` and `$END` |
| Recursive.LinkedParseIsParse | pcp_rec_0_1.py:65-71 | `pcp_rec_0_1` on a pair list builds the same tree as `pcp_rec_0_0` and `pcp_ir_0` |
| TokenParsers.TokExpr2 | pcp_rec_0_2.py:41-65 | the token recursion consumes into the tree what it removes from the list and stops at an LBP at most the minimum |
| TokenParsers.TokExpr3 | pcp_rec_0_3.py:40-67 | the token recursion consumes into the tree what it removes from the list and stops at an LBP at most the minimum |
| TokenParsers.TokOperand3 | pcp_rec_0_3.py:62-64 | the pair `(tom, suc)`: the right operand consumes what it removes from the list and stops at an LBP at most the operator's RBP |
| TokenParsers.ExtrNames | helpers.py:170-174 | the name tree has the token tree's shape (`Congruent`), and its tokens in order are the tokens' names; shape and token list together fix the tree (`Trees.CongruentFlatUnique`) |
| Trees.CongruentFlatUnique | helpers.py:170-174 | two trees of one shape with the same token list are equal, so the shape and names `extr_names` keeps fix its result |
| TokenParsers.TokParse2 | pcp_rec_0_2.py:68-72 | the tree's names are the list's names between the markers |
| TokenParsers.TokParse3 | pcp_rec_0_3.py:70-76 | the tree's names are the list's names between the markers |
| TokenParsers.TokExpr2IsClimb | pcp_rec_0_2.py:41-65 | on the tokens of a name list, the recursion returns `pcp_ir_0`'s tree and remaining list |
| TokenParsers.TokExpr3IsRecExpr | pcp_rec_0_3.py:40-67 | on the tokens of a name list, the recursion returns `pcp_rec_0_0`'s tree and remaining list |
| TokenParsers.TokParsesAreParse | pcp_rec_0_2.py:68-72 | on the tokens of a well-formed list, `pcp_rec_0_2` and `pcp_rec_0_3` build `pcp_ir_0`'s tree |
| TokenParsers.TokPipelinesAreParse | helpers.py:289-296 | `tokenizer_d` followed by `pcp_rec_0_2` or `pcp_rec_0_3` gives `pcp_ir_0`'s tree of `tokenizer_e`'s list |
| NoIns.SetBpUnaryOps | helpers.py:192-201 | after `_set_bp`, with powers below 100 and no marker names among the operators, the recorded sets describe the table's unary operators |
| NoIns.NIExpr | pcp_ir_0_no_ins.py:33-59 | on every list: on success it consumes at least an operand and an operator and stops at a suffix whose first operator has an LBP of at most the threshold; it fails only on a missing power (`KeyError`) or on reading past the end (`IndexError`) |
| NoIns.NIClimb | pcp_ir_0_no_ins.py:52-58 | on every list: on success the loop stops at a suffix whose first operator has an LBP of at most the threshold; it fails only on a missing power or on reading past the end |
| NoIns.PrefixOpInOperatorPosition | pcp_ir_0_no_ins.py:47-58 | with `&` given only an RBP of 9, `_set_bp` makes it a prefix operator; `a & b` then parses as `(& a b)`, while the list with placeholders puts `$PRE`, which has no LBP, where `pcp_ir_0` looks one up (pcp_ir_0.py:14) |
| NoIns.NIExprMatch | pcp_ir_0_no_ins.py:33-59 | with placeholders added back, the parser's tree and remaining list are `pcp_ir_0`'s on the list with placeholders |
| NoIns.NIClimbMatch | pcp_ir_0_no_ins.py:52-58 | with placeholders added back, the loop's tree and remaining list are `pcp_ir_0`'s loop's |
| NoIns.NIParseIsParse | pcp_ir_0_no_ins.py:62-65 | `_fakes_to_tree` of the parse of `tokenizer_b`'s list is `pcp_ir_0`'s parse of `tokenizer_e`'s list |
| Iterative.StackInit | pcp_it_0_2w.py:46-51 | the first operand over the bottom operator satisfies the stack invariant and stands for that one token |
| Iterative.StackPush | pcp_it_0_2w.py:49-51 | pushing an operator whose LBP exceeds the top operator's RBP, with the operand after it, keeps the invariant and appends both tokens to what the stacks stand for |
| Iterative.StackReduce | pcp_it_0_2w.py:52-54 | reducing the top two operands with the top operator, when its RBP is at least the next LBP, keeps the invariant and the tokens the stacks stand for |
| Iterative.StackDone | pcp_it_0_2w.py:56-57 | when the top operator cannot be reduced before `$END` and the stacks stand for all tokens, one operand is left and it is `pcp_ir_0`'s tree |
| Iterative.ReduceWhileBinds | pcp_it_0_2w.py:52-54 | the inner loop keeps the stack invariant and the tokens the stacks stand for, and on return the top operator's RBP is below the LBP of the operator read |
| Iterative.TwoStack | pcp_it_0_2w.py:32-57 | the two-stack parser returns `pcp_ir_0`'s tree |
| Iterative.Cells | pcp_it_0_1w.py:45 | the single stack holds, for each level of the two stacks, its operator then its operand: entry 2i is operator i (entry 0 the bottom operator) and entry 2i+1 is operand i |
| Iterative.CellsReduce | pcp_it_0_1w.py:48-50 | reducing the single stack is reducing the two stacks |
| Iterative.OneStackLoop | pcp_it_0_1w.py:45-55 | from any bottom operator whose RBP is below `$END`'s LBP, the single-stack loop returns `pcp_ir_0`'s tree |
| Iterative.OneStack | pcp_it_0_1w.py:32-55 | the one-stack parser returns `pcp_ir_0`'s tree |
| Iterative.OneStackGen | pcp_it_0_1wg.py:32-55 | the one-stack parser fed by the generator returns `pcp_ir_0`'s tree |
| Demos.DemoPrecedence | direct_pcp_ir_0.py:20-24 | `x + 3.4 * y` parses as `(+ x (* 3.4 y))` |
| Demos.DemoLeftAssoc | direct_pcp_ir_0.py:20-24 | `a + b + c` parses as `(+ (+ a b) c)` |
| Demos.DemoRightAssoc | direct_pcp_ir_0.py:20-24 | `n ^ m ^ k` parses as `(^ n (^ m k))` |
| Demos.DemoUnary | direct_pcp_ir_0.py:20-24 | `xx + b ! * & c + 1` parses as `(+ xx (* (! b $POST) (& $PRE (+ c 1))))` |
| Demos.WordsOfJoin | direct_pcp_ir_0.py:37 | splitting words joined by single spaces gives the words back |

## Left out

- Printing, option parsing, help text, loading binding powers from JSON,
  random operators and expressions, and `run_parser`'s driver loop are not
  modelled. They are I/O around the core. This covers `_print_ranges`,
  `_top3_weights`, `_print_help`, `_get_options`, `_prepare_command`,
  `_print_result`, `_create_random_ops` and `_create_expr_from_bp`.
- The tracing branch of `c_sex` (`print_subex_creation`) is left out
  because it only prints.
- Python's `isspace`, `isalnum` and `isdigit` are parameters
  (`CharClasses`). Only an ASCII instance is given, because Unicode
  character tables are outside the model.
- A tokenizer closure with its hidden position is modelled as a list and a
  position (`Cursor`); the parsers read the remaining suffix. The
  generator of `pcp_it_0_1wg` is modelled as the list it yields.
- `KeyError` on an unknown name and `IndexError` past the end of the list
  are not modelled as error results, except in `pcp_ir_0_no_ins`, whose
  model returns them as `UnknownOperator` and `PastEnd`. Elsewhere they
  are preconditions (`WellFormed`, `OracleList`). In these the list is `$BEGIN`, an operand,
  then operator/operand pairs ending with `$END`. Every operator has both
  powers, and `$END`'s LBP is negative.
- Powers outside the documented range are not modelled. `WellFormed` also
  asks for a positive LBP and a non-negative RBP for every operator. That
  is not an error check of the program. It is what the documented range
  of binding powers gives: integers from 6 to 99 (helpers.py:127,
  helpers.py:529, direct_pcp_ir_0.py:20-21), plus the 100 filled in for
  prefix and postfix operators. Outside that range the program raises
  nothing, but its parsers stop agreeing. Take LBP 0 for `,` on `a , b`.
  `pcp_ir_0` tests `0 < 0` at pcp_ir_0.py:14, returns `a` and drops
  `, b`. `pcp_rec_0_0` does not see 0 as negative at pcp_rec_0_0.py:64-65
  and returns `[",", "a", "b"]`. The agreement of the parsers is stated
  only inside the range.
- Iterative.TwoStack, Iterative.OneStack, Iterative.OneStackGen: require
  the bottom entry's RBP to be below `$END`'s LBP. This holds for the
  values `_set_bp` gives, -2 and -1. Without it the inner loops of the
  source would pop an empty stack.
- NoIns.NIParseIsParse: requires that no operator is both prefix and
  postfix, no power exceeds 100, and the marker names are not operators.
  The bound on powers is the same documented range, 6 to 99, plus the 100
  filled in for prefix and postfix operators.
  It also requires `tokenizer_e`'s list to be well formed, so it says
  nothing about lists such as `a & b` above that only `pcp_ir_0_no_ins`
  accepts; NoIns.PrefixOpInOperatorPosition covers that case.
- NoIns.NIParse has no contract of its own; its property is stated by
  NoIns.NIParseIsParse.
- Weights.IsWeightCorrect and Ranges.IsRangeCorrect have no contract of
  their own: they are the two oracles as the source defines them, and what
  they mean is stated by Climbing.ParseCorrect, Agreement.WeightIffRange and
  Agreement.RangeUnique.
- Climbing.DirectParse: `code.split()` is modelled as splitting at
  whitespace (`Words`) with the same character classes. The demo proofs
  use the ASCII classes.
- Each demo lemma models the first call of the direct demo's `tokenizer`,
  applying `DirectTable` to the initial tables. The program updates its
  global tables in place (direct_pcp_ir_0.py:30-34). From the second call
  on, `$END` is already in `LBP` when the RBP defaults are set, so
  `RBP["$END"]` becomes 100. No parse of the four demo strings reads that
  entry, so their trees do not depend on which call it is.
- `_check_all_parsings` is modelled by what it marks, not what it prints:
  Enumeration.WeightCorrectOnes and Enumeration.RangeCorrectOnes list the
  trees it labels weight correct and range correct.
- Python's integers are unbounded like Dafny's, and no width is modelled.

=== FILE: agreement.dfy ===
/** Weight correctness and range correctness are the same property: for a
    tree whose flattening is the oracle's token list, `_is_weight_correct`
    holds exactly when `_is_range_correct` does, and at most one tree has
    it. No condition on the binding powers is needed. */
module Agreement {
  import opened Tables
  import opened Trees
  import opened Weights
  import opened Ranges

  /** The last one-based position covered by a tree that starts at s. */
  function End(tree: Tree<string>, s: int): int {
    s + NumToks(tree) - 1
  }

  /** The tree's tokens lie in the token list from one-based position s on:
      each atom and each root at its in-order position. */
  predicate Placed(toks: seq<string>, tree: Tree<string>, s: int)
    decreases tree
  {
    match tree
    case Atom(a) => 1 <= s <= |toks| && toks[s - 1] == a
    case Node(op, l, r) =>
      var k := s + NumToks(l);
      && Placed(toks, l, s) && 1 <= k <= |toks| && toks[k - 1] == op && Placed(toks, r, k + 1)
  }

  /** The tree is placed from position s on, in an oracle list, starting at
      an operand position. */
  predicate At(t: Table, toks: seq<string>, tree: Tree<string>, s: int) {
    && OracleList(t, toks)
    && 1 <= s && s % 2 == 1 && End(tree, s) <= |toks|
    && Placed(toks, tree, s)
  }

  lemma SliceSplit<T>(xs: seq<T>, lo: int, hi: int, a: seq<T>, x: T, b: seq<T>)
    requires 0 <= lo <= hi <= |xs| && xs[lo..hi] == a + [x] + b
    ensures xs[lo..lo + |a|] == a && xs[lo + |a|] == x && xs[lo + |a| + 1..hi] == b
  {
    var w := xs[lo..hi];
    assert w[..|a|] == a;
    assert w[|a|] == x;
    assert w[|a| + 1..] == b;
  }

  /** The tokens from position s on (counted from 1) begin with the tree's
      tokens. */
  predicate SliceIs(toks: seq<string>, tree: Tree<string>, s: int) {
    1 <= s && s - 1 + |Flat(tree)| <= |toks| && toks[s - 1..s - 1 + |Flat(tree)|] == Flat(tree)
  }

  /** A stretch of the token list equal to a node's tokens splits into the
      stretches of its children either side of its operator. */
  lemma SliceChildren(toks: seq<string>, tree: Tree<string>, s: int) returns (k: int)
    requires tree.Node? && SliceIs(toks, tree, s)
    ensures k == s + NumToks(tree.left) && 1 <= k <= |toks| && toks[k - 1] == tree.op
    ensures SliceIs(toks, tree.left, s) && SliceIs(toks, tree.right, k + 1)
  {
    NumToksIsLength(tree.left);
    k := s + NumToks(tree.left);
    assert Flat(tree) == Flat(tree.left) + [tree.op] + Flat(tree.right);
    SliceSplit(toks, s - 1, s - 1 + |Flat(tree)|, Flat(tree.left), tree.op, Flat(tree.right));
  }

  /** A node is placed when its children are placed either side of its
      operator. */
  lemma PlacedNodeIntro(toks: seq<string>, tree: Tree<string>, s: int, k: int)
    requires tree.Node? && k == s + NumToks(tree.left) && 1 <= k <= |toks| && toks[k - 1] == tree.op
    requires Placed(toks, tree.left, s) && Placed(toks, tree.right, k + 1)
    ensures Placed(toks, tree, s)
  {
  }

  /** An operand's one-token stretch places it. */
  lemma SliceAtomPlaced(toks: seq<string>, tree: Tree<string>, s: int)
    requires tree.Atom? && SliceIs(toks, tree, s)
    ensures Placed(toks, tree, s)
  {
    assert toks[s - 1] == toks[s - 1..s][0];
  }

  /** A stretch of the token list equal to a tree's tokens places the tree. */
  lemma {:induction false} SliceIsPlaced(toks: seq<string>, tree: Tree<string>, s: int)
    requires SliceIs(toks, tree, s)
    decreases tree
    ensures Placed(toks, tree, s)
  {
    if tree.Node? {
      var k := SliceChildren(toks, tree, s);
      SliceIsPlaced(toks, tree.left, s);
      SliceIsPlaced(toks, tree.right, k + 1);
      PlacedNodeIntro(toks, tree, s, k);
    } else {
      SliceAtomPlaced(toks, tree, s);
    }
  }

  /** A placed tree ends at an operand position. */
  lemma AtEnd(t: Table, toks: seq<string>, tree: Tree<string>, s: int)
    requires At(t, toks, tree, s)
    ensures End(tree, s) % 2 == 1 && s <= End(tree, s)
  {
    OddSum(s, NumToks(tree));
  }

  /** Where the root and the two children of a node starting at an
      operand position lie. */
  lemma NodeRoot(tree: Tree<string>, s: int, e: int) returns (k: int)
    requires tree.Node? && s % 2 == 1 && e == End(tree, s)
    ensures k == s + NumToks(tree.left) && k % 2 == 0 && (k + 1) % 2 == 1 && s < k < e
    ensures k - 1 == End(tree.left, s) && e == End(tree.right, k + 1)
  {
    k := s + NumToks(tree.left);
    OddSum(s, NumToks(tree.left));
  }

  /** Where the root and the two children of a placed node lie. */
  lemma AtNode(t: Table, toks: seq<string>, tree: Tree<string>, s: int) returns (k: int)
    requires tree.Node? && At(t, toks, tree, s)
    ensures k == s + NumToks(tree.left) && IsOpPos(toks, k) && s < k < End(tree, s)
    ensures (k - 1) % 2 == 1 && (k + 1) % 2 == 1
    ensures toks[k - 1] == tree.op && Known(t, tree.op)
    ensures Lp(t, toks, k) == t.lbp[tree.op] && Rp(t, toks, k) == t.rbp[tree.op]
    ensures At(t, toks, tree.left, s) && End(tree.left, s) == k - 1
    ensures At(t, toks, tree.right, k + 1) && End(tree.right, k + 1) == End(tree, s)
  {
    k := s + NumToks(tree.left);
    OddSum(s, NumToks(tree.left));
    LpAt(t, toks, k);
  }

  /** A placed tree has binding powers for all its operators. */
  lemma {:induction false} AtKnown(t: Table, toks: seq<string>, tree: Tree<string>, s: int)
    requires At(t, toks, tree, s)
    ensures OpsKnown(t, tree)
  {
    if tree.Node? {
      var k := AtNode(t, toks, tree, s);
      AtKnown(t, toks, tree.left, s);
      AtKnown(t, toks, tree.right, k + 1);
    }
  }

  /** One step of `_is_range_correct` at a node, read forwards ... */
  lemma RangeCorrectNodeIntro(t: Table, toks: seq<string>, tree: Tree<string>, s: int, k: int, e: int)
    requires tree.Node? && k == s + NumToks(tree.left)
    requires Range(t, toks, k) == (s, e)
    requires IsRangeCorrect(t, toks, tree.left, s, k - 1)
    requires IsRangeCorrect(t, toks, tree.right, k + 1, e)
    ensures IsRangeCorrect(t, toks, tree, s, e)
  {
    assert NumToks(tree.left) + s == k;
  }

  /** ... and backwards. */
  lemma RangeCorrectNodeElim(t: Table, toks: seq<string>, tree: Tree<string>, s: int, k: int, e: int)
    requires tree.Node? && k == s + NumToks(tree.left)
    requires IsRangeCorrect(t, toks, tree, s, e)
    ensures Range(t, toks, k) == (s, e)
    ensures IsRangeCorrect(t, toks, tree.left, s, k - 1)
    ensures IsRangeCorrect(t, toks, tree.right, k + 1, e)
  {
  }

  /* ---------- weight correct ==> range correct ---------- */

  /** In a weight-correct left operand of the operator at k (its right
      weight at least k's LBP), the leftward scan from k passes every
      operator. */
  lemma {:induction false} WeightLeftPasses(t: Table, toks: seq<string>, a: Tree<string>, s: int, k: int)
    requires At(t, toks, a, s) && k == End(a, s) + 1 && IsOpPos(toks, k)
    requires OpsKnown(t, a) && IsWeightCorrect(t, a)
    requires Geq(RightWeight(t, a), Lp(t, toks, k))
    decreases a
    ensures LPassesFrom(t, toks, s, k)
  {
    if a.Node? {
      var m := AtNode(t, toks, a, s);
      assert Rp(t, toks, m) >= Lp(t, toks, k);
      WeightLeftPasses(t, toks, a.right, m + 1, k);
      WeightLeftPasses(t, toks, a.left, s, m);
      forall q | s < q < k && q % 2 == 0
        ensures Lpass(t, toks, q, k)
      {
        if q < m {
          assert Lpass(t, toks, q, m);
          MinLAfterSub(t, toks, q, q, m, k);
        } else if q == m {
          MinLAfterLeAt(t, toks, m, k, k);
        }
      }
    }
  }

  /** In a weight-correct right operand of the operator at k (its left
      weight above k's RBP), the rightward scan from k passes every
      operator. */
  lemma {:induction false} WeightRightPasses(t: Table, toks: seq<string>, b: Tree<string>, s: int, k: int)
    requires At(t, toks, b, s) && k == s - 1 && IsOpPos(toks, k)
    requires OpsKnown(t, b) && IsWeightCorrect(t, b)
    requires Gt(LeftWeight(t, b), Rp(t, toks, k))
    decreases b
    ensures RPassesTo(t, toks, k, End(b, s) + 1)
  {
    if b.Node? {
      var m := AtNode(t, toks, b, s);
      assert Lp(t, toks, m) > Rp(t, toks, k);
      WeightRightPasses(t, toks, b.left, s, k);
      WeightRightPasses(t, toks, b.right, m + 1, m);
      forall q | k < q < End(b, s) + 1 && q < |toks| && q % 2 == 0
        ensures Rpass(t, toks, k, q)
      {
        if q > m {
          assert Rpass(t, toks, m, q);
          MinRUpToSub(t, toks, k, m, q, q);
        } else if q == m {
          MinRUpToLeAt(t, toks, k, m, k);
        }
      }
    }
  }

  /** The scans of the operators around a tree placed from s to e: the
      operator before s passes the whole tree to the right, and the
      operator after e passes it to the left. */
  predicate Context(t: Table, toks: seq<string>, s: int, e: int) {
    && (s > 1 ==> RPassesTo(t, toks, s - 1, e + 1))
    && (e < |toks| ==> LPassesFrom(t, toks, s - 1, e + 1))
  }

  /** With the operators inside passed and the context stopping the scans,
      the operator at k ranges exactly from s to e. */
  lemma RootRange(t: Table, toks: seq<string>, s: int, k: int, e: int)
    requires OracleList(t, toks) && IsOpPos(toks, k)
    requires 1 <= s < k < e <= |toks| && s % 2 == 1 && e % 2 == 1
    requires Context(t, toks, s, e)
    requires LPassesFrom(t, toks, s, k) && RPassesTo(t, toks, k, e + 1)
    ensures Range(t, toks, k) == (s, e)
  {
    if s > 1 && Lpass(t, toks, s - 1, k) {
      assert LPassesFrom(t, toks, s - 2, k);
      assert RPassesTo(t, toks, s - 1, k + 1);
      Exclusion(t, toks, s - 1, k);
      assert false;
    }
    LRangeIs(t, toks, k, s);
    if e < |toks| && Rpass(t, toks, k, e + 1) {
      assert LPassesFrom(t, toks, k - 1, e + 1);
      assert RPassesTo(t, toks, k, e + 2);
      Exclusion(t, toks, k, e + 1);
      assert false;
    }
    RRangeIs(t, toks, k, e);
  }

  lemma ContextLeftChild(t: Table, toks: seq<string>, s: int, k: int, e: int)
    requires 1 <= s < k < e && s % 2 == 1 && k % 2 == 0
    requires Context(t, toks, s, e) && LPassesFrom(t, toks, s, k)
    ensures Context(t, toks, s, k - 1)
  {
  }

  lemma ContextRightChild(t: Table, toks: seq<string>, s: int, k: int, e: int)
    requires 1 <= s < k < e
    requires Context(t, toks, s, e) && RPassesTo(t, toks, k, e + 1)
    ensures Context(t, toks, k + 1, e)
  {
  }

  /** A weight-correct tree placed from s to e, in a context where the
      scans stop at its edges. */
  predicate InContext(t: Table, toks: seq<string>, tree: Tree<string>, s: int, e: int) {
    && At(t, toks, tree, s) && e == End(tree, s) && OpsKnown(t, tree) && IsWeightCorrect(t, tree)
    && Context(t, toks, s, e)
  }

  /** The facts about the root of a weight-correct tree in context. */
  lemma WeightNodeStep(t: Table, toks: seq<string>, tree: Tree<string>, s: int, e: int) returns (k: int)
    requires tree.Node? && InContext(t, toks, tree, s, e)
    ensures k == s + NumToks(tree.left) && Range(t, toks, k) == (s, e)
    ensures InContext(t, toks, tree.left, s, k - 1) && InContext(t, toks, tree.right, k + 1, e)
  {
    WeightCorrectNodeElim(t, tree);
    k := AtNode(t, toks, tree, s);
    AtEnd(t, toks, tree, s);
    WeightLeftPasses(t, toks, tree.left, s, k);
    WeightRightPasses(t, toks, tree.right, k + 1, k);
    RootRange(t, toks, s, k, e);
    ContextLeftChild(t, toks, s, k, e);
    ContextRightChild(t, toks, s, k, e);
  }

  /** A weight-correct tree, in a context where the scans stop at its
      edges, is range correct. */
  lemma {:induction false} WeightImpliesRange(t: Table, toks: seq<string>, tree: Tree<string>, s: int, e: int)
    requires InContext(t, toks, tree, s, e)
    decreases tree
    ensures IsRangeCorrect(t, toks, tree, s, e)
  {
    if tree.Node? {
      var k := WeightNodeStep(t, toks, tree, s, e);
      WeightImpliesRange(t, toks, tree.left, s, k - 1);
      WeightImpliesRange(t, toks, tree.right, k + 1, e);
      RangeCorrectNodeIntro(t, toks, tree, s, k, e);
    }
  }

  /* ---------- range correct ==> weight correct ---------- */

  /** Every operator strictly between s and e has its range inside [s, e]. */
  predicate Nested(t: Table, toks: seq<string>, s: int, e: int) {
    forall x :: s < x < e && x % 2 == 0 ==> s <= Range(t, toks, x).0 && Range(t, toks, x).1 <= e
  }

  /** A range-correct tree placed from s to e. */
  predicate RangePlaced(t: Table, toks: seq<string>, tree: Tree<string>, s: int, e: int) {
    At(t, toks, tree, s) && e == End(tree, s) && IsRangeCorrect(t, toks, tree, s, e)
  }

  /** The children of a range-correct placed node are range-correct and
      placed, either side of a root whose range is the node's stretch. */
  lemma RangeNodeSplit(t: Table, toks: seq<string>, tree: Tree<string>, s: int, e: int) returns (k: int)
    requires tree.Node? && RangePlaced(t, toks, tree, s, e)
    ensures s < k < e && k % 2 == 0 && Range(t, toks, k) == (s, e)
    ensures RangePlaced(t, toks, tree.left, s, k - 1)
    ensures RangePlaced(t, toks, tree.right, k + 1, e)
  {
    k := AtNode(t, toks, tree, s);
    RangeCorrectNodeElim(t, toks, tree, s, k, e);
  }

  /** Nesting on both sides of a root whose range is [s, e] is nesting
      over [s, e]. */
  lemma NestJoin(t: Table, toks: seq<string>, s: int, k: int, e: int)
    requires s < k < e && k % 2 == 0 && Range(t, toks, k) == (s, e)
    requires Nested(t, toks, s, k - 1) && Nested(t, toks, k + 1, e)
    ensures Nested(t, toks, s, e)
  {
    forall x | s < x < e && x % 2 == 0
      ensures s <= Range(t, toks, x).0 && Range(t, toks, x).1 <= e
    {
      if x < k {
        assert x != k - 1;
      } else if x > k {
        assert x != k + 1;
      }
    }
  }

  /** Ranges nest: in a range-correct subtree placed from s to e, every
      operator's range stays inside [s, e]. */
  lemma {:induction false} RangeNest(t: Table, toks: seq<string>, tree: Tree<string>, s: int, e: int)
    requires RangePlaced(t, toks, tree, s, e)
    decreases tree
    ensures Nested(t, toks, s, e)
  {
    if tree.Node? {
      var k := RangeNodeSplit(t, toks, tree, s, e);
      RangeNest(t, toks, tree.left, s, k - 1);
      RangeNest(t, toks, tree.right, k + 1, e);
      NestJoin(t, toks, s, k, e);
    }
  }

  /** If the leftward scan from k passes every operator after a < j, and
      no operator strictly inside (j, k) has a range reaching back to j,
      then the scan passes j because of j's RBP alone: it is at least k's
      LBP. */
  lemma MinLBound(t: Table, toks: seq<string>, a: int, j: int, k: int)
    requires |toks| % 2 == 1 && IsOpPos(toks, j) && IsOpPos(toks, k) && a < j < k
    requires LPassesFrom(t, toks, a, k)
    requires forall x :: j + 1 < x < k - 1 && x % 2 == 0 ==> j + 1 <= Range(t, toks, x).0
    ensures Rp(t, toks, j) >= Lp(t, toks, k)
  {
    Parity(j);
    Parity(k);
    var i := MinLAfterAttained(t, toks, j, k);
    if i != k && Lp(t, toks, i) < Lp(t, toks, k) {
      assert i != j + 1 && i != k - 1;
      var r := LRangeFacts(t, toks, i);
      assert Range(t, toks, i).0 > j;
      Parity(r);
      assert Lpass(t, toks, r - 1, k);
      MinLAfterSub(t, toks, j, r - 1, k, k);
      MinLAfterLeAt(t, toks, r - 1, i, i);
      assert false;
    }
    assert Lpass(t, toks, j, k);
  }

  /** The mirror image: if the rightward scan from k passes every operator
      before b > j, and no operator strictly inside (k, j) has a range
      reaching j, then j's LBP is above k's RBP. */
  lemma MinRBound(t: Table, toks: seq<string>, k: int, j: int, b: int)
    requires |toks| % 2 == 1 && IsOpPos(toks, k) && IsOpPos(toks, j) && k < j < b
    requires RPassesTo(t, toks, k, b)
    requires forall x :: k + 1 < x < j - 1 && x % 2 == 0 ==> Range(t, toks, x).1 <= j - 1
    ensures Lp(t, toks, j) > Rp(t, toks, k)
  {
    Parity(j);
    Parity(k);
    var i := MinRUpToAttained(t, toks, k, j);
    if i != k && Rp(t, toks, i) < Rp(t, toks, k) {
      assert i != k + 1 && i != j - 1;
      var r := RRangeFacts(t, toks, i);
      assert Range(t, toks, i).1 < j;
      Parity(r);
      assert Rpass(t, toks, k, r + 1);
      MinRUpToSub(t, toks, k, k, r + 1, j);
      MinRUpToLeAt(t, toks, i, r + 1, i);
      assert false;
    }
    MinRUpToLeAt(t, toks, k, j, k);
    assert Rpass(t, toks, k, j);
  }

  /** The right weight of a node is bounded below as soon as its root's
      RBP and its right child's right weight are. */
  lemma RightWeightAtLeast(t: Table, tree: Tree<string>, x: int)
    requires tree.Node? && OpsKnown(t, tree)
    requires t.rbp[tree.op] >= x && Geq(RightWeight(t, tree.right), x)
    ensures Geq(RightWeight(t, tree), x)
  {
  }

  lemma LeftWeightAbove(t: Table, tree: Tree<string>, x: int)
    requires tree.Node? && OpsKnown(t, tree)
    requires t.lbp[tree.op] > x && Gt(LeftWeight(t, tree.left), x)
    ensures Gt(LeftWeight(t, tree), x)
  {
  }

  /** One step of `_is_weight_correct` at a node, read backwards ... */
  lemma WeightCorrectNodeElim(t: Table, tree: Tree<string>)
    requires tree.Node? && OpsKnown(t, tree) && IsWeightCorrect(t, tree)
    ensures Known(t, tree.op) && OpsKnown(t, tree.left) && OpsKnown(t, tree.right)
    ensures IsWeightCorrect(t, tree.left) && IsWeightCorrect(t, tree.right)
    ensures Gt(LeftWeight(t, tree.right), t.rbp[tree.op])
    ensures Geq(RightWeight(t, tree.left), t.lbp[tree.op])
  {
  }

  /** ... and forwards. */
  lemma WeightCorrectNodeIntro(t: Table, tree: Tree<string>)
    requires tree.Node? && Known(t, tree.op) && OpsKnown(t, tree.left) && OpsKnown(t, tree.right)
    requires IsWeightCorrect(t, tree.left) && IsWeightCorrect(t, tree.right)
    requires Gt(LeftWeight(t, tree.right), t.rbp[tree.op])
    requires Geq(RightWeight(t, tree.left), t.lbp[tree.op])
    ensures OpsKnown(t, tree) && IsWeightCorrect(t, tree)
  {
  }

  /** The root of a range-correct left operand of the operator at k: its
      RBP is at least k's LBP, and the scan still passes its right child. */
  lemma RangeLeftStep(t: Table, toks: seq<string>, a: Tree<string>, s: int, e: int, k: int) returns (m: int)
    requires a.Node? && At(t, toks, a, s) && e == End(a, s) && k == e + 1 && IsOpPos(toks, k)
    requires IsRangeCorrect(t, toks, a, s, e)
    requires LPassesFrom(t, toks, s, k)
    ensures OpsKnown(t, a) && t.rbp[a.op] >= Lp(t, toks, k)
    ensures At(t, toks, a.right, m + 1) && End(a.right, m + 1) == e
    ensures IsRangeCorrect(t, toks, a.right, m + 1, e)
    ensures LPassesFrom(t, toks, m + 1, k)
  {
    AtKnown(t, toks, a, s);
    m := AtNode(t, toks, a, s);
    RangeCorrectNodeElim(t, toks, a, s, m, e);
    RangeNest(t, toks, a.right, m + 1, e);
    MinLBound(t, toks, s, m, k);
  }

  /** The root of a range-correct right operand of the operator at k: its
      LBP is above k's RBP, and the scan still passes its left child. */
  lemma RangeRightStep(t: Table, toks: seq<string>, b: Tree<string>, s: int, e: int, k: int) returns (m: int)
    requires b.Node? && At(t, toks, b, s) && e == End(b, s) && k == s - 1 && IsOpPos(toks, k)
    requires IsRangeCorrect(t, toks, b, s, e)
    requires RPassesTo(t, toks, k, e)
    ensures OpsKnown(t, b) && t.lbp[b.op] > Rp(t, toks, k)
    ensures At(t, toks, b.left, s) && End(b.left, s) == m - 1
    ensures IsRangeCorrect(t, toks, b.left, s, m - 1)
    ensures RPassesTo(t, toks, k, m - 1)
  {
    AtKnown(t, toks, b, s);
    m := AtNode(t, toks, b, s);
    RangeCorrectNodeElim(t, toks, b, s, m, e);
    RangeNest(t, toks, b.left, s, m - 1);
    MinRBound(t, toks, k, m, e);
  }

  /** A range-correct left operand of the operator at k, which the leftward
      scan from k passes, has right weight at least k's LBP. */
  lemma {:induction false} RangeLeftWeight(t: Table, toks: seq<string>, a: Tree<string>, s: int, e: int, k: int)
    requires At(t, toks, a, s) && e == End(a, s) && k == e + 1 && IsOpPos(toks, k)
    requires IsRangeCorrect(t, toks, a, s, e)
    requires LPassesFrom(t, toks, s, k)
    decreases a
    ensures OpsKnown(t, a) && Geq(RightWeight(t, a), Lp(t, toks, k))
  {
    AtKnown(t, toks, a, s);
    if a.Node? {
      var m := RangeLeftStep(t, toks, a, s, e, k);
      RangeLeftWeight(t, toks, a.right, m + 1, e, k);
      RightWeightAtLeast(t, a, Lp(t, toks, k));
    }
  }

  /** A range-correct right operand of the operator at k, which the
      rightward scan from k passes, has left weight above k's RBP. */
  lemma {:induction false} RangeRightWeight(t: Table, toks: seq<string>, b: Tree<string>, s: int, e: int, k: int)
    requires At(t, toks, b, s) && e == End(b, s) && k == s - 1 && IsOpPos(toks, k)
    requires IsRangeCorrect(t, toks, b, s, e)
    requires RPassesTo(t, toks, k, e)
    decreases b
    ensures OpsKnown(t, b) && Gt(LeftWeight(t, b), Rp(t, toks, k))
  {
    AtKnown(t, toks, b, s);
    if b.Node? {
      var m := RangeRightStep(t, toks, b, s, e, k);
      RangeRightWeight(t, toks, b.left, s, m - 1, k);
      LeftWeightAbove(t, b, Rp(t, toks, k));
    }
  }

  /** The scans of an operator pass everything inside its range. */
  lemma RangePasses(t: Table, toks: seq<string>, k: int, s: int, e: int)
    requires |toks| % 2 == 1 && IsOpPos(toks, k) && Range(t, toks, k) == (s, e)
    ensures LPassesFrom(t, toks, s, k) && RPassesTo(t, toks, k, e)
  {
    var rl := LRangeFacts(t, toks, k);
    var rr := RRangeFacts(t, toks, k);
  }

  /** The root of a range-correct tree binds its children as
      `_is_weight_correct` demands. */
  lemma RangeRootWeights(t: Table, toks: seq<string>, tree: Tree<string>, s: int, e: int)
    requires tree.Node? && At(t, toks, tree, s) && e == End(tree, s) && IsRangeCorrect(t, toks, tree, s, e)
    ensures Known(t, tree.op) && OpsKnown(t, tree.left) && OpsKnown(t, tree.right)
    ensures Geq(RightWeight(t, tree.left), t.lbp[tree.op])
    ensures Gt(LeftWeight(t, tree.right), t.rbp[tree.op])
  {
    var k := AtNode(t, toks, tree, s);
    RangeCorrectNodeElim(t, toks, tree, s, k, e);
    RangePasses(t, toks, k, s, e);
    LeftOperandWeight(t, toks, tree, s, k);
    RightOperandWeight(t, toks, tree, e, k);
  }

  lemma LeftOperandWeight(t: Table, toks: seq<string>, tree: Tree<string>, s: int, k: int)
    requires tree.Node? && At(t, toks, tree.left, s) && k - 1 == End(tree.left, s)
    requires IsOpPos(toks, k) && IsRangeCorrect(t, toks, tree.left, s, k - 1) && LPassesFrom(t, toks, s, k)
    requires Known(t, tree.op) && Lp(t, toks, k) == t.lbp[tree.op]
    ensures OpsKnown(t, tree.left) && Geq(RightWeight(t, tree.left), t.lbp[tree.op])
  {
    RangeLeftWeight(t, toks, tree.left, s, k - 1, k);
  }

  lemma RightOperandWeight(t: Table, toks: seq<string>, tree: Tree<string>, e: int, k: int)
    requires tree.Node? && At(t, toks, tree.right, k + 1) && e == End(tree.right, k + 1)
    requires IsOpPos(toks, k) && IsRangeCorrect(t, toks, tree.right, k + 1, e) && RPassesTo(t, toks, k, e)
    requires Known(t, tree.op) && Rp(t, toks, k) == t.rbp[tree.op]
    ensures OpsKnown(t, tree.right) && Gt(LeftWeight(t, tree.right), t.rbp[tree.op])
  {
    RangeRightWeight(t, toks, tree.right, k + 1, e, k);
  }

  /** A range-correct tree is weight correct. */
  lemma {:induction false} RangeImpliesWeight(t: Table, toks: seq<string>, tree: Tree<string>, s: int, e: int)
    requires At(t, toks, tree, s) && e == End(tree, s) && IsRangeCorrect(t, toks, tree, s, e)
    decreases tree
    ensures OpsKnown(t, tree) && IsWeightCorrect(t, tree)
  {
    if tree.Node? {
      var k := AtNode(t, toks, tree, s);
      RangeCorrectNodeElim(t, toks, tree, s, k, e);
      RangeImpliesWeight(t, toks, tree.left, s, k - 1);
      RangeImpliesWeight(t, toks, tree.right, k + 1, e);
      RangeRootWeights(t, toks, tree, s, e);
      WeightCorrectNodeIntro(t, tree);
    }
  }

  /* ---------- uniqueness and the two oracles ---------- */

  /** Two range-correct trees placed over the same stretch from s to e of
      an odd-length list. */
  predicate BothPlaced(t: Table, toks: seq<string>, t1: Tree<string>, t2: Tree<string>, s: int, e: int) {
    && |toks| % 2 == 1 && 1 <= s && s % 2 == 1 && e <= |toks|
    && e == End(t1, s) && e == End(t2, s) && Placed(toks, t1, s) && Placed(toks, t2, s)
    && IsRangeCorrect(t, toks, t1, s, e) && IsRangeCorrect(t, toks, t2, s, e)
  }

  /** Two trees placed over the same stretch are both atoms, and then
      equal, or both nodes. */
  lemma SameShape(t: Table, toks: seq<string>, t1: Tree<string>, t2: Tree<string>, s: int, e: int)
    requires BothPlaced(t, toks, t1, t2, s, e)
    ensures t1.Node? == t2.Node? && (t1.Atom? ==> t1 == t2)
  {
  }

  /** Two range-correct nodes placed over the same stretch have the same
      root position and operator. */
  lemma RangeSameRoot(t: Table, toks: seq<string>, t1: Tree<string>, t2: Tree<string>, s: int, e: int) returns (k: int)
    requires t1.Node? && t2.Node? && BothPlaced(t, toks, t1, t2, s, e)
    ensures t1.op == t2.op
    ensures BothPlaced(t, toks, t1.left, t2.left, s, k - 1)
    ensures BothPlaced(t, toks, t1.right, t2.right, k + 1, e)
  {
    k := NodeRoot(t1, s, e);
    var k2 := NodeRoot(t2, s, e);
    RangeCorrectNodeElim(t, toks, t1, s, k, e);
    RangeCorrectNodeElim(t, toks, t2, s, k2, e);
    RangeDetermines(t, toks, k, k2);
    PlacedNodeElim(toks, t1, s, k);
    PlacedNodeElim(toks, t2, s, k);
  }

  /** The children of a placed node are placed either side of its root. */
  lemma PlacedNodeElim(toks: seq<string>, tree: Tree<string>, s: int, k: int)
    requires tree.Node? && k == s + NumToks(tree.left) && Placed(toks, tree, s)
    ensures 1 <= k <= |toks| && toks[k - 1] == tree.op
    ensures Placed(toks, tree.left, s) && Placed(toks, tree.right, k + 1)
  {
  }

  /** At most one range-correct tree covers a stretch of the token list. */
  lemma {:induction false} RangeUnique(t: Table, toks: seq<string>, t1: Tree<string>, t2: Tree<string>, s: int, e: int)
    requires BothPlaced(t, toks, t1, t2, s, e)
    decreases t1
    ensures t1 == t2
  {
    SameShape(t, toks, t1, t2, s, e);
    if t1.Node? {
      var k := RangeSameRoot(t, toks, t1, t2, s, e);
      RangeUnique(t, toks, t1.left, t2.left, s, k - 1);
      RangeUnique(t, toks, t1.right, t2.right, k + 1, e);
    }
  }

  /** A tree whose tokens are the whole list sits at position 1. */
  lemma AtWhole(t: Table, toks: seq<string>, tree: Tree<string>)
    requires OracleList(t, toks) && Flat(tree) == toks
    ensures At(t, toks, tree, 1) && End(tree, 1) == |toks| && Context(t, toks, 1, |toks|)
    ensures OpsKnown(t, tree)
  {
    assert toks[0..|toks|] == toks;
    NumToksIsLength(tree);
    SliceIsPlaced(toks, tree, 1);
    AtKnown(t, toks, tree, 1);
  }

  /** The two oracles agree: a tree whose tokens are the list is weight
      correct exactly when it is range correct from 1 to the list's end. */
  lemma WeightIffRange(t: Table, toks: seq<string>, tree: Tree<string>)
    requires OracleList(t, toks) && Flat(tree) == toks
    ensures OpsKnown(t, tree)
    ensures IsWeightCorrect(t, tree) <==> IsRangeCorrect(t, toks, tree, 1, |toks|)
  {
    AtWhole(t, toks, tree);
    if IsWeightCorrect(t, tree) {
      WeightImpliesRange(t, toks, tree, 1, |toks|);
    }
    if IsRangeCorrect(t, toks, tree, 1, |toks|) {
      RangeImpliesWeight(t, toks, tree, 1, |toks|);
    }
  }

  /** At most one tree over a token list is weight correct. */
  lemma WeightCorrectUnique(t: Table, toks: seq<string>, t1: Tree<string>, t2: Tree<string>)
    requires OracleList(t, toks) && Flat(t1) == toks && Flat(t2) == toks
    requires OpsKnown(t, t1) && IsWeightCorrect(t, t1)
    requires OpsKnown(t, t2) && IsWeightCorrect(t, t2)
    ensures t1 == t2
  {
    AtWhole(t, toks, t1);
    AtWhole(t, toks, t2);
    WeightIffRange(t, toks, t1);
    WeightIffRange(t, toks, t2);
    RangeUnique(t, toks, t1, t2, 1, |toks|);
  }
}

=== FILE: climbing.dfy ===
/** The precedence-climbing parser of `pcp_ir_0` and `direct_pcp_ir_0`:
    `parse_expr` reads one operand, then loops while the current operator
    binds more strongly on its left than the threshold, each pass parsing
    the right operand with the operator's RBP as the new threshold.

    The cursor closure only ever moves forward, so a parser state is the
    list of tokens from the cursor on (`Tokenizers.ToksOnRemaining`). */
module Climbing {
  import opened Wrappers
  import opened Tables
  import opened Trees
  import opened Weights
  import opened Ranges
  import opened Agreement
  import opened Enumeration
  import opened Tokenizers

  /** A name that may stand between two operands: both powers known, LBP
      positive, RBP not negative. */
  predicate RealOp(t: Table, x: string) {
    x in t.lbp && x in t.rbp && t.lbp[x] > 0 && t.rbp[x] >= 0
  }

  /** The tokens from an operator position on: operator, operand, ...,
      operator, operand, `$END`, where `$END` has a negative LBP. */
  predicate OpSeq(t: Table, s: seq<string>) {
    && |s| % 2 == 1
    && s[|s| - 1] == END && END in t.lbp && t.lbp[END] < 0
    && forall i :: 0 <= i < |s| - 1 && i % 2 == 0 ==> RealOp(t, s[i])
  }

  /** A token list the parsers accept: a first token that is never
      inspected (`$BEGIN`), an operand, then an operator sequence. */
  predicate WellFormed(t: Table, toks: seq<string>) {
    |toks| >= 3 && OpSeq(t, toks[2..])
  }

  lemma OpSeqTail(t: Table, s: seq<string>)
    requires OpSeq(t, s) && |s| >= 3
    ensures RealOp(t, s[0]) && OpSeq(t, s[2..])
  {
    forall i | 0 <= i < |s[2..]| - 1 && i % 2 == 0
      ensures RealOp(t, s[2..][i])
    {
      assert s[2..][i] == s[i + 2];
    }
  }

  /** An operator sequence is either `$END` alone or starts with a real
      operator followed by an operand and another operator sequence. */
  lemma OpSeqHead(t: Table, s: seq<string>)
    requires OpSeq(t, s)
    ensures (|s| == 1 && s[0] == END) || (|s| >= 3 && RealOp(t, s[0]) && OpSeq(t, s[2..]))
  {
    if |s| >= 3 {
      OpSeqTail(t, s);
    }
  }

  /** Where the current token does not bind above 0, the sequence is over. */
  lemma OpSeqStop(t: Table, s: seq<string>)
    requires OpSeq(t, s) && t.lbp[s[0]] <= 0
    ensures s == [END]
  {
    assert 0 < |s| - 1 ==> RealOp(t, s[0]);
  }

  /** `parse_expr(toks, min_rbp)` with the cursor on the token before an
      operand: the tree and the tokens from the new cursor on. The tree's
      tokens are exactly the ones consumed, and the new current token does
      not bind above the threshold. */
  function ParseExpr(t: Table, s: seq<string>, m: int): (r: (Tree<string>, seq<string>))
    requires WellFormed(t, s) && t.lbp[END] <= m
    decreases |s|, 0
    ensures s[1..] == Flat(r.0) + r.1
    ensures |r.1| <= |s| - 2 && OpSeq(t, r.1) && t.lbp[r.1[0]] <= m
  {
    Climb(t, s[2..], Atom(s[1]), m)
  }

  /** The `while` loop of `parse_expr`, with `sub` the tree so far. */
  function Climb(t: Table, s: seq<string>, sub: Tree<string>, m: int): (r: (Tree<string>, seq<string>))
    requires OpSeq(t, s) && t.lbp[END] <= m
    decreases |s|, 1
    ensures Flat(sub) + s == Flat(r.0) + r.1
    ensures |r.1| <= |s| && OpSeq(t, r.1) && t.lbp[r.1[0]] <= m
  {
    if m < t.lbp[s[0]] then
      OpSeqTail(t, s);
      var (rt, rest) := ParseExpr(t, s, t.rbp[s[0]]);
      Climb(t, rest, Node(s[0], sub, rt), m)
    else (sub, s)
  }

  /** One round of the `while` loop: parse the right operand of `s[0]`
      with its RBP, then go on from the new node. */
  lemma ClimbStep(t: Table, s: seq<string>, sub: Tree<string>, m: int) returns (rt: Tree<string>, rest: seq<string>)
    requires OpSeq(t, s) && t.lbp[END] <= m < t.lbp[s[0]]
    ensures |s| >= 3 && RealOp(t, s[0]) && OpSeq(t, s[2..])
    ensures (rt, rest) == Climb(t, s[2..], Atom(s[1]), t.rbp[s[0]])
    ensures OpSeq(t, rest) && |rest| <= |s| - 2
    ensures Climb(t, s, sub, m) == Climb(t, rest, Node(s[0], sub, rt), m)
  {
    OpSeqTail(t, s);
    rt, rest := Climb(t, s[2..], Atom(s[1]), t.rbp[s[0]]).0, Climb(t, s[2..], Atom(s[1]), t.rbp[s[0]]).1;
  }

  /** `parse` of `pcp_ir_0`: `parse_expr` with threshold 0 from `$BEGIN`.
      It consumes every token up to `$END`. */
  function Parse(t: Table, toks: seq<string>): (tree: Tree<string>)
    requires WellFormed(t, toks)
    ensures Flat(tree) == toks[1..|toks| - 1]
  {
    var (tree, rest) := ParseExpr(t, toks, 0);
    OpSeqStop(t, rest);
    assert toks[1..] == toks[1..|toks| - 1] + [END];
    tree
  }

  /** When the top-level call returns, the current token is `$END`. */
  lemma ParseEndsAtEnd(t: Table, toks: seq<string>)
    requires WellFormed(t, toks)
    ensures ParseExpr(t, toks, 0).1 == [END]
  {
    OpSeqStop(t, ParseExpr(t, toks, 0).1);
  }

  /* ---------- the result is weight correct ---------- */

  /** One pass of the loop keeps the loop's invariant: the new node is
      weight correct, binds above the threshold on its left edge, and at
      least as strongly as the next operator on its right edge. */
  lemma ClimbNode(t: Table, sub: Tree<string>, op: string, rt: Tree<string>, m: int, next: int)
    requires RealOp(t, op) && m < t.lbp[op] && next <= t.rbp[op]
    requires OpsKnown(t, sub) && IsWeightCorrect(t, sub)
    requires Gt(LeftWeight(t, sub), m) && Geq(RightWeight(t, sub), t.lbp[op])
    requires OpsKnown(t, rt) && IsWeightCorrect(t, rt)
    requires Gt(LeftWeight(t, rt), t.rbp[op]) && Geq(RightWeight(t, rt), next)
    ensures OpsKnown(t, Node(op, sub, rt)) && IsWeightCorrect(t, Node(op, sub, rt))
    ensures Gt(LeftWeight(t, Node(op, sub, rt)), m) && Geq(RightWeight(t, Node(op, sub, rt)), next)
  {
    WeightCorrectNodeIntro(t, Node(op, sub, rt));
    LeftWeightAbove(t, Node(op, sub, rt), m);
    RightWeightAtLeast(t, Node(op, sub, rt), next);
  }

  lemma {:induction false} ParseExprSound(t: Table, s: seq<string>, m: int)
    requires WellFormed(t, s) && t.lbp[END] <= m
    decreases |s|, 0
    ensures OpsKnown(t, ParseExpr(t, s, m).0) && IsWeightCorrect(t, ParseExpr(t, s, m).0)
    ensures Gt(LeftWeight(t, ParseExpr(t, s, m).0), m)
    ensures Geq(RightWeight(t, ParseExpr(t, s, m).0), t.lbp[ParseExpr(t, s, m).1[0]])
  {
    ClimbSound(t, s[2..], Atom(s[1]), m);
  }

  lemma {:induction false} ClimbSound(t: Table, s: seq<string>, sub: Tree<string>, m: int)
    requires OpSeq(t, s) && t.lbp[END] <= m
    requires OpsKnown(t, sub) && IsWeightCorrect(t, sub)
    requires Gt(LeftWeight(t, sub), m) && Geq(RightWeight(t, sub), t.lbp[s[0]])
    decreases |s|, 1
    ensures OpsKnown(t, Climb(t, s, sub, m).0) && IsWeightCorrect(t, Climb(t, s, sub, m).0)
    ensures Gt(LeftWeight(t, Climb(t, s, sub, m).0), m)
    ensures Geq(RightWeight(t, Climb(t, s, sub, m).0), t.lbp[Climb(t, s, sub, m).1[0]])
  {
    if m < t.lbp[s[0]] {
      OpSeqTail(t, s);
      var op := s[0];
      var (rt, rest) := ParseExpr(t, s, t.rbp[op]);
      ParseExprSound(t, s, t.rbp[op]);
      ClimbNode(t, sub, op, rt, m, t.lbp[rest[0]]);
      ClimbSound(t, rest, Node(op, sub, rt), m);
    }
  }

  /** The inner tokens of a well-formed list form an oracle list. */
  lemma InnerIsOracleList(t: Table, toks: seq<string>)
    requires WellFormed(t, toks)
    ensures OracleList(t, toks[1..|toks| - 1])
  {
    var inner := toks[1..|toks| - 1];
    forall i | 0 <= i < |inner| && i % 2 == 1
      ensures Known(t, inner[i])
    {
      assert inner[i] == toks[2..][i - 1];
    }
  }

  /** `parse` returns the weight-correct tree over the inner tokens, and it
      is the only one: any weight-correct tree over them is this tree. */
  lemma ParseCorrect(t: Table, toks: seq<string>)
    requires WellFormed(t, toks)
    ensures OpsKnown(t, Parse(t, toks)) && IsWeightCorrect(t, Parse(t, toks))
    ensures forall other :: Flat(other) == toks[1..|toks| - 1] && OpsKnown(t, other) && IsWeightCorrect(t, other) ==> other == Parse(t, toks)
  {
    ParseExprSound(t, toks, 0);
    InnerIsOracleList(t, toks);
    forall other | Flat(other) == toks[1..|toks| - 1] && OpsKnown(t, other) && IsWeightCorrect(t, other)
      ensures other == Parse(t, toks)
    {
      WeightCorrectUnique(t, toks[1..|toks| - 1], other, Parse(t, toks));
    }
  }

  /** What `_check_all_parsings` asserts about a parse: among all trees
      `_makebintrees` lists, the parse result is the only weight-correct one
      and the only range-correct one. */
  lemma ParseIsTheCorrectTree(t: Table, toks: seq<string>)
    requires WellFormed(t, toks)
    ensures MakeBinTrees(toks[1..|toks| - 1]) == Some(AllTrees(toks[1..|toks| - 1]))
    ensures WeightCorrectOnes(t, AllTrees(toks[1..|toks| - 1])) == [Parse(t, toks)]
    ensures RangeCorrectOnes(t, toks[1..|toks| - 1], AllTrees(toks[1..|toks| - 1])) == [Parse(t, toks)]
  {
    ParseCorrect(t, toks);
    InnerIsOracleList(t, toks);
    ExactlyOneCorrect(t, toks[1..|toks| - 1], Parse(t, toks));
  }

  /* ---------- direct_pcp_ir_0 ---------- */

  /** The direct demo: its own tokenizer (which updates the table), then
      the same `parse_expr` from `$BEGIN` with threshold 0. */
  function DirectParse(t: Table, cc: CharClasses, code: string): (tree: Tree<string>)
    requires WellFormed(DirectTable(t), Remaining(DirectTokenizer(t, cc, code).1))
    ensures Flat(tree) == Expand(DirectTable(t), Words(cc, code))
    ensures OpsKnown(DirectTable(t), tree) && IsWeightCorrect(DirectTable(t), tree)
  {
    var (t1, c) := DirectTokenizer(t, cc, code);
    var toks := Remaining(c);
    ParseCorrect(t1, toks);
    assert toks[1..|toks| - 1] == Expand(t1, Words(cc, code));
    Parse(t1, toks)
  }
}

=== FILE: demos.dfy ===
/** The four hard-coded examples of `direct_pcp_ir_0`, parsed with its
    table: `+` and `*` are left associative, `^` is right associative, `!`
    is postfix and `&` is prefix. */
module Demos {
  import opened Tables
  import opened Trees
  import opened Weights
  import opened Tokenizers
  import opened Climbing

  /** `LBP` and `RBP` as the demo defines them, before its tokenizer fills
      in the missing powers. */
  const DemoTable: Table := Table(
    map["+" := 14, "*" := 17, "!" := 22, "^" := 21],
    map["+" := 15, "*" := 18, "&" := 9, "^" := 20])

  /* ---------- `code.split()` of space-separated words ---------- */

  /** Words written with one space between neighbours, as in the demo's
      code strings. */
  function Join(ws: seq<string>): string {
    if |ws| <= 1 then (if ws == [] then "" else ws[0]) else ws[0] + " " + Join(ws[1..])
  }

  predicate IsWord(cc: CharClasses, w: string) {
    w != [] && forall k :: 0 <= k < |w| ==> !cc.isSpace(w[k])
  }

  /** A run of non-space characters ends at the first space or the end. */
  lemma {:induction false} RunEndAtSpace(cc: CharClasses, code: string, i: nat, j: nat, e: nat)
    requires i < j <= e <= |code|
    requires forall k :: j <= k < e ==> !cc.isSpace(code[k])
    requires e == |code| || cc.isSpace(code[e])
    decreases e - j
    ensures RunEnd(cc, code, false, i, j) == e
  {
    if j < e {
      RunEndAtSpace(cc, code, i, j + 1, e);
    }
  }

  /** The split of a text after a prefix does not depend on the prefix. */
  lemma {:induction false} RefFromShift(cc: CharClasses, a: string, b: string, i: nat)
    requires i <= |b|
    decreases |b| - i
    ensures RefFrom(cc, a + b, false, |a| + i) == RefFrom(cc, b, false, i)
  {
    var code := a + b;
    if i < |b| {
      assert code[|a| + i] == b[i];
      if !cc.isSpace(b[i]) {
        var e := RunEnd(cc, b, false, i, i + 1);
        RunEndRun(cc, b, false, i, i + 1);
        forall k | |a| + i + 1 <= k < |a| + e
          ensures !cc.isSpace(code[k])
        {
          assert code[k] == b[k - |a|];
        }
        assert e < |b| ==> code[|a| + e] == b[e];
        RunEndAtSpace(cc, code, |a| + i, |a| + i + 1, |a| + e);
        assert code[|a| + i..|a| + e] == b[i..e];
        RefFromShift(cc, a, b, e);
      } else {
        RefFromShift(cc, a, b, i + 1);
      }
    }
  }

  /** A word followed by nothing or by whitespace splits off first. */
  lemma FirstWord(cc: CharClasses, w: string, rest: string)
    requires IsWord(cc, w) && (rest == [] || cc.isSpace(rest[0]))
    ensures Words(cc, w + rest) == [w] + Words(cc, rest)
  {
    var code := w + rest;
    forall k | 1 <= k < |w|
      ensures !cc.isSpace(code[k])
    {
      assert code[k] == w[k];
    }
    assert |rest| > 0 ==> code[|w|] == rest[0];
    RunEndAtSpace(cc, code, 0, 1, |w|);
    assert code[0] == w[0] && code[0..|w|] == w;
    assert RefFrom(cc, code, false, 0) == [w] + RefFrom(cc, code, false, |w|);
    RefFromShift(cc, w, rest, 0);
  }

  /** A leading space splits to nothing. */
  lemma SkipSpace(cc: CharClasses, tail: string)
    requires cc.isSpace(' ')
    ensures Words(cc, [' '] + tail) == Words(cc, tail)
  {
    RefFromShift(cc, [' '], tail, 0);
  }

  /** Splitting words joined with single spaces yields the first word, then
      the split of the rest. */
  lemma WordsOfJoinStep(cc: CharClasses, ws: seq<string>)
    requires cc.isSpace(' ') && |ws| >= 1 && IsWord(cc, ws[0])
    ensures Words(cc, Join(ws)) == [ws[0]] + (if |ws| == 1 then [] else Words(cc, Join(ws[1..])))
  {
    if |ws| == 1 {
      FirstWord(cc, ws[0], "");
      assert Join(ws) == ws[0] + "";
    } else {
      var tail := Join(ws[1..]);
      FirstWord(cc, ws[0], [' '] + tail);
      SkipSpace(cc, tail);
      assert Join(ws) == ws[0] + ([' '] + tail);
    }
  }

  /** `code.split()` gives back the words joined with single spaces. */
  lemma {:induction false} WordsOfJoin(cc: CharClasses, ws: seq<string>)
    requires cc.isSpace(' ')
    requires forall i :: 0 <= i < |ws| ==> IsWord(cc, ws[i])
    ensures Words(cc, Join(ws)) == ws
  {
    if ws != [] {
      WordsOfJoinStep(cc, ws);
      if |ws| > 1 {
        forall i | 0 <= i < |ws[1..]|
          ensures IsWord(cc, ws[1..][i])
        {
          assert ws[1..][i] == ws[i + 1];
        }
        WordsOfJoin(cc, ws[1..]);
        assert ws == [ws[0]] + ws[1..];
      }
    }
  }

  /* ---------- the four demos ---------- */

  /** The table after the demo's tokenizer: `&` (RBP only) gets LBP 100,
      `!` (LBP only) gets RBP 100, and `$END` gets LBP -1. */
  const DemoFilled: Table := Table(
    map["+" := 14, "*" := 17, "!" := 22, "^" := 21, "&" := 100, END := -1],
    map["+" := 15, "*" := 18, "&" := 9, "^" := 20, "!" := 100])

  lemma DemoTableFilled()
    ensures DirectTable(DemoTable) == DemoFilled
  {
    FilledLbp();
    FilledRbp();
  }

  lemma FilledLbp()
    ensures DirectTable(DemoTable).lbp == DemoFilled.lbp
  {
    FilledKeys();
    var r := DirectTable(DemoTable).lbp;
    assert r["+"] == 14 && r["*"] == 17 && r["!"] == 22 && r["^"] == 21 && r["&"] == 100 && r[END] == -1;
  }

  lemma FilledRbp()
    ensures DirectTable(DemoTable).rbp == DemoFilled.rbp
  {
    FilledKeys();
    var r := DirectTable(DemoTable).rbp;
    assert r["+"] == 15 && r["*"] == 18 && r["!"] == 100 && r["^"] == 20 && r["&"] == 9;
  }

  /** The names the filled table knows. */
  lemma FilledKeys()
    ensures DirectTable(DemoTable).lbp.Keys == DemoFilled.lbp.Keys
    ensures DirectTable(DemoTable).rbp.Keys == DemoFilled.rbp.Keys
  {
    assert DemoTable.lbp.Keys == {"+", "*", "!", "^"};
    assert DemoTable.rbp.Keys == {"+", "*", "&", "^"};
  }

  /** A demo string made of words parses, through the demo's tokenizer, to
      the one weight-correct tree over its tokens. */
  lemma DemoParse(code: string, ws: seq<string>, inner: seq<string>, expected: Tree<string>)
    requires code == Join(ws) && forall w :: w in ws ==> IsWord(Ascii, w)
    requires inner == Expand(DemoFilled, ws) && WellFormed(DemoFilled, [BEGIN] + inner + [END])
    requires Flat(expected) == inner && OpsKnown(DemoFilled, expected) && IsWeightCorrect(DemoFilled, expected)
    ensures WellFormed(DirectTable(DemoTable), Remaining(DirectTokenizer(DemoTable, Ascii, code).1))
    ensures DirectParse(DemoTable, Ascii, code) == expected
  {
    DemoTableFilled();
    WordsOfJoin(Ascii, ws);
    var toks := [BEGIN] + inner + [END];
    assert toks[1..|toks| - 1] == inner;
    ParseCorrect(DemoFilled, toks);
  }

  /** `x + 3.4 * y` ==> `(+ x (* 3.4 y))`: `*` binds more strongly than `+`. */
  lemma DemoPrecedence()
    ensures WellFormed(DirectTable(DemoTable), Remaining(DirectTokenizer(DemoTable, Ascii, "x + 3.4 * y").1))
    ensures DirectParse(DemoTable, Ascii, "x + 3.4 * y") == Node("+", Atom("x"), Node("*", Atom("3.4"), Atom("y")))
  {
    Demo1Words();
    Demo1Tokens();
    Demo1Shape();
    Demo1Tree();
    DemoParse("x + 3.4 * y", ["x", "+", "3.4", "*", "y"], ["x", "+", "3.4", "*", "y"], Node("+", Atom("x"), Node("*", Atom("3.4"), Atom("y"))));
  }

  lemma Demo1Words()
    ensures "x + 3.4 * y" == Join(["x", "+", "3.4", "*", "y"])
    ensures forall w :: w in ["x", "+", "3.4", "*", "y"] ==> IsWord(Ascii, w)
  {
  }

  lemma Demo1Tokens()
    ensures Expand(DemoFilled, ["x", "+", "3.4", "*", "y"]) == ["x", "+", "3.4", "*", "y"]
  {
    assert ExpandTok(DemoFilled, "x") == ["x"];
    assert ExpandTok(DemoFilled, "+") == ["+"];
    assert ExpandTok(DemoFilled, "3.4") == ["3.4"];
    assert ExpandTok(DemoFilled, "*") == ["*"];
    assert ExpandTok(DemoFilled, "y") == ["y"];
  }

  lemma Demo1Shape()
    ensures WellFormed(DemoFilled, [BEGIN] + ["x", "+", "3.4", "*", "y"] + [END])
  {
  }

  lemma Demo1Tree()
    ensures var e := Node("+", Atom("x"), Node("*", Atom("3.4"), Atom("y")));
      Flat(e) == ["x", "+", "3.4", "*", "y"] && OpsKnown(DemoFilled, e) && IsWeightCorrect(DemoFilled, e)
  {
  }

  /** `a + b + c` ==> `(+ (+ a b) c)`: `+` is left associative (LBP 14 < RBP 15). */
  lemma DemoLeftAssoc()
    ensures WellFormed(DirectTable(DemoTable), Remaining(DirectTokenizer(DemoTable, Ascii, "a + b + c").1))
    ensures DirectParse(DemoTable, Ascii, "a + b + c") == Node("+", Node("+", Atom("a"), Atom("b")), Atom("c"))
  {
    Demo2Words();
    Demo2Tokens();
    Demo2Shape();
    Demo2Tree();
    DemoParse("a + b + c", ["a", "+", "b", "+", "c"], ["a", "+", "b", "+", "c"], Node("+", Node("+", Atom("a"), Atom("b")), Atom("c")));
  }

  lemma Demo2Words()
    ensures "a + b + c" == Join(["a", "+", "b", "+", "c"])
    ensures forall w :: w in ["a", "+", "b", "+", "c"] ==> IsWord(Ascii, w)
  {
  }

  lemma Demo2Tokens()
    ensures Expand(DemoFilled, ["a", "+", "b", "+", "c"]) == ["a", "+", "b", "+", "c"]
  {
    assert ExpandTok(DemoFilled, "a") == ["a"];
    assert ExpandTok(DemoFilled, "+") == ["+"];
    assert ExpandTok(DemoFilled, "b") == ["b"];
    assert ExpandTok(DemoFilled, "c") == ["c"];
  }

  lemma Demo2Shape()
    ensures WellFormed(DemoFilled, [BEGIN] + ["a", "+", "b", "+", "c"] + [END])
  {
  }

  lemma Demo2Tree()
    ensures var e := Node("+", Node("+", Atom("a"), Atom("b")), Atom("c"));
      Flat(e) == ["a", "+", "b", "+", "c"] && OpsKnown(DemoFilled, e) && IsWeightCorrect(DemoFilled, e)
  {
  }

  /** `n ^ m ^ k` ==> `(^ n (^ m k))`: `^` is right associative (LBP 21 > RBP 20). */
  lemma DemoRightAssoc()
    ensures WellFormed(DirectTable(DemoTable), Remaining(DirectTokenizer(DemoTable, Ascii, "n ^ m ^ k").1))
    ensures DirectParse(DemoTable, Ascii, "n ^ m ^ k") == Node("^", Atom("n"), Node("^", Atom("m"), Atom("k")))
  {
    Demo3Words();
    Demo3Tokens();
    Demo3Shape();
    Demo3Tree();
    DemoParse("n ^ m ^ k", ["n", "^", "m", "^", "k"], ["n", "^", "m", "^", "k"], Node("^", Atom("n"), Node("^", Atom("m"), Atom("k"))));
  }

  lemma Demo3Words()
    ensures "n ^ m ^ k" == Join(["n", "^", "m", "^", "k"])
    ensures forall w :: w in ["n", "^", "m", "^", "k"] ==> IsWord(Ascii, w)
  {
  }

  lemma Demo3Tokens()
    ensures Expand(DemoFilled, ["n", "^", "m", "^", "k"]) == ["n", "^", "m", "^", "k"]
  {
    assert ExpandTok(DemoFilled, "n") == ["n"];
    assert ExpandTok(DemoFilled, "^") == ["^"];
    assert ExpandTok(DemoFilled, "m") == ["m"];
    assert ExpandTok(DemoFilled, "k") == ["k"];
  }

  lemma Demo3Shape()
    ensures WellFormed(DemoFilled, [BEGIN] + ["n", "^", "m", "^", "k"] + [END])
  {
  }

  lemma Demo3Tree()
    ensures var e := Node("^", Atom("n"), Node("^", Atom("m"), Atom("k")));
      Flat(e) == ["n", "^", "m", "^", "k"] && OpsKnown(DemoFilled, e) && IsWeightCorrect(DemoFilled, e)
  {
  }

  /** `xx + b ! * & c + 1` ==> `(+ xx (* (! b $POST) (& $PRE (+ c 1))))`:
      the tokenizer puts `$POST` after the postfix `!` and `$PRE` before the
      prefix `&`, which takes `c + 1` because its RBP 9 is below `+`'s LBP. */
  lemma DemoUnary()
    ensures WellFormed(DirectTable(DemoTable), Remaining(DirectTokenizer(DemoTable, Ascii, "xx + b ! * & c + 1").1))
    ensures DirectParse(DemoTable, Ascii, "xx + b ! * & c + 1") == Node("+", Atom("xx"), Node("*", Node("!", Atom("b"), Atom(POST)), Node("&", Atom(PRE), Node("+", Atom("c"), Atom("1")))))
  {
    Demo4Words();
    Demo4Tokens();
    Demo4Shape();
    Demo4Tree();
    DemoParse("xx + b ! * & c + 1", ["xx", "+", "b", "!", "*", "&", "c", "+", "1"], ["xx", "+", "b", "!", POST, "*", PRE, "&", "c", "+", "1"], Node("+", Atom("xx"), Node("*", Node("!", Atom("b"), Atom(POST)), Node("&", Atom(PRE), Node("+", Atom("c"), Atom("1"))))));
  }

  lemma Demo4Words()
    ensures "xx + b ! * & c + 1" == Join(["xx", "+", "b", "!", "*", "&", "c", "+", "1"])
    ensures forall w :: w in ["xx", "+", "b", "!", "*", "&", "c", "+", "1"] ==> IsWord(Ascii, w)
  {
    assert Join(["xx", "+", "b", "!"]) == "xx + b !";
    assert Join(["*", "&", "c", "+", "1"]) == "* & c + 1";
    JoinHalves(["xx", "+", "b", "!"], ["*", "&", "c", "+", "1"], ["xx", "+", "b", "!", "*", "&", "c", "+", "1"],
      "xx + b !", "* & c + 1", "xx + b ! * & c + 1");
    Demo4WordsLeft();
    Demo4WordsRight();
    WordsHalves(["xx", "+", "b", "!"], ["*", "&", "c", "+", "1"], ["xx", "+", "b", "!", "*", "&", "c", "+", "1"]);
  }

  lemma Demo4WordsLeft()
    ensures forall w :: w in ["xx", "+", "b", "!"] ==> IsWord(Ascii, w)
  {
  }

  lemma Demo4WordsRight()
    ensures forall w :: w in ["*", "&", "c", "+", "1"] ==> IsWord(Ascii, w)
  {
  }

  lemma WordsHalves(a: seq<string>, b: seq<string>, ab: seq<string>)
    requires ab == a + b
    requires forall w :: w in a ==> IsWord(Ascii, w)
    requires forall w :: w in b ==> IsWord(Ascii, w)
    ensures forall w :: w in ab ==> IsWord(Ascii, w)
  {
  }

  lemma JoinHalves(a: seq<string>, b: seq<string>, ab: seq<string>, ca: string, cb: string, code: string)
    requires a != [] && b != [] && ab == a + b && code == ca + " " + cb
    requires Join(a) == ca && Join(b) == cb
    ensures Join(ab) == code
  {
    JoinAppend(a, b);
  }

  /** Joining two non-empty lists of words puts one space between them. */
  lemma {:induction false} JoinAppend(a: seq<string>, b: seq<string>)
    requires a != [] && b != []
    ensures Join(a + b) == Join(a) + " " + Join(b)
  {
    if |a| > 1 {
      assert (a + b)[1..] == a[1..] + b;
      JoinAppend(a[1..], b);
    } else {
      assert (a + b)[1..] == b;
    }
  }

  lemma Demo4Tokens()
    ensures Expand(DemoFilled, ["xx", "+", "b", "!", "*", "&", "c", "+", "1"]) == ["xx", "+", "b", "!", POST, "*", PRE, "&", "c", "+", "1"]
  {
    Demo4TokensLeft();
    Demo4TokensRight();
    ExpandHalves(["xx", "+", "b", "!"], ["*", "&", "c", "+", "1"], ["xx", "+", "b", "!", "*", "&", "c", "+", "1"],
      ["xx", "+", "b", "!", POST], ["*", PRE, "&", "c", "+", "1"], ["xx", "+", "b", "!", POST, "*", PRE, "&", "c", "+", "1"]);
  }

  lemma ExpandHalves(a: seq<string>, b: seq<string>, ab: seq<string>, ea: seq<string>, eb: seq<string>, eab: seq<string>)
    requires ab == a + b && eab == ea + eb
    requires Expand(DemoFilled, a) == ea && Expand(DemoFilled, b) == eb
    ensures Expand(DemoFilled, ab) == eab
  {
    ExpandAppend(DemoFilled, a, b);
  }

  lemma Demo4TokensLeft()
    ensures Expand(DemoFilled, ["xx", "+", "b", "!"]) == ["xx", "+", "b", "!", POST]
  {
    assert ExpandTok(DemoFilled, "xx") == ["xx"];
    assert ExpandTok(DemoFilled, "+") == ["+"];
    assert ExpandTok(DemoFilled, "b") == ["b"];
    assert ExpandTok(DemoFilled, "!") == ["!", POST];
  }

  lemma Demo4TokensRight()
    ensures Expand(DemoFilled, ["*", "&", "c", "+", "1"]) == ["*", PRE, "&", "c", "+", "1"]
  {
    assert ExpandTok(DemoFilled, "*") == ["*"];
    assert ExpandTok(DemoFilled, "&") == [PRE, "&"];
    assert ExpandTok(DemoFilled, "c") == ["c"];
    assert ExpandTok(DemoFilled, "+") == ["+"];
    assert ExpandTok(DemoFilled, "1") == ["1"];
  }

  lemma Demo4Shape()
    ensures WellFormed(DemoFilled, [BEGIN] + ["xx", "+", "b", "!", POST, "*", PRE, "&", "c", "+", "1"] + [END])
  {
  }

  /** The postfix node `(! b $POST)`. */
  lemma Demo4Postfix()
    ensures var e := Node("!", Atom("b"), Atom(POST));
      Flat(e) == ["b", "!", POST] && OpsKnown(DemoFilled, e) && IsWeightCorrect(DemoFilled, e)
      && LeftWeight(DemoFilled, e) == Fin(22) && RightWeight(DemoFilled, e) == Fin(100)
  {
  }

  /** The sum node `(+ c 1)`. */
  lemma Demo4Sum()
    ensures var e := Node("+", Atom("c"), Atom("1"));
      OpsKnown(DemoFilled, e) && IsWeightCorrect(DemoFilled, e) && LeftWeight(DemoFilled, e) == Fin(14)
  {
  }

  /** The prefix node `(& $PRE (+ c 1))`. */
  lemma Demo4Prefix()
    ensures var e := Node("&", Atom(PRE), Node("+", Atom("c"), Atom("1")));
      Flat(e) == [PRE, "&", "c", "+", "1"] && OpsKnown(DemoFilled, e) && IsWeightCorrect(DemoFilled, e)
      && LeftWeight(DemoFilled, e) == Fin(100)
  {
    Demo4Sum();
  }

  lemma Demo4Product()
    ensures var e := Node("*", Node("!", Atom("b"), Atom(POST)), Node("&", Atom(PRE), Node("+", Atom("c"), Atom("1"))));
      Flat(e) == ["b", "!", POST, "*", PRE, "&", "c", "+", "1"] && OpsKnown(DemoFilled, e) && IsWeightCorrect(DemoFilled, e)
      && LeftWeight(DemoFilled, e) == Fin(17)
  {
    Demo4Postfix();
    Demo4Prefix();
  }

  lemma Demo4Tree()
    ensures var e := Node("+", Atom("xx"), Node("*", Node("!", Atom("b"), Atom(POST)), Node("&", Atom(PRE), Node("+", Atom("c"), Atom("1")))));
      Flat(e) == ["xx", "+", "b", "!", POST, "*", PRE, "&", "c", "+", "1"] && OpsKnown(DemoFilled, e) && IsWeightCorrect(DemoFilled, e)
  {
    Demo4Product();
  }
}

=== FILE: enumeration.dfy ===
/** `_makebintrees`: the brute-force list of every binary tree over a token
    list, and what `_check_all_parsings` relies on: each of them has the
    list as its tokens, every such tree is listed exactly once, there are
    Catalan-many of them, and exactly one is weight (and range) correct. */
module Enumeration {
  import opened Wrappers
  import opened Tables
  import opened Trees
  import opened Weights
  import opened Ranges
  import opened Agreement

  /** `[[op, l, r] for r in rs]`: one row of the product. */
  function Row(op: string, l: Tree<string>, rs: seq<Tree<string>>): (res: seq<Tree<string>>)
    ensures |res| == |rs|
    ensures forall x :: x in res <==> x.Node? && x.op == op && x.left == l && x.right in rs
  {
    if rs == [] then []
    else
      assert forall y :: y in rs <==> y == rs[0] || y in rs[1..];
      [Node(op, l, rs[0])] + Row(op, l, rs[1..])
  }

  /** `[[op, l, r] for l in ls for r in rs]`, left operand in the outer loop. */
  function Cross(op: string, ls: seq<Tree<string>>, rs: seq<Tree<string>>): (res: seq<Tree<string>>)
    ensures |res| == |ls| * |rs|
    ensures forall x :: x in res <==> x.Node? && x.op == op && x.left in ls && x.right in rs
  {
    if ls == [] then []
    else
      assert forall y :: y in ls <==> y == ls[0] || y in ls[1..];
      assert |ls| * |rs| == |rs| + (|ls| - 1) * |rs|;
      Row(op, ls[0], rs) + Cross(op, ls[1..], rs)
  }

  /** All trees over an odd-length token list. */
  function AllTrees(toks: seq<string>): (res: seq<Tree<string>>)
    requires |toks| % 2 == 1
    decreases |toks|, 1, 0
  {
    if |toks| == 1 then [Atom(toks[0])] else RootsFrom(toks, 1)
  }

  /** The trees whose root operator sits at position k, k + 2, ... */
  function RootsFrom(toks: seq<string>, k: int): (res: seq<Tree<string>>)
    requires |toks| % 2 == 1 && 1 <= k && k % 2 == 1
    decreases |toks|, 0, |toks| - k
  {
    if k >= |toks| then []
    else Cross(toks[k], AllTrees(toks[..k]), AllTrees(toks[k + 1..])) + RootsFrom(toks, k + 2)
  }

  /** `_makebintrees(toklis)`: None (the "invalid argument" path) for an
      empty or even-length list. */
  function MakeBinTrees(toks: seq<string>): (res: Option<seq<Tree<string>>>)
    ensures res.None? <==> |toks| == 0 || |toks| % 2 == 0
  {
    if |toks| == 0 || |toks| % 2 == 0 then None else Some(AllTrees(toks))
  }

  /* ---------- every listed tree has the list as its tokens ---------- */

  lemma CrossFlat(op: string, ls: seq<Tree<string>>, rs: seq<Tree<string>>, a: seq<string>, b: seq<string>)
    requires forall l :: l in ls ==> Flat(l) == a
    requires forall r :: r in rs ==> Flat(r) == b
    ensures forall x :: x in Cross(op, ls, rs) ==> Flat(x) == a + [op] + b
  {
  }

  /** Every tree of the list has in-order traversal `toks`. */
  lemma {:induction false} AllTreesFlat(toks: seq<string>)
    requires |toks| % 2 == 1
    decreases |toks|, 1, 0
    ensures forall x :: x in AllTrees(toks) ==> Flat(x) == toks
  {
    if |toks| > 1 {
      RootsFromFlat(toks, 1);
    }
  }

  lemma {:induction false} RootsFromFlat(toks: seq<string>, k: int)
    requires |toks| % 2 == 1 && 1 <= k && k % 2 == 1
    decreases |toks|, 0, |toks| - k
    ensures forall x :: x in RootsFrom(toks, k) ==> Flat(x) == toks
  {
    if k < |toks| {
      AllTreesFlat(toks[..k]);
      AllTreesFlat(toks[k + 1..]);
      CrossFlat(toks[k], AllTrees(toks[..k]), AllTrees(toks[k + 1..]), toks[..k], toks[k + 1..]);
      assert toks[..k] + [toks[k]] + toks[k + 1..] == toks;
      RootsFromFlat(toks, k + 2);
    }
  }

  /* ---------- every tree is listed ---------- */

  /** Every tree whose tokens are `toks` is in the list. */
  lemma {:induction false} AllTreesComplete(toks: seq<string>, tree: Tree<string>)
    requires Flat(tree) == toks
    decreases tree, 1
    ensures tree in AllTrees(toks)
  {
    if tree.Node? {
      var k := |Flat(tree.left)|;
      RootsFromComplete(toks, tree, 1);
    }
  }

  lemma {:induction false} RootsFromComplete(toks: seq<string>, tree: Tree<string>, k: int)
    requires Flat(tree) == toks && tree.Node?
    requires 1 <= k <= |Flat(tree.left)| && k % 2 == 1
    decreases tree, 0, |toks| - k
    ensures tree in RootsFrom(toks, k)
  {
    var n := |Flat(tree.left)|;
    assert toks == Flat(tree.left) + [tree.op] + Flat(tree.right);
    if k == n {
      assert toks[..k] == Flat(tree.left) && toks[k] == tree.op && toks[k + 1..] == Flat(tree.right);
      AllTreesComplete(toks[..k], tree.left);
      AllTreesComplete(toks[k + 1..], tree.right);
    } else {
      RootsFromComplete(toks, tree, k + 2);
    }
  }

  /* ---------- no tree is listed twice ---------- */

  predicate Distinct<T(==)>(xs: seq<T>) {
    forall i, j :: 0 <= i < j < |xs| ==> xs[i] != xs[j]
  }

  lemma {:induction false} RowDistinct(op: string, l: Tree<string>, rs: seq<Tree<string>>)
    requires Distinct(rs)
    ensures Distinct(Row(op, l, rs))
  {
    if rs != [] {
      RowDistinct(op, l, rs[1..]);
      assert Node(op, l, rs[0]) !in Row(op, l, rs[1..]);
      ConcatDistinct([Node(op, l, rs[0])], Row(op, l, rs[1..]));
    }
  }

  lemma {:induction false} CrossDistinct(op: string, ls: seq<Tree<string>>, rs: seq<Tree<string>>)
    requires Distinct(ls) && Distinct(rs)
    ensures Distinct(Cross(op, ls, rs))
  {
    if ls != [] {
      RowDistinct(op, ls[0], rs);
      CrossDistinct(op, ls[1..], rs);
      assert ls[0] !in ls[1..];
      ConcatDistinct(Row(op, ls[0], rs), Cross(op, ls[1..], rs));
    }
  }

  /** Concatenating two distinct lists with no element in common. */
  lemma ConcatDistinct<T>(a: seq<T>, b: seq<T>)
    requires Distinct(a) && Distinct(b)
    requires forall x :: x in a ==> x !in b
    ensures Distinct(a + b)
  {
    forall i, j | 0 <= i < j < |a + b|
      ensures (a + b)[i] != (a + b)[j]
    {
      if i < |a| && j >= |a| {
        assert (a + b)[i] in a;
        assert (a + b)[j] == b[j - |a|];
      }
    }
  }

  /** The trees of `RootsFrom(toks, k)` have their root at position k or later. */
  lemma {:induction false} RootsFromRoot(toks: seq<string>, k: int)
    requires |toks| % 2 == 1 && 1 <= k && k % 2 == 1
    decreases |toks| - k
    ensures forall x :: x in RootsFrom(toks, k) ==> x.Node? && |Flat(x.left)| >= k
  {
    if k < |toks| {
      AllTreesFlat(toks[..k]);
      RootsFromRoot(toks, k + 2);
    }
  }

  /** No tree appears twice in `_makebintrees`' list. */
  lemma {:induction false} AllTreesDistinct(toks: seq<string>)
    requires |toks| % 2 == 1
    decreases |toks|, 1, 0
    ensures Distinct(AllTrees(toks))
  {
    if |toks| > 1 {
      RootsFromDistinct(toks, 1);
    }
  }

  lemma {:induction false} RootsFromDistinct(toks: seq<string>, k: int)
    requires |toks| % 2 == 1 && 1 <= k && k % 2 == 1
    decreases |toks|, 0, |toks| - k
    ensures Distinct(RootsFrom(toks, k))
  {
    if k < |toks| {
      var ls, rs := AllTrees(toks[..k]), AllTrees(toks[k + 1..]);
      AllTreesDistinct(toks[..k]);
      AllTreesDistinct(toks[k + 1..]);
      CrossDistinct(toks[k], ls, rs);
      RootsFromDistinct(toks, k + 2);
      AllTreesFlat(toks[..k]);
      RootsFromRoot(toks, k + 2);
      var c := Cross(toks[k], ls, rs);
      forall x | x in c
        ensures x !in RootsFrom(toks, k + 2)
      {
        assert x.left in ls;
      }
      ConcatDistinct(c, RootsFrom(toks, k + 2));
    }
  }

  /* ---------- Catalan numbers ---------- */

  /** C(0) = 1, C(n) = sum of C(i) * C(n - 1 - i) for i < n. */
  function Catalan(n: nat): nat
    decreases n, 1
  {
    if n == 0 then 1 else CatalanSum(n, 0)
  }

  /** Sum of C(i) * C(n - 1 - i) for i from j to n - 1. */
  function CatalanSum(n: nat, j: nat): nat
    requires j <= n
    decreases n, 0, n - j
  {
    if j == n then 0 else Catalan(j) * Catalan(n - 1 - j) + CatalanSum(n, j + 1)
  }

  /** `_makebintrees` lists Catalan-many trees: C(number of operators). */
  lemma AllTreesCount(toks: seq<string>)
    requires |toks| % 2 == 1
    ensures |AllTrees(toks)| == Catalan(|toks| / 2)
  {
    CountOf(toks, |toks| / 2);
  }

  /** The count with the number of operators `n` given explicitly. */
  lemma {:induction false} CountOf(toks: seq<string>, n: nat)
    requires |toks| == 2 * n + 1
    decreases |toks|, 1
    ensures |AllTrees(toks)| == Catalan(n)
  {
    if n > 0 {
      RootsFromCount(toks, 1, n, 0);
    }
  }

  /** The sum at j is the term for j plus the sum at j + 1, whatever names
      the terms are given. */
  lemma CatalanSumStep(n: nat, j: nat, total: int, a: int, b: int, rest: int)
    requires j < n && a == Catalan(j) && b == Catalan(n - 1 - j) && rest == CatalanSum(n, j + 1)
    requires total == a * b + rest
    ensures total == CatalanSum(n, j)
  {
  }

  lemma IsOdd(x: int, m: nat)
    requires x == 2 * m + 1
    ensures x % 2 == 1
  {
  }

  /** The number of trees rooted at k or later: those rooted at k pair every
      left tree with every right tree. */
  lemma RootsFromLength(toks: seq<string>, k: int)
    requires |toks| % 2 == 1 && 1 <= k < |toks| && k % 2 == 1
    ensures |RootsFrom(toks, k)| == |AllTrees(toks[..k])| * |AllTrees(toks[k + 1..])| + |RootsFrom(toks, k + 2)|
  {
  }

  /** The trees rooted at operator position k = 2j + 1 or later number
      the sum of C(i) * C(n - 1 - i) for i from j. */
  lemma {:induction false} RootsFromCount(toks: seq<string>, k: int, n: nat, j: nat)
    requires |toks| == 2 * n + 1 && k == 2 * j + 1 && j <= n
    requires |toks| % 2 == 1 && k % 2 == 1
    decreases |toks|, 0, n - j
    ensures |RootsFrom(toks, k)| == CatalanSum(n, j)
  {
    if j < n {
      var left, right := toks[..k], toks[k + 1..];
      IsOdd(|left|, j);
      IsOdd(|right|, n - 1 - j);
      IsOdd(k + 2, j + 1);
      CountOf(left, j);
      CountOf(right, n - 1 - j);
      RootsFromCount(toks, k + 2, n, j + 1);
      RootsFromCountStep(toks, k, n, j, left, right);
    }
  }

  /** The count at k from the counts of the two sides and the count at k + 2. */
  lemma RootsFromCountStep(toks: seq<string>, k: int, n: nat, j: nat, left: seq<string>, right: seq<string>)
    requires |toks| % 2 == 1 && 1 <= k < |toks| && k % 2 == 1 && j < n
    requires left == toks[..k] && right == toks[k + 1..] && |left| % 2 == 1 && |right| % 2 == 1
    requires |AllTrees(left)| == Catalan(j) && |AllTrees(right)| == Catalan(n - 1 - j)
    requires |RootsFrom(toks, k + 2)| == CatalanSum(n, j + 1)
    ensures |RootsFrom(toks, k)| == CatalanSum(n, j)
  {
    RootsFromLength(toks, k);
    CatalanSumStep(n, j, |RootsFrom(toks, k)|, |AllTrees(left)|, |AllTrees(right)|, CatalanSum(n, j + 1));
  }

  /* ---------- exactly one listed tree is correct ---------- */

  /** The weight-correct trees of a list, in order. */
  function WeightCorrectOnes(t: Table, trees: seq<Tree<string>>): (res: seq<Tree<string>>)
    ensures forall x :: x in res <==> x in trees && OpsKnown(t, x) && IsWeightCorrect(t, x)
  {
    if trees == [] then []
    else
      var rest := WeightCorrectOnes(t, trees[1..]);
      var x := trees[0];
      assert forall y :: y in trees <==> y == x || y in trees[1..];
      if OpsKnown(t, x) && IsWeightCorrect(t, x) then [x] + rest else rest
  }

  /** The range-correct trees of a list, in order. */
  function RangeCorrectOnes(t: Table, toks: seq<string>, trees: seq<Tree<string>>): (res: seq<Tree<string>>)
    ensures forall x :: x in res <==> x in trees && IsRangeCorrect(t, toks, x, 1, |toks|)
  {
    if trees == [] then []
    else
      var rest := RangeCorrectOnes(t, toks, trees[1..]);
      var x := trees[0];
      assert forall y :: y in trees <==> y == x || y in trees[1..];
      if IsRangeCorrect(t, toks, x, 1, |toks|) then [x] + rest else rest
  }

  /** No listed tree is weight-correct, so the filter keeps nothing. */
  lemma {:induction false} WeightCorrectOnesNone(t: Table, trees: seq<Tree<string>>)
    requires forall y :: y in trees ==> !(OpsKnown(t, y) && IsWeightCorrect(t, y))
    ensures WeightCorrectOnes(t, trees) == []
  {
    if trees != [] {
      WeightCorrectOnesNone(t, trees[1..]);
    }
  }

  /** In a duplicate-free list whose only weight-correct member is x, the
      filter keeps exactly x. */
  lemma {:induction false} WeightCorrectOnesSingle(t: Table, trees: seq<Tree<string>>, x: Tree<string>)
    requires Distinct(trees) && x in trees
    requires forall y :: y in trees ==> (OpsKnown(t, y) && IsWeightCorrect(t, y) <==> y == x)
    ensures WeightCorrectOnes(t, trees) == [x]
  {
    if trees[0] == x {
      assert x !in trees[1..];
      WeightCorrectOnesNone(t, trees[1..]);
    } else {
      WeightCorrectOnesSingle(t, trees[1..], x);
    }
  }

  /** No listed tree is range-correct, so the filter keeps nothing. */
  lemma {:induction false} RangeCorrectOnesNone(t: Table, toks: seq<string>, trees: seq<Tree<string>>)
    requires forall y :: y in trees ==> !IsRangeCorrect(t, toks, y, 1, |toks|)
    ensures RangeCorrectOnes(t, toks, trees) == []
  {
    if trees != [] {
      RangeCorrectOnesNone(t, toks, trees[1..]);
    }
  }

  /** In a duplicate-free list whose only range-correct member is x, the
      filter keeps exactly x. */
  lemma {:induction false} RangeCorrectOnesSingle(t: Table, toks: seq<string>, trees: seq<Tree<string>>, x: Tree<string>)
    requires Distinct(trees) && x in trees
    requires forall y :: y in trees ==> (IsRangeCorrect(t, toks, y, 1, |toks|) <==> y == x)
    ensures RangeCorrectOnes(t, toks, trees) == [x]
  {
    if trees[0] == x {
      assert x !in trees[1..];
      RangeCorrectOnesNone(t, toks, trees[1..]);
    } else {
      RangeCorrectOnesSingle(t, toks, trees[1..], x);
    }
  }

  /** What `_check_all_parsings` announces: once one weight-correct tree
      over the list exists, it is the only weight-correct tree in
      `_makebintrees`' list and the only range-correct one. */
  lemma ExactlyOneCorrect(t: Table, toks: seq<string>, tree: Tree<string>)
    requires OracleList(t, toks) && Flat(tree) == toks
    requires OpsKnown(t, tree) && IsWeightCorrect(t, tree)
    ensures MakeBinTrees(toks) == Some(AllTrees(toks))
    ensures WeightCorrectOnes(t, AllTrees(toks)) == [tree]
    ensures RangeCorrectOnes(t, toks, AllTrees(toks)) == [tree]
  {
    var all := AllTrees(toks);
    AllTreesFlat(toks);
    AllTreesComplete(toks, tree);
    AllTreesDistinct(toks);
    WeightIffRange(t, toks, tree);
    forall y | y in all && OpsKnown(t, y) && IsWeightCorrect(t, y)
      ensures y == tree
    {
      WeightCorrectUnique(t, toks, y, tree);
    }
    forall y | y in all && IsRangeCorrect(t, toks, y, 1, |toks|)
      ensures y == tree
    {
      WeightIffRange(t, toks, y);
      WeightCorrectUnique(t, toks, y, tree);
    }
    WeightCorrectOnesSingle(t, all, tree);
    RangeCorrectOnesSingle(t, toks, all, tree);
  }
}

=== FILE: iterative.dfy ===
/** The iterative parsers: `pcp_it_0_2w` with an operand stack and an
    operator stack and two nested loops, and `pcp_it_0_1w`/`pcp_it_0_1wg`
    with one stack holding operators and operands alternately and one loop.
    An operator is pushed when it binds its left operand more strongly than
    the operator below it binds its right one; otherwise the top operator
    takes the two top operands. Each builds `pcp_ir_0`'s tree. */
module Iterative {
  import opened Tables
  import opened Trees
  import opened Weights
  import opened Agreement
  import opened Climbing

  /* ---------- the stack invariant ---------- */

  /** The tokens the stacks stand for: operand 0, operator 1, operand 1, ...
      The bottom operator (`$BEGIN`) stands for no token. */
  function FlatStack(ts: seq<Tree<string>>, os: seq<string>): (s: seq<string>)
    requires |ts| == |os| >= 1
    decreases |ts|
  {
    if |ts| == 1 then Flat(ts[0])
    else FlatStack(ts[..|ts| - 1], os[..|os| - 1]) + [os[|os| - 1]] + Flat(ts[|ts| - 1])
  }

  /** The operands `ts` and the operators `os` (bottom first) of a partial
      parse, with `next` the LBP of the operator just read:
      - the bottom operator never binds (its RBP is below `$END`'s LBP) and
        the others are real operators;
      - every operand is weight correct and binds its operator's right side
        more strongly than that operator's RBP;
      - each operator binds its left operand at least as strongly as the
        operand's right spine, and more strongly than the operator below it
        binds to the right (that is why it was pushed);
      - the top operand's right spine binds at least `next`. */
  predicate StackInv(t: Table, ts: seq<Tree<string>>, os: seq<string>, next: int) {
    && |ts| == |os| >= 1
    && END in t.lbp && os[0] in t.rbp && t.rbp[os[0]] < t.lbp[END]
    && (forall i :: 1 <= i < |os| ==> RealOp(t, os[i]))
    && (forall i :: 0 <= i < |ts| ==> OpsKnown(t, ts[i]) && IsWeightCorrect(t, ts[i]))
    && (forall i :: 0 <= i < |ts| ==> Gt(LeftWeight(t, ts[i]), t.rbp[os[i]]))
    && (forall i :: 1 <= i < |ts| ==> t.rbp[os[i - 1]] < t.lbp[os[i]])
    && (forall i :: 1 <= i < |ts| ==> Geq(RightWeight(t, ts[i - 1]), t.lbp[os[i]]))
    && Geq(RightWeight(t, ts[|ts| - 1]), next)
  }

  /** The first operand on top of the bottom operator. */
  lemma StackInit(t: Table, bottom: string, x: string, next: int)
    requires END in t.lbp && bottom in t.rbp && t.rbp[bottom] < t.lbp[END]
    ensures StackInv(t, [Atom(x)], [bottom], next)
    ensures FlatStack([Atom(x)], [bottom]) == [x]
  {
  }

  /** Pushing an operator that binds more strongly than the one on top,
      with the operand after it. */
  lemma StackPush(t: Table, ts: seq<Tree<string>>, os: seq<string>, op: string, x: string, next: int)
    requires RealOp(t, op) && StackInv(t, ts, os, t.lbp[op]) && t.rbp[os[|os| - 1]] < t.lbp[op]
    ensures StackInv(t, ts + [Atom(x)], os + [op], next)
    ensures FlatStack(ts + [Atom(x)], os + [op]) == FlatStack(ts, os) + [op, x]
  {
    var ts1, os1 := ts + [Atom(x)], os + [op];
    FlatSnoc(ts, os, Atom(x), op);
    assert Flat(Atom(x)) == [x];
    forall i | 1 <= i < |os1|
      ensures RealOp(t, os1[i])
    {
      if i < |os| {
        assert os1[i] == os[i];
      }
    }
    forall i | 0 <= i < |ts1|
      ensures OpsKnown(t, ts1[i]) && IsWeightCorrect(t, ts1[i]) && Gt(LeftWeight(t, ts1[i]), t.rbp[os1[i]])
    {
      if i < |ts| {
        assert ts1[i] == ts[i] && os1[i] == os[i];
      }
    }
    forall i | 1 <= i < |ts1|
      ensures t.rbp[os1[i - 1]] < t.lbp[os1[i]] && Geq(RightWeight(t, ts1[i - 1]), t.lbp[os1[i]])
    {
      if i < |ts| {
        assert os1[i - 1] == os[i - 1] && os1[i] == os[i] && ts1[i - 1] == ts[i - 1];
      }
    }
  }

  /** The stacks after the top operator takes the two top operands. */
  function Reduced(ts: seq<Tree<string>>, os: seq<string>): (r: (seq<Tree<string>>, seq<string>))
    requires |ts| == |os| >= 2
    ensures |r.0| == |r.1| == |ts| - 1
  {
    (ts[..|ts| - 2] + [Node(os[|os| - 1], ts[|ts| - 2], ts[|ts| - 1])], os[..|os| - 1])
  }

  /** Reducing where the top operator binds at least the next LBP keeps the
      invariant and the tokens the stacks stand for. */
  lemma StackReduce(t: Table, ts: seq<Tree<string>>, os: seq<string>, next: int)
    requires StackInv(t, ts, os, next) && |ts| >= 2 && next <= t.rbp[os[|os| - 1]]
    ensures StackInv(t, Reduced(ts, os).0, Reduced(ts, os).1, next)
    ensures FlatStack(Reduced(ts, os).0, Reduced(ts, os).1) == FlatStack(ts, os)
  {
    var n := |ts|;
    var (ts1, os1) := Reduced(ts, os);
    var op, l, r := os[n - 1], ts[n - 2], ts[n - 1];
    assert t.rbp[os[n - 2]] < t.lbp[op] && Geq(RightWeight(t, l), t.lbp[op]);
    ClimbNode(t, l, op, r, t.rbp[os[n - 2]], next);
    assert ts1[n - 2] == Node(op, l, r);
    forall i | 0 <= i < n - 1
      ensures OpsKnown(t, ts1[i]) && IsWeightCorrect(t, ts1[i]) && Gt(LeftWeight(t, ts1[i]), t.rbp[os1[i]])
    {
      if i < n - 2 {
        assert ts1[i] == ts[i] && os1[i] == os[i];
      }
    }
    forall i | 1 <= i < n - 1
      ensures t.rbp[os1[i - 1]] < t.lbp[os1[i]] && Geq(RightWeight(t, ts1[i - 1]), t.lbp[os1[i]])
    {
      assert ts1[i - 1] == ts[i - 1] && os1[i - 1] == os[i - 1] && os1[i] == os[i];
    }
    ReduceFlat(ts, os);
  }

  lemma ReduceFlat(ts: seq<Tree<string>>, os: seq<string>)
    requires |ts| == |os| >= 2
    ensures FlatStack(Reduced(ts, os).0, Reduced(ts, os).1) == FlatStack(ts, os)
  {
    var n := |ts|;
    if n == 2 {
      assert ts[..1] == [ts[0]] && os[..1] == [os[0]];
      assert Flat(Node(os[1], ts[0], ts[1])) == Flat(ts[0]) + [os[1]] + Flat(ts[1]);
    } else {
      SplitLastTwo(ts);
      SplitLastTwo(os);
      ReduceFlatSplit(ts[..n - 2], os[..n - 2], ts[n - 2], ts[n - 1], os[n - 2], os[n - 1]);
    }
  }

  lemma SplitLastTwo<T>(s: seq<T>)
    requires |s| >= 2
    ensures s == s[..|s| - 2] + [s[|s| - 2]] + [s[|s| - 1]]
    ensures s[..|s| - 1] == s[..|s| - 2] + [s[|s| - 2]]
  {
  }

  /** `ReduceFlat` for stacks of at least three with their parts named. */
  lemma ReduceFlatSplit(base: seq<Tree<string>>, bos: seq<string>, a: Tree<string>, b: Tree<string>, o1: string, o2: string)
    requires |base| == |bos| >= 1
    ensures FlatStack(base + [Node(o2, a, b)], bos + [o1])
         == FlatStack(base + [a] + [b], bos + [o1] + [o2])
  {
    FlatSnoc(base, bos, Node(o2, a, b), o1);
    FlatSnoc(base, bos, a, o1);
    FlatSnoc(base + [a], bos + [o1], b, o2);
    Regroup(FlatStack(base, bos), o1, Flat(a), o2, Flat(b));
  }

  /** Unfolding `FlatStack` at a pushed operand. */
  lemma FlatSnoc(ts: seq<Tree<string>>, os: seq<string>, x: Tree<string>, op: string)
    requires |ts| == |os| >= 1
    ensures FlatStack(ts + [x], os + [op]) == FlatStack(ts, os) + [op] + Flat(x)
  {
    assert (ts + [x])[..|ts|] == ts && (os + [op])[..|os|] == os;
  }

  lemma Regroup<T>(a: seq<T>, x: T, b: seq<T>, y: T, c: seq<T>)
    ensures a + [x] + b + [y] + c == a + [x] + (b + [y] + c)
  {
  }

  /** Where the stack cannot be reduced before `$END`, only the bottom
      operator is left, and its operand is the tree `pcp_ir_0` builds. */
  lemma StackDone(t: Table, toks: seq<string>, ts: seq<Tree<string>>, os: seq<string>)
    requires WellFormed(t, toks) && StackInv(t, ts, os, t.lbp[END])
    requires t.rbp[os[|os| - 1]] < t.lbp[END] && FlatStack(ts, os) == toks[1..|toks| - 1]
    ensures |ts| == 1 && ts[0] == Parse(t, toks)
  {
    assert |ts| > 1 ==> RealOp(t, os[|os| - 1]);
    ParseCorrect(t, toks);
  }

  /** The token at an even position from 2 on is `$END`, last, or a real
      operator before it. */
  lemma OperatorAt(t: Table, toks: seq<string>, p: int)
    requires WellFormed(t, toks) && 2 <= p < |toks| && p % 2 == 0
    ensures toks[p] in t.lbp && t.lbp[END] <= t.lbp[toks[p]]
    ensures t.lbp[toks[p]] >= 0 ==> p + 2 < |toks| && RealOp(t, toks[p])
    ensures t.lbp[toks[p]] < 0 ==> p == |toks| - 1
  {
    var s := toks[2..];
    assert toks[p] == s[p - 2];
    if p - 2 < |s| - 1 {
      assert RealOp(t, s[p - 2]);
    }
  }

  lemma EvenStep(p: int)
    requires p % 2 == 0
    ensures (p + 2) % 2 == 0
  {
  }

  /** Reading two more tokens extends the slice read so far. */
  lemma SliceExtend(s: seq<string>, a: int, b: int)
    requires 0 <= a <= b && b + 2 <= |s|
    ensures s[a..b + 2] == s[a..b] + [s[b], s[b + 1]]
  {
  }

  /* ---------- the state shared by the iterative parsers ---------- */

  /** The parser state between steps: `oator` is the token at position p,
      the stacks stand for the tokens between the first one and it. */
  predicate StackState(t: Table, toks: seq<string>, ts: seq<Tree<string>>, os: seq<string>, oator: string, p: int) {
    && WellFormed(t, toks) && 2 <= p < |toks| && p % 2 == 0
    && oator == toks[p] && oator in t.lbp && t.lbp[END] <= t.lbp[oator]
    && StackInv(t, ts, os, t.lbp[oator]) && FlatStack(ts, os) == toks[1..p]
  }

  /** The first operand pushed over the bottom operator. */
  lemma StateStart(t: Table, toks: seq<string>, bottom: string)
    requires WellFormed(t, toks) && bottom in t.rbp && t.rbp[bottom] < t.lbp[END]
    ensures StackState(t, toks, [Atom(toks[1])], [bottom], toks[2], 2)
  {
    OperatorAt(t, toks, 2);
    StackInit(t, bottom, toks[1], t.lbp[toks[2]]);
  }

  /** Pushing the operator read and the operand after it. */
  lemma StatePush(t: Table, toks: seq<string>, ts: seq<Tree<string>>, os: seq<string>, oator: string, p: int)
    requires StackState(t, toks, ts, os, oator, p)
    requires t.rbp[os[|os| - 1]] < t.lbp[oator] && t.lbp[oator] >= 0
    ensures p + 2 < |toks|
    ensures StackState(t, toks, ts + [Atom(toks[p + 1])], os + [oator], toks[p + 2], p + 2)
  {
    OperatorAt(t, toks, p);
    EvenStep(p);
    OperatorAt(t, toks, p + 2);
    StackPush(t, ts, os, oator, toks[p + 1], t.lbp[toks[p + 2]]);
    SliceExtend(toks, 1, p);
  }

  /** A reduction keeps the state. */
  lemma StateReduce(t: Table, toks: seq<string>, ts: seq<Tree<string>>, os: seq<string>, oator: string, p: int)
    requires StackState(t, toks, ts, os, oator, p) && t.rbp[os[|os| - 1]] >= t.lbp[oator]
    ensures |ts| >= 2
    ensures StackState(t, toks, Reduced(ts, os).0, Reduced(ts, os).1, oator, p)
  {
    StackReduce(t, ts, os, t.lbp[oator]);
  }

  /** When no more steps are possible, the token read is `$END` and the
      only operand left is `pcp_ir_0`'s tree. */
  lemma StateEnd(t: Table, toks: seq<string>, ts: seq<Tree<string>>, os: seq<string>, oator: string, p: int)
    requires StackState(t, toks, ts, os, oator, p) && t.lbp[oator] < 0
    requires |ts| == 1 || t.rbp[os[|os| - 1]] < t.lbp[oator]
    ensures |ts| == 1 && ts[0] == Parse(t, toks)
  {
    OperatorAt(t, toks, p);
    assert toks[2..][|toks[2..]| - 1] == toks[|toks| - 1];
    StackDone(t, toks, ts, os);
  }

  /* ---------- pcp_it_0_2w ---------- */

  /** The inner loop of `pcp_it_0_2w`: while the operator on top binds its
      right operand at least as strongly as the operator just read binds to
      the left, it takes the two top operands. */
  method ReduceWhileBinds(t: Table, toks: seq<string>, ts0: seq<Tree<string>>, os0: seq<string>, oator: string, p: int)
    returns (orands: seq<Tree<string>>, oators: seq<string>)
    requires StackState(t, toks, ts0, os0, oator, p)
    ensures StackState(t, toks, orands, oators, oator, p)
    ensures t.rbp[oators[|oators| - 1]] < t.lbp[oator]
  {
    orands, oators := ts0, os0;
    while t.rbp[oators[|oators| - 1]] >= t.lbp[oator]
      invariant StackState(t, toks, orands, oators, oator, p)
      decreases |orands|
    {
      StateReduce(t, toks, orands, oators, oator, p);
      var right, left := orands[|orands| - 1], orands[|orands| - 2];
      orands := orands[..|orands| - 2] + [Node(oators[|oators| - 1], left, right)];
      oators := oators[..|oators| - 1];
    }
  }

  /** The state of `pcp_it_0_2w` at the head of its outer loop: before
      the first token is read, or with both stacks in order below the
      operator just read. */
  predicate OuterState(t: Table, toks: seq<string>, orands: seq<Tree<string>>, oators: seq<string>, oator: string, p: int) {
    && 0 <= p < |toks| && oator in t.lbp
    && (p == 0 ==> orands == [] && oators == [] && oator == BEGIN)
    && (p > 0 ==> StackState(t, toks, orands, oators, oator, p) && t.rbp[oators[|oators| - 1]] < t.lbp[oator])
  }

  /** Pushing the operator just read and the operand after it, from either
      kind of outer state. */
  lemma OuterPush(t: Table, toks: seq<string>, orands: seq<Tree<string>>, oators: seq<string>, oator: string, p: int)
    requires WellFormed(t, toks) && BEGIN in t.rbp && t.rbp[BEGIN] < t.lbp[END]
    requires OuterState(t, toks, orands, oators, oator, p) && t.lbp[oator] >= 0
    ensures p + 2 < |toks|
    ensures StackState(t, toks, orands + [Atom(toks[p + 1])], oators + [oator], toks[p + 2], p + 2)
  {
    if p == 0 {
      StateStart(t, toks, BEGIN);
    } else {
      StatePush(t, toks, orands, oators, oator, p);
    }
  }

  /** One round of the outer loop: push the operator just read and the
      operand after it, read the next operator, then reduce. */
  method OuterStep(t: Table, toks: seq<string>, orands0: seq<Tree<string>>, oators0: seq<string>, oator0: string, p0: int)
    returns (orands: seq<Tree<string>>, oators: seq<string>, oator: string, p: int)
    requires WellFormed(t, toks) && BEGIN in t.rbp && t.rbp[BEGIN] < t.lbp[END]
    requires OuterState(t, toks, orands0, oators0, oator0, p0) && t.lbp[oator0] >= 0
    ensures OuterState(t, toks, orands, oators, oator, p) && p > 0 && p > p0
  {
    OuterPush(t, toks, orands0, oators0, oator0, p0);
    orands := orands0 + [Atom(toks[p0 + 1])];
    oators := oators0 + [oator0];
    oator := toks[p0 + 2];
    p := p0 + 2;
    orands, oators := ReduceWhileBinds(t, toks, orands, oators, oator, p);
  }

  /** `parse_expr` of `pcp_it_0_2w`. The operator stack starts with
      `$BEGIN`, which has LBP 0, so the outer loop runs at least once. */
  method TwoStack(t: Table, toks: seq<string>) returns (tree: Tree<string>)
    requires WellFormed(t, toks)
    requires BEGIN in t.lbp && t.lbp[BEGIN] >= 0 && BEGIN in t.rbp && t.rbp[BEGIN] < t.lbp[END]
    ensures tree == Parse(t, toks)
  {
    var orands: seq<Tree<string>> := [];
    var oators: seq<string> := [];
    var oator := BEGIN;
    var p := 0;
    while t.lbp[oator] >= 0
      invariant OuterState(t, toks, orands, oators, oator, p)
      invariant t.lbp[oator] < 0 ==> p > 0
      decreases |toks| - p
    {
      orands, oators, oator, p := OuterStep(t, toks, orands, oators, oator, p);
    }
    StateEnd(t, toks, orands, oators, oator, p);
    tree := orands[0];
  }

  /* ---------- pcp_it_0_1w and pcp_it_0_1wg ---------- */

  /** An entry of the single stack: an operator name or an operand tree. */
  datatype Cell = Op(name: string) | Operand(tree: Tree<string>)

  /** The single stack for the two stacks: bottom operator, operand 0,
      operator 1, operand 1, ... */
  function Cells(ts: seq<Tree<string>>, os: seq<string>): (c: seq<Cell>)
    requires |ts| == |os|
    decreases |ts|
    ensures |c| == 2 * |ts|
    ensures forall i :: 0 <= i < |ts| ==> c[2 * i] == Op(os[i]) && c[2 * i + 1] == Operand(ts[i])
  {
    if |ts| == 0 then []
    else Cells(ts[..|ts| - 1], os[..|os| - 1]) + [Op(os[|os| - 1]), Operand(ts[|ts| - 1])]
  }

  /** The top of the single stack: the last operand, below it the last
      operator, below that the operand before it. */
  lemma CellsTop(ts: seq<Tree<string>>, os: seq<string>)
    requires |ts| == |os| >= 1
    ensures Cells(ts, os)[2 * |ts| - 1] == Operand(ts[|ts| - 1])
    ensures Cells(ts, os)[2 * |ts| - 2] == Op(os[|os| - 1])
    ensures |ts| >= 2 ==> Cells(ts, os)[2 * |ts| - 3] == Operand(ts[|ts| - 2])
  {
    var n := |ts|;
    if n >= 2 {
      var ts2, os2 := ts[..n - 1], os[..n - 1];
      assert ts2[n - 2] == ts[n - 2];
      assert Cells(ts2, os2)[2 * n - 3] == Operand(ts[n - 2]);
    }
  }

  lemma CellsPush(ts: seq<Tree<string>>, os: seq<string>, op: string, x: string)
    requires |ts| == |os|
    ensures Cells(ts + [Atom(x)], os + [op]) == Cells(ts, os) + [Op(op), Operand(Atom(x))]
  {
    assert (ts + [Atom(x)])[..|ts|] == ts && (os + [op])[..|os|] == os;
  }

  /** Popping the last operand, the operator and the operand below, and
      pushing the node they make, is the reduction of the two stacks. */
  lemma CellsReduce(ts: seq<Tree<string>>, os: seq<string>)
    requires |ts| == |os| >= 2
    ensures Cells(Reduced(ts, os).0, Reduced(ts, os).1)
         == Cells(ts, os)[..2 * |ts| - 3] + [Operand(Node(os[|os| - 1], ts[|ts| - 2], ts[|ts| - 1]))]
  {
    var n := |ts|;
    var (ts1, os1) := Reduced(ts, os);
    var ts2, os2 := ts[..n - 1], os[..n - 1];
    assert ts2[..n - 2] == ts[..n - 2] == ts1[..n - 2] && os2[..n - 2] == os[..n - 2] == os1[..n - 2];
    assert ts2[n - 2] == ts[n - 2] && os2[n - 2] == os[n - 2] == os1[n - 2];
    var below := Cells(ts[..n - 2], os[..n - 2]);
    assert Cells(ts2, os2) == below + [Op(os[n - 2]), Operand(ts[n - 2])];
    assert Cells(ts, os) == below + [Op(os[n - 2]), Operand(ts[n - 2])] + [Op(os[n - 1]), Operand(ts[n - 1])];
    assert Cells(ts, os)[..2 * n - 3] == below + [Op(os[n - 2])];
  }

  /** The loop of `pcp_it_0_1w`/`pcp_it_0_1wg` over the single stack, whose
      bottom entry is `bottom`: reduce while the operator below the top
      binds at least as strongly as the one read, else push the operator
      read and the next operand; stop when only the bottom and one operand
      are left and the token read is `$END`. */
  method OneStackLoop(t: Table, toks: seq<string>, bottom: string) returns (tree: Tree<string>)
    requires WellFormed(t, toks) && bottom in t.rbp && t.rbp[bottom] < t.lbp[END]
    ensures tree == Parse(t, toks)
  {
    var oo := [Op(bottom), Operand(Atom(toks[1]))];
    var oator := toks[2];
    var p := 2;
    ghost var ts, os := [Atom(toks[1])], [bottom];
    StateStart(t, toks, bottom);
    while |oo| > 2 || t.lbp[oator] >= 0
      invariant StackState(t, toks, ts, os, oator, p) && oo == Cells(ts, os)
      decreases |toks| - p, |oo|
    {
      CellsTop(ts, os);
      if t.rbp[oo[|oo| - 2].name] >= t.lbp[oator] {
        StateReduce(t, toks, ts, os, oator, p);
        CellsReduce(ts, os);
        var right := oo[|oo| - 1].tree;
        var op, left := oo[|oo| - 2].name, oo[|oo| - 3].tree;
        oo := oo[..|oo| - 3] + [Operand(Node(op, left, right))];
        ts, os := Reduced(ts, os).0, Reduced(ts, os).1;
      } else {
        assert |ts| >= 2 ==> RealOp(t, os[|os| - 1]);
        StatePush(t, toks, ts, os, oator, p);
        CellsPush(ts, os, oator, toks[p + 1]);
        oo := oo + [Op(oator), Operand(Atom(toks[p + 1]))];
        ts, os := ts + [Atom(toks[p + 1])], os + [oator];
        oator := toks[p + 2];
        p := p + 2;
      }
    }
    StateEnd(t, toks, ts, os, oator, p);
    CellsTop(ts, os);
    tree := oo[1].tree;
  }

  /** `parse_expr` of `pcp_it_0_1w`: the stack starts with the name
      `$BEGIN` and the first operand. */
  method OneStack(t: Table, toks: seq<string>) returns (tree: Tree<string>)
    requires WellFormed(t, toks) && BEGIN in t.rbp && t.rbp[BEGIN] < t.lbp[END]
    ensures tree == Parse(t, toks)
  {
    tree := OneStackLoop(t, toks, BEGIN);
  }

  /** `parse_expr` of `pcp_it_0_1wg`: the stack starts with the first two
      tokens the generator yields. */
  method OneStackGen(t: Table, toks: seq<string>) returns (tree: Tree<string>)
    requires WellFormed(t, toks) && toks[0] in t.rbp && t.rbp[toks[0]] < t.lbp[END]
    ensures tree == Parse(t, toks)
  {
    tree := OneStackLoop(t, toks, toks[0]);
  }
}

=== FILE: noins.dfy ===
/** `pcp_ir_0_no_ins`: precedence climbing over `tokenizer_b`'s list, which
    has no `$PRE`/`$POST` placeholders. A prefix operator in operand
    position and a postfix operator in operator position are handled by
    special code and give a node with one child. Putting the placeholders
    back with `_fakes_to_tree` gives exactly the tree `pcp_ir_0` builds
    from `tokenizer_a`'s list. */
module NoIns {
  import opened Wrappers
  import opened Tables
  import opened Trees
  import opened Tokenizers
  import opened Climbing

  /** What the parser without placeholders needs of the table: the
      placeholder names are not operators, and no operator is both prefix
      and postfix. */
  predicate NoInsTable(t: Table) {
    && PRE !in t.lbp && POST !in t.lbp
    && forall k :: k in t.lbp && IsPrefix(t, k) ==> !IsPostfix(t, k)
  }

  /** The parsers agree when the table's unary operators are the ones
      `run_parser` records in `non_infix_ops` (prefix ones in `pre`, postfix
      ones in `post` only) and no binding power exceeds the sentinel 100. */
  predicate UnaryOps(t: Table, pre: set<string>, post: set<string>) {
    && NoInsTable(t)
    && (forall k :: k in t.lbp && IsPrefix(t, k) ==> k in pre)
    && (forall k :: k in t.rbp && IsPostfix(t, k) ==> k in post && k !in pre)
    && (forall k :: k in t.lbp ==> t.lbp[k] <= UNARY)
    && (forall k :: k in t.rbp ==> t.rbp[k] <= UNARY)
  }

  /** Tables whose powers stay below 100 and which do not name the four
      inserted tokens: after `_set_bp`, exactly the operators recorded in
      `non_infix_ops` are unary. */
  lemma SetBpUnaryOps(t0: Table)
    requires forall k :: k in t0.lbp ==> t0.lbp[k] < UNARY
    requires forall k :: k in t0.rbp ==> t0.rbp[k] < UNARY
    requires forall k :: k in t0.lbp || k in t0.rbp ==> !IsMarker(k)
    ensures UnaryOps(SetBp(t0), NonInfixOps(t0).0, NonInfixOps(t0).1)
  {
    var t := SetBp(t0);
    forall k | IsPrefix(t, k)
      ensures k in NonInfixOps(t0).0
    {
    }
    forall k | IsPostfix(t, k)
      ensures k in NonInfixOps(t0).1 && k !in NonInfixOps(t0).0
    {
    }
  }

  /* ---------- the parser ---------- */

  /** The list seen by the parser with placeholders: the token before the
      operand as it is, the rest expanded as `tokenizer_e` does. */
  function Faked(t: Table, s: seq<string>): (u: seq<string>)
    requires |s| >= 1
  {
    [s[0]] + Expand(t, s[1..])
  }

  /** `parse_expr` has stopped on `rest`: a suffix of the list whose first
      token is an operator with an LBP of at most the threshold. */
  predicate StopsAt(t: Table, s: seq<string>, rest: seq<string>, m: int) {
    && 1 <= |rest| <= |s| && rest == s[|s| - |rest|..]
    && rest[0] in t.lbp && t.lbp[rest[0]] <= m
  }

  /** A suffix of a suffix is a suffix. */
  lemma SuffixOfSuffix(s: seq<string>, a: seq<string>, b: seq<string>)
    requires |a| <= |s| && a == s[|s| - |a|..] && |b| <= |a| && b == a[|a| - |b|..]
    ensures b == s[|s| - |b|..]
  {
  }

  /** `parse_expr(toks, min_rbp)` of `pcp_ir_0_no_ins`, with the cursor on the
      token before the operand: a prefix operator takes the operand parsed
      with its RBP, anything else is an atomic operand; then the loop. A
      lookup of a missing power is `UnknownOperator` (KeyError), a read past
      the last token is `PastEnd` (IndexError). */
  function NIExpr(t: Table, s: seq<string>, m: int): (r: Result<(UTree, seq<string>)>)
    decreases |s|, 0
    ensures r.Ok? ==> |r.value.1| <= |s| - 2 && StopsAt(t, s, r.value.1, m)
    ensures r.Err? ==> r.error.UnknownOperator? || r.error == PastEnd
  {
    if |s| < 2 then Err(PastEnd)
    else
      var ctok := s[1];
      if IsPrefix(t, ctok) then
        if ctok !in t.rbp then Err(UnknownOperator(ctok))
        else
          match NIExpr(t, s[1..], t.rbp[ctok])
          case Err(e) => Err(e)
          case Ok((c, rest)) =>
            var r := NIClimb(t, rest, CSex(ctok, c, None), m);
            if r.Ok? then SuffixOfSuffix(s, rest, r.value.1); r else r
      else
        var r := NIClimb(t, s[2..], UAtom(ctok), m);
        if r.Ok? then SuffixOfSuffix(s, s[2..], r.value.1); r else r
  }

  /** The `while` loop of `parse_expr`: a postfix operator wraps the tree so
      far and is skipped; any other operator takes the operand parsed with
      its RBP. */
  function NIClimb(t: Table, s: seq<string>, sub: UTree, m: int): (r: Result<(UTree, seq<string>)>)
    decreases |s|, 1
    ensures r.Ok? ==> StopsAt(t, s, r.value.1, m)
    ensures r.Err? ==> r.error.UnknownOperator? || r.error == PastEnd
  {
    if |s| == 0 then Err(PastEnd)
    else if s[0] !in t.lbp then Err(UnknownOperator(s[0]))
    else if m < t.lbp[s[0]] then
      var oator := s[0];
      if oator !in t.rbp then Err(UnknownOperator(oator))
      else if t.rbp[oator] == UNARY then
        var r := NIClimb(t, s[1..], CSex(oator, sub, None), m);
        if r.Ok? then SuffixOfSuffix(s, s[1..], r.value.1); r else r
      else
        match NIExpr(t, s, t.rbp[oator])
        case Err(e) => Err(e)
        case Ok((rt, rest)) =>
          var r := NIClimb(t, rest, CSex(oator, sub, Some(rt)), m);
          if r.Ok? then SuffixOfSuffix(s, rest, r.value.1); r else r
    else Ok((sub, s))
  }

  /** `parse` of `pcp_ir_0_no_ins`: `parse_expr` from `$BEGIN`, threshold 0. */
  function NIParse(t: Table, toks: seq<string>): Result<UTree> {
    match NIExpr(t, toks, 0)
    case Ok((tree, _)) => Ok(tree)
    case Err(e) => Err(e)
  }

  /* ---------- a prefix operator in operator position ---------- */

  /** `_set_bp` applied to RBP `{"&": 9}` and an empty LBP: `&` is a prefix
      operator. */
  const AmpTable: Table := Table(map["&" := UNARY, BEGIN := 0, END := -1], map["&" := 9, BEGIN := -2, END := 0])

  lemma AmpTableIsSetBp()
    ensures AmpTable == SetBp(Table(map[], map["&" := 9]))
  {
    assert SetBp(Table(map[], map["&" := 9])).lbp == AmpTable.lbp;
    assert SetBp(Table(map[], map["&" := 9])).rbp == AmpTable.rbp;
  }

  /** On `a & b`, the parser without placeholders reads `&` in operator
      position as an infix operator, because its RBP is not 100. */
  lemma AmpParsedAsInfix()
    ensures NIParse(AmpTable, [BEGIN, "a", "&", "b", END]) == Ok(Binary("&", UAtom("a"), UAtom("b")))
  {
    var t := AmpTable;
    var s := [BEGIN, "a", "&", "b", END];
    MarkersDistinct();
    assert "a" !in t.lbp && "b" !in t.lbp;
    assert NIClimb(t, s[4..], UAtom("b"), 9) == Ok((UAtom("b"), [END]));
    assert NIExpr(t, s[2..], 9) == Ok((UAtom("b"), [END]));
    assert NIClimb(t, s[2..], UAtom("a"), 0) == Ok((Binary("&", UAtom("a"), UAtom("b")), [END]));
  }

  /** With placeholders, `$PRE` stands in operator position before `&`. */
  lemma AmpFaked()
    ensures Faked(AmpTable, [BEGIN, "a", "&", "b", END]) == [BEGIN, "a", PRE, "&", "b", END]
  {
    var t := AmpTable;
    MarkersDistinct();
    assert Expand(t, [END]) == [END];
    assert Expand(t, ["b", END]) == ["b", END];
    assert Expand(t, ["&", "b", END]) == [PRE, "&", "b", END];
    assert [BEGIN, "a", "&", "b", END][1..] == ["a", "&", "b", END];
  }

  /** A prefix operator in operator position. `_set_bp` makes `&` a prefix
      operator; on `a & b` the parser without placeholders returns the
      binary node `(& a b)`. The list with placeholders has `$PRE` where
      `pcp_ir_0` looks up an LBP, and `$PRE` has none (KeyError), so that
      list is outside the domain of `pcp_ir_0`. */
  lemma PrefixOpInOperatorPosition()
    ensures AmpTable == SetBp(Table(map[], map["&" := 9]))
    ensures NoInsTable(AmpTable) && IsPrefix(AmpTable, "&") && !IsPostfix(AmpTable, "&")
    ensures NIParse(AmpTable, [BEGIN, "a", "&", "b", END]) == Ok(Binary("&", UAtom("a"), UAtom("b")))
    ensures Faked(AmpTable, [BEGIN, "a", "&", "b", END]) == [BEGIN, "a", PRE, "&", "b", END]
    ensures PRE !in AmpTable.lbp && !WellFormed(AmpTable, Faked(AmpTable, [BEGIN, "a", "&", "b", END]))
  {
    MarkersDistinct();
    AmpTableIsSetBp();
    AmpParsedAsInfix();
    AmpFaked();
  }

  /* ---------- shape of the expanded list ---------- */

  lemma ExpandCons(t: Table, s: seq<string>)
    requires |s| >= 1
    ensures Expand(t, s) == ExpandTok(t, s[0]) + Expand(t, s[1..])
  {
  }

  /** Two leading tokens of an operator sequence: an operator and an operand. */
  lemma OpSeqDrop2(t: Table, a: string, b: string, y: seq<string>)
    requires OpSeq(t, [a, b] + y) && |y| >= 1
    ensures RealOp(t, a) && OpSeq(t, y)
  {
    assert ([a, b] + y)[2..] == y;
    OpSeqTail(t, [a, b] + y);
  }

  /** In operand position: a prefix operator is followed by a well-formed
      rest; any other token is no postfix operator, and the operator
      sequence follows it directly. */
  lemma OperandStep(t: Table, s: seq<string>)
    requires NoInsTable(t) && |s| >= 2 && WellFormed(t, Faked(t, s))
    ensures IsPrefix(t, s[1]) ==> |s| >= 3 && !IsPostfix(t, s[1]) && RealOp(t, s[1])
    ensures IsPrefix(t, s[1]) ==> Faked(t, s) == [s[0], PRE, s[1]] + Expand(t, s[2..])
    ensures IsPrefix(t, s[1]) ==> WellFormed(t, Faked(t, s[1..]))
    ensures !IsPrefix(t, s[1]) ==> !IsPostfix(t, s[1]) && OpSeq(t, Expand(t, s[2..]))
    ensures !IsPrefix(t, s[1]) ==> Faked(t, s) == [s[0], s[1]] + Expand(t, s[2..])
  {
    var u := Faked(t, s);
    ExpandCons(t, s[1..]);
    assert s[1..][1..] == s[2..];
    var ctok := s[1];
    var rest := Expand(t, s[2..]);
    OpSeqHead(t, u[2..]);
    if IsPrefix(t, ctok) {
      assert u == [s[0], PRE, ctok] + rest;
      assert u[2..] == [ctok] + rest;
      assert u[2..][0] == ctok;
      assert Faked(t, s[1..]) == u[2..];
    } else if !IsPostfix(t, ctok) {
      assert u == [s[0], ctok] + rest;
      assert u[2..] == rest;
    }
  }

  /** In operator position the current token is not a prefix operator and
      is the first token of the expansion. */
  lemma OperatorHead(t: Table, s: seq<string>)
    requires NoInsTable(t) && OpSeq(t, Expand(t, s))
    ensures |s| >= 1 && !IsPrefix(t, s[0]) && Expand(t, s)[0] == s[0] && s[0] in t.lbp
  {
    var x := Expand(t, s);
    ExpandCons(t, s);
    OpSeqHead(t, x);
  }

  /** One pass of the loop is possible: the operator is real, a postfix one
      leaves an operator sequence after it and its placeholder, an infix
      one starts a well-formed list for the recursive call. */
  lemma OperatorStep(t: Table, s: seq<string>, m: int)
    requires NoInsTable(t) && OpSeq(t, Expand(t, s)) && t.lbp[END] <= m
    requires |s| >= 1 && !IsPrefix(t, s[0]) && s[0] in t.lbp && m < t.lbp[s[0]]
    ensures |s| >= 2 && RealOp(t, s[0])
    ensures IsPostfix(t, s[0]) ==> Expand(t, s) == [s[0], POST] + Expand(t, s[1..])
    ensures IsPostfix(t, s[0]) ==> OpSeq(t, Expand(t, s[1..]))
    ensures !IsPostfix(t, s[0]) ==> Expand(t, s) == Faked(t, s) && WellFormed(t, Faked(t, s))
  {
    var x := Expand(t, s);
    ExpandCons(t, s);
    var rest := Expand(t, s[1..]);
    if |s| == 1 {
      assert rest == [];
    }
    if IsPostfix(t, s[0]) {
      assert x == [s[0], POST] + rest;
      OpSeqDrop2(t, s[0], POST, rest);
    } else {
      assert x == [s[0]] + rest;
      OpSeqHead(t, x);
    }
  }

  /* ---------- agreement with the parser that inserts placeholders ---------- */

  /** `parse_expr` without placeholders, with `_fakes_to_tree` applied to
      its tree, is `pcp_ir_0`'s `parse_expr` on the expanded list; it stops
      at the token whose expansion is where `pcp_ir_0` stops. */
  lemma {:induction false} NIExprMatch(t: Table, pre: set<string>, post: set<string>, s: seq<string>, m: int)
    requires UnaryOps(t, pre, post)
    requires |s| >= 2 && WellFormed(t, Faked(t, s)) && t.lbp[END] <= m < UNARY
    decreases |s|, 1
    ensures NIExpr(t, s, m).Ok?
    ensures FakesToTree(NIExpr(t, s, m).value.0, pre, post) == Ok(ParseExpr(t, Faked(t, s), m).0)
    ensures Expand(t, NIExpr(t, s, m).value.1) == ParseExpr(t, Faked(t, s), m).1
  {
    OperandStep(t, s);
    var ctok := s[1];
    if IsPrefix(t, ctok) {
      PrefixMatch(t, pre, post, s, m);
    } else {
      var u := Faked(t, s);
      assert u[1] == ctok && u[2..] == Expand(t, s[2..]);
      NIClimbMatch(t, pre, post, s[2..], UAtom(ctok), Atom(ctok), m);
    }
  }

  /** A prefix operator in operand position: with placeholders it is an
      infix operator after the operand `$PRE`, which binds it because the
      threshold is below its LBP of 100. */
  lemma {:induction false} PrefixMatch(t: Table, pre: set<string>, post: set<string>, s: seq<string>, m: int)
    requires UnaryOps(t, pre, post)
    requires |s| >= 2 && WellFormed(t, Faked(t, s)) && t.lbp[END] <= m < UNARY && IsPrefix(t, s[1])
    decreases |s|, 0
    ensures NIExpr(t, s, m).Ok?
    ensures FakesToTree(NIExpr(t, s, m).value.0, pre, post) == Ok(ParseExpr(t, Faked(t, s), m).0)
    ensures Expand(t, NIExpr(t, s, m).value.1) == ParseExpr(t, Faked(t, s), m).1
  {
    OperandStep(t, s);
    var ctok := s[1];
    var u := Faked(t, s);
    assert u[1] == PRE && u[2..] == Faked(t, s[1..]) && u[2] == ctok;
    NIExprMatch(t, pre, post, s[1..], t.rbp[ctok]);
    var (c, rest) := NIExpr(t, s[1..], t.rbp[ctok]).value;
    var (fc, frest) := ParseExpr(t, u[2..], t.rbp[ctok]);
    NIClimbMatch(t, pre, post, rest, Unary(ctok, c), Node(ctok, Atom(PRE), fc), m);
    NIExprPrefix(t, s, m);
    ParseExprStep(t, u, m);
  }

  /** One step of `NIExpr` on a prefix operator. */
  lemma NIExprPrefix(t: Table, s: seq<string>, m: int)
    requires |s| >= 2 && IsPrefix(t, s[1]) && s[1] in t.rbp && NIExpr(t, s[1..], t.rbp[s[1]]).Ok?
    ensures NIExpr(t, s, m) == NIClimb(t, NIExpr(t, s[1..], t.rbp[s[1]]).value.1, Unary(s[1], NIExpr(t, s[1..], t.rbp[s[1]]).value.0), m)
  {
  }

  /** One step of `parse_expr` of `pcp_ir_0` whose loop runs at least once. */
  lemma ParseExprStep(t: Table, u: seq<string>, m: int)
    requires WellFormed(t, u) && t.lbp[END] <= m < t.lbp[u[2]]
    requires RealOp(t, u[2]) && WellFormed(t, u[2..])
    ensures ParseExpr(t, u, m) == Climb(t, ParseExpr(t, u[2..], t.rbp[u[2]]).1, Node(u[2], Atom(u[1]), ParseExpr(t, u[2..], t.rbp[u[2]]).0), m)
  {
  }

  lemma {:induction false} NIClimbMatch(t: Table, pre: set<string>, post: set<string>, s: seq<string>, sub: UTree, fsub: Tree<string>, m: int)
    requires UnaryOps(t, pre, post)
    requires OpSeq(t, Expand(t, s)) && t.lbp[END] <= m < UNARY
    requires FakesToTree(sub, pre, post) == Ok(fsub)
    decreases |s|, 3
    ensures NIClimb(t, s, sub, m).Ok?
    ensures FakesToTree(NIClimb(t, s, sub, m).value.0, pre, post) == Ok(Climb(t, Expand(t, s), fsub, m).0)
    ensures Expand(t, NIClimb(t, s, sub, m).value.1) == Climb(t, Expand(t, s), fsub, m).1
  {
    OperatorHead(t, s);
    var oator := s[0];
    if m < t.lbp[oator] {
      OperatorStep(t, s, m);
      if t.rbp[oator] == UNARY {
        PostfixMatch(t, pre, post, s, fsub, m);
        NIClimbMatch(t, pre, post, s[1..], Unary(oator, sub), Node(oator, fsub, Atom(POST)), m);
      } else {
        InfixMatch(t, pre, post, s, sub, fsub, m);
      }
    }
  }

  /** An infix operator: both loops parse the right operand with its RBP
      and go on with the new node. */
  lemma {:induction false} InfixMatch(t: Table, pre: set<string>, post: set<string>, s: seq<string>, sub: UTree, fsub: Tree<string>, m: int)
    requires UnaryOps(t, pre, post)
    requires OpSeq(t, Expand(t, s)) && t.lbp[END] <= m < UNARY
    requires FakesToTree(sub, pre, post) == Ok(fsub)
    requires |s| >= 2 && RealOp(t, s[0]) && !IsPrefix(t, s[0]) && !IsPostfix(t, s[0]) && m < t.lbp[s[0]]
    requires Expand(t, s) == Faked(t, s) && WellFormed(t, Faked(t, s))
    decreases |s|, 2
    ensures NIClimb(t, s, sub, m).Ok?
    ensures FakesToTree(NIClimb(t, s, sub, m).value.0, pre, post) == Ok(Climb(t, Expand(t, s), fsub, m).0)
    ensures Expand(t, NIClimb(t, s, sub, m).value.1) == Climb(t, Expand(t, s), fsub, m).1
  {
    var oator := s[0];
    NIExprMatch(t, pre, post, s, t.rbp[oator]);
    var (rt, rest) := NIExpr(t, s, t.rbp[oator]).value;
    var (frt, frest) := ParseExpr(t, Expand(t, s), t.rbp[oator]);
    NIClimbMatch(t, pre, post, rest, Binary(oator, sub, rt), Node(oator, fsub, frt), m);
    NIClimbInfix(t, s, sub, m);
    var _, _ := ClimbStep(t, Expand(t, s), fsub, m);
  }

  /** One pass of the loop of `NIClimb` over an infix operator. */
  lemma NIClimbInfix(t: Table, s: seq<string>, sub: UTree, m: int)
    requires |s| >= 1 && RealOp(t, s[0]) && !IsPostfix(t, s[0]) && m < t.lbp[s[0]]
    requires NIExpr(t, s, t.rbp[s[0]]).Ok?
    ensures NIClimb(t, s, sub, m) == NIClimb(t, NIExpr(t, s, t.rbp[s[0]]).value.1, Binary(s[0], sub, NIExpr(t, s, t.rbp[s[0]]).value.0), m)
  {
  }

  /** With placeholders, a postfix operator takes `$POST` as its right
      operand and the loop goes on after it. */
  lemma PostfixMatch(t: Table, pre: set<string>, post: set<string>, s: seq<string>, fsub: Tree<string>, m: int)
    requires UnaryOps(t, pre, post)
    requires |s| >= 2 && OpSeq(t, Expand(t, s)) && t.lbp[END] <= m < UNARY
    requires RealOp(t, s[0]) && m < t.lbp[s[0]] && IsPostfix(t, s[0])
    requires Expand(t, s) == [s[0], POST] + Expand(t, s[1..]) && OpSeq(t, Expand(t, s[1..]))
    ensures Climb(t, Expand(t, s), fsub, m) == Climb(t, Expand(t, s[1..]), Node(s[0], fsub, Atom(POST)), m)
  {
    var x := Expand(t, s);
    var rest := Expand(t, s[1..]);
    OpSeqHead(t, rest);
    assert x[2..] == rest;
    assert ParseExpr(t, x, UNARY) == (Atom(POST), rest);
  }

  /** `pcp_ir_0_no_ins` on `tokenizer_b`'s list, with `_fakes_to_tree`
      applied, is `pcp_ir_0` on `tokenizer_a`'s list. */
  lemma NIParseIsParse(t: Table, pre: set<string>, post: set<string>, cc: CharClasses, code: string)
    requires UnaryOps(t, pre, post) && !IsPrefix(t, END) && !IsPostfix(t, END)
    requires WellFormed(t, TokE(t, cc, code))
    ensures NoInsTable(t) && |TokB(t, cc, code)| >= 2 && WellFormed(t, Faked(t, TokB(t, cc, code)))
    ensures NIParse(t, TokB(t, cc, code)).Ok?
    ensures FakesToTree(NIParse(t, TokB(t, cc, code)).value, pre, post) == Ok(Parse(t, TokE(t, cc, code)))
  {
    var raw := RawTokens(cc, code);
    var b := TokB(t, cc, code);
    assert b[1..] == raw + [END];
    ExpandAppend(t, raw, [END]);
    assert Expand(t, [END]) == [END];
    assert Faked(t, b) == TokE(t, cc, code);
    NIExprMatch(t, pre, post, b, 0);
  }
}

=== FILE: ranges.dfy ===
/** The position-based oracle: `_lrange`, `_rrange`, `_range` and
    `_is_range_correct`. Positions are one-based, as in the source: in the
    oracle's token list (without `$BEGIN`/`$END`) operands sit at odd and
    operators at even positions. */
module Ranges {
  import opened Tables
  import opened Trees

  /** A token list the oracle can work on: odd length, and every token in
      operator position has both binding powers. */
  predicate OracleList(t: Table, toks: seq<string>) {
    && |toks| % 2 == 1
    && forall i :: 0 <= i < |toks| && i % 2 == 1 ==> Known(t, toks[i])
  }

  /** One-based position x holds an operator. */
  predicate IsOpPos(toks: seq<string>, x: int) {
    2 <= x < |toks| && x % 2 == 0
  }

  /** LBP of the token at one-based position x. The oracle only consults it
      at operator positions of an `OracleList`, where it is the table's
      value (`LpAt`); elsewhere it is 0. */
  function Lp(t: Table, toks: seq<string>, x: int): int {
    if 1 <= x <= |toks| && toks[x - 1] in t.lbp then t.lbp[toks[x - 1]] else 0
  }

  function Rp(t: Table, toks: seq<string>, x: int): int {
    if 1 <= x <= |toks| && toks[x - 1] in t.rbp then t.rbp[toks[x - 1]] else 0
  }

  lemma LpAt(t: Table, toks: seq<string>, x: int)
    requires OracleList(t, toks) && IsOpPos(toks, x)
    ensures Known(t, toks[x - 1])
    ensures Lp(t, toks, x) == t.lbp[toks[x - 1]] && Rp(t, toks, x) == t.rbp[toks[x - 1]]
  {
  }

  /** Python's `min` on two integers. */
  function MinI(a: int, b: int): (m: int)
    ensures m <= a && m <= b && (m == a || m == b)
  {
    if a <= b then a else b
  }

  /** Smallest LBP among the operators at positions q+2, q+4, ..., p. */
  function MinLAfter(t: Table, toks: seq<string>, q: int, p: int): int
    decreases p - q
  {
    if q + 2 >= p then Lp(t, toks, p)
    else MinI(Lp(t, toks, q + 2), MinLAfter(t, toks, q + 2, p))
  }

  /** Smallest RBP among the operators at positions p, p+2, ..., q-2. */
  function MinRUpTo(t: Table, toks: seq<string>, p: int, q: int): int
    decreases q - p
  {
    if q <= p + 2 then Rp(t, toks, p)
    else MinI(MinRUpTo(t, toks, p, q - 2), Rp(t, toks, q - 2))
  }

  /** The leftward scan from the operator at p passes the operator at q < p:
      q's RBP is at least every LBP met on the way. */
  predicate Lpass(t: Table, toks: seq<string>, q: int, p: int) {
    Rp(t, toks, q) >= MinLAfter(t, toks, q, p)
  }

  /** The rightward scan from the operator at p passes the operator at q > p:
      q's LBP is above every RBP met on the way. */
  predicate Rpass(t: Table, toks: seq<string>, p: int, q: int) {
    Lp(t, toks, q) > MinRUpTo(t, toks, p, q)
  }

  /** The leftward scan from p passes every operator strictly between a and p. */
  predicate LPassesFrom(t: Table, toks: seq<string>, a: int, p: int) {
    forall q :: a < q < p && q % 2 == 0 ==> Lpass(t, toks, q, p)
  }

  /** The rightward scan from p passes every operator strictly between p and b. */
  predicate RPassesTo(t: Table, toks: seq<string>, p: int, b: int) {
    forall q :: p < q < b && q < |toks| && q % 2 == 0 ==> Rpass(t, toks, p, q)
  }

  /** `_lrange(toklis, pos, clbp)`: where the left range of an operator ends.
      Total: on an operator position of an `OracleList` it reads exactly the
      binding powers the source reads. */
  function LRange(t: Table, toks: seq<string>, pos: int, clbp: int): (r: int)
    decreases pos
    ensures r < pos
  {
    if pos <= 2 || Rp(t, toks, pos - 2) < clbp then pos - 1
    else LRange(t, toks, pos - 2, MinI(clbp, Lp(t, toks, pos - 2)))
  }

  /** `_rrange(toklis, pos, crbp)`: where the right range of an operator ends. */
  function RRange(t: Table, toks: seq<string>, pos: int, crbp: int): (r: int)
    decreases |toks| - pos
    ensures r > pos
  {
    if pos >= |toks| - 1 || Lp(t, toks, pos + 2) <= crbp then pos + 1
    else RRange(t, toks, pos + 2, MinI(crbp, Rp(t, toks, pos + 2)))
  }

  /** `_range`: left and right end of the range of the operator at pos. */
  function Range(t: Table, toks: seq<string>, pos: int): (r: (int, int))
    ensures r.0 < pos < r.1
  {
    (LRange(t, toks, pos, Lp(t, toks, pos)), RRange(t, toks, pos, Rp(t, toks, pos)))
  }

  /** Neighbours of a number have the other parity. */
  lemma Parity(x: int)
    ensures (x - 1) % 2 != x % 2 && (x + 1) % 2 != x % 2
    ensures (x - 2) % 2 == x % 2 && (x + 2) % 2 == x % 2
  {
  }

  /** The sum of two odd numbers is even. */
  lemma OddSum(a: int, b: int)
    requires a % 2 == 1 && b % 2 == 1
    ensures (a + b) % 2 == 0 && (a + b - 1) % 2 == 1 && (a + b + 1) % 2 == 1
  {
  }

  lemma {:induction false} MinLSplit(t: Table, toks: seq<string>, q: int, m: int, p: int)
    requires q < m < p && q % 2 == 0 && m % 2 == 0 && p % 2 == 0
    decreases m - q
    ensures MinLAfter(t, toks, q, p) == MinI(MinLAfter(t, toks, q, m), MinLAfter(t, toks, m, p))
  {
    if q + 2 != m {
      MinLSplit(t, toks, q + 2, m, p);
    }
  }

  lemma {:induction false} MinRSplit(t: Table, toks: seq<string>, p: int, m: int, q: int)
    requires p < m < q && p % 2 == 0 && m % 2 == 0 && q % 2 == 0
    decreases q - m
    ensures MinRUpTo(t, toks, p, q) == MinI(MinRUpTo(t, toks, p, m), MinRUpTo(t, toks, m, q))
  {
    if m + 2 != q {
      MinRSplit(t, toks, p, m, q - 2);
    }
  }

  /** The running minimum of `_lrange` is the minimum LBP of the operators
      already passed, so the scan stops exactly at the first operator it
      does not pass. */
  lemma {:induction false} LRangeScan(t: Table, toks: seq<string>, p: int, pos: int)
    requires |toks| % 2 == 1 && IsOpPos(toks, p) && IsOpPos(toks, pos) && pos <= p
    requires LPassesFrom(t, toks, pos - 1, p)
    decreases pos
    ensures var r := LRange(t, toks, pos, MinLAfter(t, toks, pos - 2, p));
      && 1 <= r < pos && r % 2 == 1
      && LPassesFrom(t, toks, r, p)
      && (r > 1 ==> !Lpass(t, toks, r - 1, p))
  {
    var c := MinLAfter(t, toks, pos - 2, p);
    if pos <= 2 || Rp(t, toks, pos - 2) < c {
      Parity(pos);
    } else {
      assert Lpass(t, toks, pos - 2, p);
      assert MinLAfter(t, toks, pos - 4, p) == MinI(Lp(t, toks, pos - 2), c);
      LRangeScan(t, toks, p, pos - 2);
    }
  }

  lemma {:induction false} RRangeScan(t: Table, toks: seq<string>, p: int, pos: int)
    requires |toks| % 2 == 1 && IsOpPos(toks, p) && IsOpPos(toks, pos) && p <= pos
    requires RPassesTo(t, toks, p, pos + 1)
    decreases |toks| - pos
    ensures var r := RRange(t, toks, pos, MinRUpTo(t, toks, p, pos + 2));
      && pos < r <= |toks| && r % 2 == 1
      && RPassesTo(t, toks, p, r)
      && (r < |toks| ==> !Rpass(t, toks, p, r + 1))
  {
    var c := MinRUpTo(t, toks, p, pos + 2);
    if pos >= |toks| - 1 || Lp(t, toks, pos + 2) <= c {
      Parity(pos);
    } else {
      assert Rpass(t, toks, p, pos + 2);
      assert MinRUpTo(t, toks, p, pos + 4) == MinI(c, Rp(t, toks, pos + 2));
      RRangeScan(t, toks, p, pos + 2);
    }
  }

  /** What the scan of `_range` establishes about the left range r. */
  lemma LRangeFacts(t: Table, toks: seq<string>, p: int) returns (r: int)
    requires |toks| % 2 == 1 && IsOpPos(toks, p)
    ensures r == LRange(t, toks, p, Lp(t, toks, p))
    ensures 1 <= r < p && r % 2 == 1
    ensures LPassesFrom(t, toks, r, p)
    ensures r > 1 ==> IsOpPos(toks, r - 1) && !Lpass(t, toks, r - 1, p)
  {
    assert MinLAfter(t, toks, p - 2, p) == Lp(t, toks, p);
    LRangeScan(t, toks, p, p);
    r := LRange(t, toks, p, Lp(t, toks, p));
    Parity(r);
  }

  /** What the scan of `_range` establishes about the right range r. */
  lemma RRangeFacts(t: Table, toks: seq<string>, p: int) returns (r: int)
    requires |toks| % 2 == 1 && IsOpPos(toks, p)
    ensures r == RRange(t, toks, p, Rp(t, toks, p))
    ensures p < r <= |toks| && r % 2 == 1
    ensures RPassesTo(t, toks, p, r)
    ensures r < |toks| ==> IsOpPos(toks, r + 1) && !Rpass(t, toks, p, r + 1)
  {
    assert MinRUpTo(t, toks, p, p + 2) == Rp(t, toks, p);
    RRangeScan(t, toks, p, p);
    r := RRange(t, toks, p, Rp(t, toks, p));
    Parity(r);
  }

  /** The left range of the operator at p ends at a when the scan passes
      every operator between a and p and (unless a is the first position)
      does not pass the operator just before a; `LRangeFacts` gives the
      converse. */
  lemma LRangeIs(t: Table, toks: seq<string>, p: int, a: int)
    requires |toks| % 2 == 1 && IsOpPos(toks, p)
    requires 1 <= a < p && a % 2 == 1
    requires LPassesFrom(t, toks, a, p) && (a > 1 ==> !Lpass(t, toks, a - 1, p))
    ensures LRange(t, toks, p, Lp(t, toks, p)) == a
  {
    var r := LRangeFacts(t, toks, p);
    LStopUnique(t, toks, p, a, r);
  }

  /** The leftward scan has only one place to stop. */
  lemma LStopUnique(t: Table, toks: seq<string>, p: int, a: int, r: int)
    requires 1 <= a && a % 2 == 1 && 1 <= r && r % 2 == 1
    requires LPassesFrom(t, toks, a, p) && (a > 1 ==> !Lpass(t, toks, a - 1, p))
    requires LPassesFrom(t, toks, r, p) && (r > 1 ==> !Lpass(t, toks, r - 1, p))
    requires a < p && r < p
    ensures a == r
  {
    if r < a {
      Parity(a);
    } else if r > a {
      Parity(r);
    }
  }

  /** The right range of the operator at p ends at b when the scan passes
      every operator between p and b and (unless b is the last position)
      does not pass the operator just after b; `RRangeFacts` gives the
      converse. */
  lemma RRangeIs(t: Table, toks: seq<string>, p: int, b: int)
    requires |toks| % 2 == 1 && IsOpPos(toks, p)
    requires p < b <= |toks| && b % 2 == 1
    requires RPassesTo(t, toks, p, b) && (b < |toks| ==> !Rpass(t, toks, p, b + 1))
    ensures RRange(t, toks, p, Rp(t, toks, p)) == b
  {
    var r := RRangeFacts(t, toks, p);
    RStopUnique(t, toks, p, b, r);
  }

  /** The rightward scan has only one place to stop. */
  lemma RStopUnique(t: Table, toks: seq<string>, p: int, b: int, r: int)
    requires b <= |toks| && b % 2 == 1 && r <= |toks| && r % 2 == 1
    requires RPassesTo(t, toks, p, b) && (b < |toks| ==> !Rpass(t, toks, p, b + 1))
    requires RPassesTo(t, toks, p, r) && (r < |toks| ==> !Rpass(t, toks, p, r + 1))
    requires p < b && p < r
    ensures b == r
  {
    if r < b {
      Parity(r);
    } else if r > b {
      Parity(b);
    }
  }

  /** The minimum is at most each LBP it ranges over ... */
  lemma {:induction false} MinLAfterLeAt(t: Table, toks: seq<string>, q: int, p: int, x: int)
    requires q < x <= p && x % 2 == 0 && q % 2 == 0
    decreases p - q
    ensures MinLAfter(t, toks, q, p) <= Lp(t, toks, x)
  {
    if q + 2 < p && x != q + 2 {
      MinLAfterLeAt(t, toks, q + 2, p, x);
    }
  }

  /** ... and it is the LBP of one of them. */
  lemma {:induction false} MinLAfterAttained(t: Table, toks: seq<string>, q: int, p: int) returns (m: int)
    requires q < p && q % 2 == 0 && p % 2 == 0
    decreases p - q
    ensures q < m <= p && m % 2 == 0
    ensures Lp(t, toks, m) == MinLAfter(t, toks, q, p)
  {
    if q + 2 == p {
      m := p;
    } else if Lp(t, toks, q + 2) <= MinLAfter(t, toks, q + 2, p) {
      m := q + 2;
    } else {
      m := MinLAfterAttained(t, toks, q + 2, p);
    }
  }

  /** A minimum over a sub-interval is no smaller. */
  lemma MinLAfterSub(t: Table, toks: seq<string>, j: int, i: int, m: int, k: int)
    requires j <= i < m <= k && j % 2 == 0 && i % 2 == 0 && m % 2 == 0 && k % 2 == 0
    ensures MinLAfter(t, toks, j, k) <= MinLAfter(t, toks, i, m)
  {
    var x := MinLAfterAttained(t, toks, i, m);
    MinLAfterLeAt(t, toks, j, k, x);
  }

  lemma {:induction false} MinRUpToLeAt(t: Table, toks: seq<string>, p: int, q: int, x: int)
    requires p <= x < q && p % 2 == 0 && x % 2 == 0 && q % 2 == 0
    decreases q - p
    ensures MinRUpTo(t, toks, p, q) <= Rp(t, toks, x)
  {
    if q != p + 2 && x != q - 2 {
      MinRUpToLeAt(t, toks, p, q - 2, x);
    }
  }

  lemma {:induction false} MinRUpToAttained(t: Table, toks: seq<string>, p: int, q: int) returns (m: int)
    requires p < q && p % 2 == 0 && q % 2 == 0
    decreases q - p
    ensures p <= m < q && m % 2 == 0
    ensures Rp(t, toks, m) == MinRUpTo(t, toks, p, q)
  {
    if q == p + 2 {
      m := p;
    } else if Rp(t, toks, q - 2) < MinRUpTo(t, toks, p, q - 2) {
      m := q - 2;
    } else {
      m := MinRUpToAttained(t, toks, p, q - 2);
    }
  }

  lemma MinRUpToSub(t: Table, toks: seq<string>, k: int, m: int, b: int, j: int)
    requires k <= m < b <= j && k % 2 == 0 && m % 2 == 0 && b % 2 == 0 && j % 2 == 0
    ensures MinRUpTo(t, toks, k, j) <= MinRUpTo(t, toks, m, b)
  {
    var x := MinRUpToAttained(t, toks, m, b);
    MinRUpToLeAt(t, toks, k, j, x);
  }

  /** Two operators cannot each reach over the other: the leftward scan from
      k2 passing every operator from k1 on, and the rightward scan from k1
      passing every operator up to k2, are never both true. */
  lemma Exclusion(t: Table, toks: seq<string>, k1: int, k2: int)
    requires IsOpPos(toks, k1) && IsOpPos(toks, k2) && k1 < k2
    ensures !(LPassesFrom(t, toks, k1 - 1, k2) && RPassesTo(t, toks, k1, k2 + 1))
  {
    if LPassesFrom(t, toks, k1 - 1, k2) && RPassesTo(t, toks, k1, k2 + 1) {
      var m := MinLAfterAttained(t, toks, k1, k2);
      assert Rpass(t, toks, k1, m);
      var m' := MinRUpToAttained(t, toks, k1, m);
      assert Lpass(t, toks, m', k2);
      MinLAfterSub(t, toks, k1, m', k2, k2);
      assert false;
    }
  }

  /** Two operators never have the same range. */
  lemma RangeDetermines(t: Table, toks: seq<string>, k1: int, k2: int)
    requires |toks| % 2 == 1 && IsOpPos(toks, k1) && IsOpPos(toks, k2)
    requires Range(t, toks, k1) == Range(t, toks, k2)
    ensures k1 == k2
  {
    if k1 != k2 {
      var lo, hi := if k1 < k2 then k1 else k2, if k1 < k2 then k2 else k1;
      var l := LRangeFacts(t, toks, hi);
      var r := RRangeFacts(t, toks, lo);
      assert LPassesFrom(t, toks, lo - 1, hi);
      assert RPassesTo(t, toks, lo, hi + 1);
      Exclusion(t, toks, lo, hi);
    }
  }

  /** `_is_range_correct(toklis, tree, rfrom, rto)`: the root of every
      subtree has exactly the subtree's interval as its range. Like the
      source, it looks only at the tree's shape, not at its tokens. */
  predicate IsRangeCorrect(t: Table, toks: seq<string>, tree: Tree<string>, rfrom: int, rto: int)
    decreases tree
  {
    match tree
    case Atom(_) => true
    case Node(_, l, r) =>
      var rootpos := NumToks(l) + rfrom;
      var range := Range(t, toks, rootpos);
      && rfrom == range.0
      && rto == range.1
      && IsRangeCorrect(t, toks, l, rfrom, rootpos - 1)
      && IsRangeCorrect(t, toks, r, rootpos + 1, rto)
  }
}

=== FILE: recursive.dfy ===
/** The loop-free recursive parsers: `pcp_rec_0_0` over the cursor and
    `pcp_rec_0_1` over the pair list of `tokenizer_c`. Both build the
    right operand first, extending it recursively only when the next
    operator binds it away, and then either stop or continue with the new
    node as left operand. Both build `pcp_ir_0`'s tree. */
module Recursive {
  import opened Tables
  import opened Trees
  import opened Tokenizers
  import opened Climbing

  /** `parse_expr_rec(toks, sub, min_rbp)` of `pcp_rec_0_0`, with the cursor
      on an operator whose LBP exceeds the threshold. */
  function RecExpr(t: Table, s: seq<string>, sub: Tree<string>, m: int): (r: (Tree<string>, seq<string>))
    requires OpSeq(t, s) && t.lbp[END] <= m < t.lbp[s[0]]
    decreases |s|, 1
    ensures Flat(sub) + s == Flat(r.0) + r.1
    ensures |r.1| <= |s| - 2 && OpSeq(t, r.1) && t.lbp[r.1[0]] <= m
  {
    OpSeqTail(t, s);
    var op := s[0];
    var inner := RecOperand(t, s);
    NodeFlat(sub, s, inner.0, inner.1);
    if m >= t.lbp[inner.1[0]] then (Node(op, sub, inner.0), inner.1)
    else RecExpr(t, inner.1, Node(op, sub, inner.0), m)
  }

  /** The right operand of the operator `s[0]` in `parse_expr_rec`: the
      operand `s[1]` alone, or extended recursively when the next operator
      binds it more strongly than `s[0]` does on its right. */
  function RecOperand(t: Table, s: seq<string>): (r: (Tree<string>, seq<string>))
    requires OpSeq(t, s) && |s| >= 3
    decreases |s|, 0
    ensures [s[1]] + s[2..] == Flat(r.0) + r.1
    ensures |r.1| <= |s| - 2 && OpSeq(t, r.1) && t.lbp[r.1[0]] <= t.rbp[s[0]]
  {
    OpSeqTail(t, s);
    if t.rbp[s[0]] < t.lbp[s[2]] then RecExpr(t, s[2..], Atom(s[1]), t.rbp[s[0]])
    else (Atom(s[1]), s[2..])
  }

  /** Joining `sub`, the operator `s[0]` and the right operand built from
      `s[1..]` consumes exactly those tokens. */
  lemma NodeFlat<T>(sub: Tree<T>, s: seq<T>, sub1: Tree<T>, rest: seq<T>)
    requires |s| >= 2 && [s[1]] + s[2..] == Flat(sub1) + rest
    ensures Flat(sub) + s == Flat(Node(s[0], sub, sub1)) + rest
  {
    assert s == [s[0]] + ([s[1]] + s[2..]);
  }

  /** `parse_expr` and `parse` of `pcp_rec_0_0`: a lone operand when the
      first operator has negative LBP, otherwise the recursion from
      threshold 0. */
  function RecParse(t: Table, toks: seq<string>): (tree: Tree<string>)
    requires WellFormed(t, toks)
    ensures Flat(tree) == toks[1..|toks| - 1]
  {
    OpSeqHead(t, toks[2..]);
    assert toks[2..][0] == toks[2];
    assert toks[1..] == [toks[1]] + toks[2..];
    if t.lbp[toks[2]] < 0 then
      OpSeqStop(t, toks[2..]);
      Atom(toks[1])
    else
      var r := RecExpr(t, toks[2..], Atom(toks[1]), 0);
      OpSeqStop(t, r.1);
      assert toks[1..] == toks[1..|toks| - 1] + [END];
      r.0
  }

  /** The recursion is the loop of `pcp_ir_0` unrolled: from an operator
      that binds above the threshold both give the same tree and stop at the
      same token. */
  lemma {:induction false} RecExprIsClimb(t: Table, s: seq<string>, sub: Tree<string>, m: int)
    requires OpSeq(t, s) && t.lbp[END] <= m < t.lbp[s[0]]
    decreases |s|
    ensures RecExpr(t, s, sub, m) == Climb(t, s, sub, m)
  {
    OpSeqTail(t, s);
    var op := s[0];
    if t.rbp[op] < t.lbp[s[2]] {
      RecExprIsClimb(t, s[2..], Atom(s[1]), t.rbp[op]);
    }
    assert RecOperand(t, s) == ParseExpr(t, s, t.rbp[op]);
    var (sub1, rest) := Climb(t, s[2..], Atom(s[1]), t.rbp[op]);
    if m < t.lbp[rest[0]] {
      RecExprIsClimb(t, rest, Node(op, sub, sub1), m);
    }
  }

  /** `pcp_rec_0_0` parses every well-formed list as `pcp_ir_0` does. */
  lemma RecParseIsParse(t: Table, toks: seq<string>)
    requires WellFormed(t, toks)
    ensures RecParse(t, toks) == Parse(t, toks)
  {
    OpSeqHead(t, toks[2..]);
    assert toks[2..][0] == toks[2];
    if t.lbp[toks[2]] >= 0 {
      RecExprIsClimb(t, toks[2..], Atom(toks[1]), 0);
    }
  }

  /* ---------- pcp_rec_0_1: the same recursion over a pair list ---------- */

  /** `parse_expr(tol, sub, min_rbp)` of `pcp_rec_0_1`: the remaining list
      and the tree. */
  function LinkedExpr(t: Table, tol: PairList<string>, sub: Tree<string>, m: int): (r: (PairList<string>, Tree<string>))
    requires OpSeq(t, ToSeq(tol)) && t.lbp[END] <= m < t.lbp[First(tol)]
    decreases Len(tol), 1
    ensures Flat(sub) + ToSeq(tol) == Flat(r.1) + ToSeq(r.0)
    ensures Len(r.0) <= Len(tol) - 2 && OpSeq(t, ToSeq(r.0)) && t.lbp[First(r.0)] <= m
  {
    OpSeqTail(t, ToSeq(tol));
    var inner := LinkedOperand(t, tol);
    NodeFlat(sub, ToSeq(tol), inner.1, ToSeq(inner.0));
    if m >= t.lbp[First(inner.0)] then (inner.0, Node(First(tol), sub, inner.1))
    else LinkedExpr(t, inner.0, Node(First(tol), sub, inner.1), m)
  }

  /** `(tokn, subn)` in `parse_expr` of `pcp_rec_0_1`: the right operand of
      the list's first operator and the list after it. */
  function LinkedOperand(t: Table, tol: PairList<string>): (r: (PairList<string>, Tree<string>))
    requires OpSeq(t, ToSeq(tol)) && Len(tol) >= 3
    decreases Len(tol), 0
    ensures [Second(tol)] + ToSeq(RRest(tol)) == Flat(r.1) + ToSeq(r.0)
    ensures Len(r.0) <= Len(tol) - 2 && OpSeq(t, ToSeq(r.0)) && t.lbp[First(r.0)] <= t.rbp[First(tol)]
  {
    OpSeqTail(t, ToSeq(tol));
    if t.rbp[First(tol)] < t.lbp[Third(tol)] then LinkedExpr(t, RRest(tol), Atom(Second(tol)), t.rbp[First(tol)])
    else (RRest(tol), Atom(Second(tol)))
  }

  /** `parse` of `pcp_rec_0_1`. */
  function LinkedParse(t: Table, tol: PairList<string>): (tree: Tree<string>)
    requires WellFormed(t, ToSeq(tol))
    ensures Flat(tree) == ToSeq(tol)[1..Len(tol) - 1]
  {
    var s := ToSeq(tol);
    OpSeqHead(t, s[2..]);
    assert ToSeq(RRest(tol)) == s[2..];
    assert s[1..] == [s[1]] + s[2..];
    if t.lbp[Third(tol)] < 0 then
      OpSeqStop(t, s[2..]);
      Atom(Second(tol))
    else
      var r := LinkedExpr(t, RRest(tol), Atom(Second(tol)), 0);
      OpSeqStop(t, ToSeq(r.0));
      assert s[1..] == s[1..|s| - 1] + [END];
      r.1
  }

  /** The pair-list recursion computes what the cursor recursion does: the
      same tree, and the remaining list holds the tokens after the cursor. */
  lemma {:induction false} LinkedExprIsRecExpr(t: Table, tol: PairList<string>, sub: Tree<string>, m: int)
    requires OpSeq(t, ToSeq(tol)) && t.lbp[END] <= m < t.lbp[First(tol)]
    decreases Len(tol), 1
    ensures LinkedExpr(t, tol, sub, m).1 == RecExpr(t, ToSeq(tol), sub, m).0
    ensures ToSeq(LinkedExpr(t, tol, sub, m).0) == RecExpr(t, ToSeq(tol), sub, m).1
  {
    OpSeqTail(t, ToSeq(tol));
    LinkedOperandIsRecOperand(t, tol);
    var inner := LinkedOperand(t, tol);
    if m < t.lbp[First(inner.0)] {
      LinkedExprIsRecExpr(t, inner.0, Node(First(tol), sub, inner.1), m);
    }
  }

  /** The operand step of the two recursions agrees likewise. */
  lemma {:induction false} LinkedOperandIsRecOperand(t: Table, tol: PairList<string>)
    requires OpSeq(t, ToSeq(tol)) && Len(tol) >= 3
    decreases Len(tol), 0
    ensures LinkedOperand(t, tol).1 == RecOperand(t, ToSeq(tol)).0
    ensures ToSeq(LinkedOperand(t, tol).0) == RecOperand(t, ToSeq(tol)).1
  {
    OpSeqTail(t, ToSeq(tol));
    if t.rbp[First(tol)] < t.lbp[Third(tol)] {
      LinkedExprIsRecExpr(t, RRest(tol), Atom(Second(tol)), t.rbp[First(tol)]);
    }
  }

  /** `pcp_rec_0_1` on `tokenizer_c`'s list parses as `pcp_rec_0_0`, hence
      as `pcp_ir_0`, on the same tokens. */
  lemma LinkedParseIsParse(t: Table, tol: PairList<string>)
    requires WellFormed(t, ToSeq(tol))
    ensures LinkedParse(t, tol) == RecParse(t, ToSeq(tol)) == Parse(t, ToSeq(tol))
  {
    OpSeqHead(t, ToSeq(tol)[2..]);
    assert ToSeq(RRest(tol)) == ToSeq(tol)[2..];
    if t.lbp[Third(tol)] >= 0 {
      LinkedExprIsRecExpr(t, RRest(tol), Atom(Second(tol)), 0);
    }
    RecParseIsParse(t, ToSeq(tol));
  }
}

=== FILE: tables.dfy ===
/** Binding-power tables (the global LBP and RBP dictionaries) and the
    extended integers used for tree weights. */
module Tables {

  const BEGIN: string := "$BEGIN"
  const END: string := "$END"
  const PRE: string := "$PRE"
  const POST: string := "$POST"

  /** Sentinel binding power: "this side takes no real operand". */
  const UNARY: int := 100

  /** The pair of dictionaries LBP, RBP. */
  datatype Table = Table(lbp: map<string, int>, rbp: map<string, int>)

  /** `math.inf` is only used as a sentinel larger than every binding power. */
  datatype W = Fin(n: int) | Inf

  function Min(a: W, b: W): (r: W)
    ensures r == a || r == b
    ensures AtMost(r, a) && AtMost(r, b)
  {
    match (a, b)
    case (Inf, _) => b
    case (_, Inf) => a
    case (Fin(x), Fin(y)) => if x <= y then a else b
  }

  /** a <= b on extended integers */
  predicate AtMost(a: W, b: W) {
    match (a, b)
    case (_, Inf) => true
    case (Inf, Fin(_)) => false
    case (Fin(x), Fin(y)) => x <= y
  }

  /** w >= x */
  predicate Geq(w: W, x: int) {
    w.Inf? || x <= w.n
  }

  /** w > x */
  predicate Gt(w: W, x: int) {
    w.Inf? || x < w.n
  }

  predicate Known(t: Table, name: string) {
    name in t.lbp && name in t.rbp
  }

  /** `_set_bp`: a name present in only one dictionary gets the sentinel 100
      on the other side; then $BEGIN and $END get their fixed powers. */
  function SetBp(t: Table): (r: Table)
    ensures r.lbp.Keys == r.rbp.Keys == t.lbp.Keys + t.rbp.Keys + {BEGIN, END}
    ensures forall k :: k in t.lbp && k != BEGIN && k != END ==> r.lbp[k] == t.lbp[k]
    ensures forall k :: k in t.rbp && k != BEGIN && k != END ==> r.rbp[k] == t.rbp[k]
    ensures forall k :: k in t.rbp && k !in t.lbp && k != BEGIN && k != END ==> r.lbp[k] == UNARY
    ensures forall k :: k in t.lbp && k !in t.rbp && k != BEGIN && k != END ==> r.rbp[k] == UNARY
    ensures Normalized(r)
  {
    var lbp1 := map k | k in t.lbp.Keys + t.rbp.Keys :: if k in t.lbp then t.lbp[k] else UNARY;
    var rbp1 := map k | k in lbp1 :: if k in t.rbp then t.rbp[k] else UNARY;
    Table(lbp1[BEGIN := 0][END := -1], rbp1[BEGIN := -2][END := 0])
  }

  /** What `_set_bp` establishes. */
  predicate Normalized(t: Table) {
    && t.lbp.Keys == t.rbp.Keys
    && BEGIN in t.lbp && END in t.lbp
    && t.lbp[BEGIN] == 0 && t.rbp[BEGIN] == -2
    && t.lbp[END] == -1 && t.rbp[END] == 0
  }

  /** Running `_set_bp` a second time changes nothing. */
  lemma SetBpIdempotent(t: Table)
    ensures SetBp(SetBp(t)) == SetBp(t)
  {
    var r := SetBp(t);
    var rr := SetBp(r);
    assert rr.lbp == r.lbp;
    assert rr.rbp == r.rbp;
  }

  /** `non_infix_ops` of `run_parser`, taken from the tables as loaded,
      before `_set_bp` fills in the sentinels: the names with only an RBP
      are prefix, those with only an LBP postfix. */
  function NonInfixOps(t0: Table): (r: (set<string>, set<string>))
    ensures forall k :: k in r.0 <==> k in t0.rbp && k !in t0.lbp
    ensures forall k :: k in r.1 <==> k in t0.lbp && k !in t0.rbp
  {
    (t0.rbp.Keys - t0.lbp.Keys, t0.lbp.Keys - t0.rbp.Keys)
  }

  /** When no binding power given explicitly equals the sentinel, the
      prefix operators are exactly the names that `_set_bp` gives LBP 100,
      and the postfix operators the names it gives RBP 100. */
  lemma NonInfixOpsAreSentinels(t: Table, k: string)
    requires forall x :: x in t.lbp ==> t.lbp[x] != UNARY
    requires forall x :: x in t.rbp ==> t.rbp[x] != UNARY
    requires k != BEGIN && k != END
    ensures k in NonInfixOps(t).0 <==> k in SetBp(t).lbp && SetBp(t).lbp[k] == UNARY
    ensures k in NonInfixOps(t).1 <==> k in SetBp(t).rbp && SetBp(t).rbp[k] == UNARY
  {
  }
}

=== FILE: tokenizers.dfy ===
/** Splitting source text into tokens (`_raw_toklist`) and the token lists
    the parsers read (`tokenizer_a` to `tokenizer_e`, the direct demo's
    `tokenizer`). */
module Tokenizers {
  import opened Wrappers
  import opened Tables

  /* ---------- character classes ---------- */

  /** Python's `str.isspace`, `str.isalnum` and `str.isdigit` on one
      character, taken as parameters. */
  datatype CharClasses = CharClasses(isSpace: char -> bool, isAlnum: char -> bool, isDigit: char -> bool)

  /** `_GEN_OP_CHARS`: the characters of generated operator names and `_`. */
  const GenOpChars: set<char> := {'(', ';', ')', '_'}

  /** The classes restricted to ASCII, where Python's tables are simple:
      whitespace is TAB to CR, the four separators 0x1C to 0x1F, and space. */
  const Ascii: CharClasses := CharClasses(
    c => c == ' ' || 9 <= c as int <= 13 || 28 <= c as int <= 31,
    c => 'a' <= c <= 'z' || 'A' <= c <= 'Z' || '0' <= c <= '9',
    c => '0' <= c <= '9')

  /** Whether the character at position i counts as alphanumeric: a letter
      or digit, a generated-operator character, or a `-` directly followed
      by a digit. */
  predicate Alnu(cc: CharClasses, code: string, i: int)
    requires 0 <= i < |code|
  {
    || cc.isAlnum(code[i])
    || code[i] in GenOpChars
    || (code[i] == '-' && i + 1 < |code| && cc.isDigit(code[i + 1]))
  }

  /* ---------- `_raw_toklist` ---------- */

  /** The generator's loop from position `pos` on, with `buf` the token
      collected so far. */
  function RawFrom(cc: CharClasses, code: string, pos: nat, buf: string): seq<string>
    requires pos <= |code|
    decreases |code| - pos
  {
    if pos == |code| then (if buf != "" then [buf] else [])
    else
      var c := code[pos];
      if cc.isSpace(c) then (if buf != "" then [buf] else []) + RawFrom(cc, code, pos + 1, "")
      else if buf == "" then RawFrom(cc, code, pos + 1, [c])
      else
        var last := buf[|buf| - 1];
        var oldAlnu := cc.isAlnum(last) || last in GenOpChars || (last == '-' && cc.isDigit(c));
        var newAlnu := cc.isAlnum(c) || c in GenOpChars || (c == '-' && |code| > pos + 1 && cc.isDigit(code[pos + 1]));
        if oldAlnu != newAlnu then [buf] + RawFrom(cc, code, pos + 1, [c])
        else RawFrom(cc, code, pos + 1, buf + [c])
  }

  /** `list(_raw_toklist(code))`: exactly the reference runs, so its tokens
      are non-empty, whitespace-free, and glue back to the input without its
      whitespace. */
  function RawTokens(cc: CharClasses, code: string): (r: seq<string>)
    ensures r == RefFrom(cc, code, true, 0)
    ensures forall k :: 0 <= k < |r| ==> r[k] != ""
    ensures forall k, j :: 0 <= k < |r| && 0 <= j < |r[k]| ==> !cc.isSpace(r[k][j])
    ensures Concat(r) == NoSpace(cc, code)
  {
    RawEmpty(cc, code, 0);
    RefFromShape(cc, code, true, 0);
    assert code[0..] == code;
    RawFrom(cc, code, 0, "")
  }

  /* ---------- reference: maximal runs of one class ---------- */

  /** The end of the run that contains positions i to j - 1: it stops at
      the end of the text, at whitespace, and, when `byClass` holds, where
      the class changes. */
  function RunEnd(cc: CharClasses, code: string, byClass: bool, i: nat, j: nat): (e: nat)
    requires i < j <= |code|
    decreases |code| - j
    ensures j <= e <= |code|
    ensures e == |code| || cc.isSpace(code[e]) || (byClass && Alnu(cc, code, e) != Alnu(cc, code, i))
  {
    if j == |code| || cc.isSpace(code[j]) || (byClass && Alnu(cc, code, j) != Alnu(cc, code, i)) then j
    else RunEnd(cc, code, byClass, i, j + 1)
  }

  /** Every position the run is extended over is non-space and, when
      `byClass` holds, of the class of position i. */
  lemma {:induction false} RunEndRun(cc: CharClasses, code: string, byClass: bool, i: nat, j: nat)
    requires i < j <= |code|
    decreases |code| - j
    ensures forall k :: j <= k < RunEnd(cc, code, byClass, i, j) ==>
      !cc.isSpace(code[k]) && (byClass ==> Alnu(cc, code, k) == Alnu(cc, code, i))
  {
    if !(j == |code| || cc.isSpace(code[j]) || (byClass && Alnu(cc, code, j) != Alnu(cc, code, i))) {
      RunEndRun(cc, code, byClass, i, j + 1);
    }
  }

  /** The tokens from position i on: whitespace is skipped, and each token
      is a longest run of non-space characters, all of one class when
      `byClass` holds. */
  function RefFrom(cc: CharClasses, code: string, byClass: bool, i: nat): seq<string>
    requires i <= |code|
    decreases |code| - i
  {
    if i == |code| then []
    else if cc.isSpace(code[i]) then RefFrom(cc, code, byClass, i + 1)
    else
      var e := RunEnd(cc, code, byClass, i, i + 1);
      [code[i..e]] + RefFrom(cc, code, byClass, e)
  }

  /** `code.split()`: the longest runs of non-space characters. */
  function Words(cc: CharClasses, code: string): seq<string> {
    RefFrom(cc, code, false, 0)
  }

  /** The string with every whitespace character deleted. */
  function NoSpace(cc: CharClasses, s: string): (r: string)
    ensures |r| <= |s|
  {
    if s == [] then []
    else (if cc.isSpace(s[0]) then [] else [s[0]]) + NoSpace(cc, s[1..])
  }

  /** All tokens glued together. */
  function Concat(ss: seq<string>): string {
    if ss == [] then [] else ss[0] + Concat(ss[1..])
  }

  lemma {:induction false} NoSpaceAppend(cc: CharClasses, a: string, b: string)
    ensures NoSpace(cc, a + b) == NoSpace(cc, a) + NoSpace(cc, b)
  {
    if a == [] {
      assert a + b == b;
    } else {
      assert (a + b)[1..] == a[1..] + b;
      NoSpaceAppend(cc, a[1..], b);
    }
  }

  lemma {:induction false} NoSpaceKeeps(cc: CharClasses, s: string)
    requires forall k :: 0 <= k < |s| ==> !cc.isSpace(s[k])
    ensures NoSpace(cc, s) == s
  {
    if s != [] {
      NoSpaceKeeps(cc, s[1..]);
    }
  }

  /** The reference tokens are non-empty and whitespace-free. */
  lemma {:induction false} RefFromTokens(cc: CharClasses, code: string, byClass: bool, i: nat)
    requires i <= |code|
    decreases |code| - i
    ensures forall k :: 0 <= k < |RefFrom(cc, code, byClass, i)| ==> RefFrom(cc, code, byClass, i)[k] != ""
    ensures forall k, j :: 0 <= k < |RefFrom(cc, code, byClass, i)| && 0 <= j < |RefFrom(cc, code, byClass, i)[k]| ==> !cc.isSpace(RefFrom(cc, code, byClass, i)[k][j])
  {
    if i == |code| {
    } else if cc.isSpace(code[i]) {
      RefFromTokens(cc, code, byClass, i + 1);
    } else {
      var e := RunEnd(cc, code, byClass, i, i + 1);
      RunEndRun(cc, code, byClass, i, i + 1);
      RefFromTokens(cc, code, byClass, e);
      var r := RefFrom(cc, code, byClass, i);
      var tail := RefFrom(cc, code, byClass, e);
      assert r == [code[i..e]] + tail;
      forall k, j | 0 <= k < |r| && 0 <= j < |r[k]|
        ensures !cc.isSpace(r[k][j])
      {
        if k == 0 {
          assert r[k][j] == code[i + j];
        } else {
          assert r[k] == tail[k - 1];
        }
      }
      forall k | 0 <= k < |r|
        ensures r[k] != ""
      {
        if k > 0 {
          assert r[k] == tail[k - 1];
        }
      }
    }
  }

  /** Glued together, the reference tokens give the input from position i
      with its whitespace deleted. */
  lemma {:induction false} RefFromConcat(cc: CharClasses, code: string, byClass: bool, i: nat)
    requires i <= |code|
    decreases |code| - i
    ensures Concat(RefFrom(cc, code, byClass, i)) == NoSpace(cc, code[i..])
  {
    if i == |code| {
    } else if cc.isSpace(code[i]) {
      RefFromConcat(cc, code, byClass, i + 1);
      assert code[i..] == [code[i]] + code[i + 1..];
      NoSpaceAppend(cc, [code[i]], code[i + 1..]);
    } else {
      var e := RunEnd(cc, code, byClass, i, i + 1);
      RunEndRun(cc, code, byClass, i, i + 1);
      RefFromConcat(cc, code, byClass, e);
      var r := RefFrom(cc, code, byClass, i);
      assert r == [code[i..e]] + RefFrom(cc, code, byClass, e);
      assert r[1..] == RefFrom(cc, code, byClass, e);
      assert code[i..] == code[i..e] + code[e..];
      NoSpaceAppend(cc, code[i..e], code[e..]);
      NoSpaceKeeps(cc, code[i..e]);
    }
  }

  /** The reference tokens are non-empty and whitespace-free, and glued
      together they give the input with its whitespace deleted. */
  lemma RefFromShape(cc: CharClasses, code: string, byClass: bool, i: nat)
    requires i <= |code|
    ensures forall k :: 0 <= k < |RefFrom(cc, code, byClass, i)| ==> RefFrom(cc, code, byClass, i)[k] != ""
    ensures forall k, j :: 0 <= k < |RefFrom(cc, code, byClass, i)| && 0 <= j < |RefFrom(cc, code, byClass, i)[k]| ==> !cc.isSpace(RefFrom(cc, code, byClass, i)[k][j])
    ensures Concat(RefFrom(cc, code, byClass, i)) == NoSpace(cc, code[i..])
  {
    RefFromTokens(cc, code, byClass, i);
    RefFromConcat(cc, code, byClass, i);
  }

  /* ---------- the generator computes the reference ---------- */

  /** The "old" class test of the generator, on the last character of a
      non-empty buffer taken from the text, is the class of that position. */
  lemma OldClass(cc: CharClasses, code: string, pos: nat)
    requires 0 < pos < |code|
    ensures Alnu(cc, code, pos - 1) ==
      (cc.isAlnum(code[pos - 1]) || code[pos - 1] in GenOpChars || (code[pos - 1] == '-' && cc.isDigit(code[pos])))
  {
  }

  /** With an empty buffer, the generator yields the reference tokens. */
  lemma {:induction false} RawEmpty(cc: CharClasses, code: string, pos: nat)
    requires pos <= |code|
    decreases |code| - pos, 1
    ensures RawFrom(cc, code, pos, "") == RefFrom(cc, code, true, pos)
  {
    if pos < |code| {
      if cc.isSpace(code[pos]) {
        RawEmpty(cc, code, pos + 1);
      } else {
        assert [code[pos]] == code[pos..pos + 1];
        RawBuffer(cc, code, pos, pos + 1);
      }
    }
  }

  /** One step of the generator on a non-space character with a
      non-empty buffer taken from the text: the buffer is yielded exactly
      when the class changes. */
  lemma RawStep(cc: CharClasses, code: string, st: nat, pos: nat)
    requires st < pos < |code| && !cc.isSpace(code[pos])
    ensures RawFrom(cc, code, pos, code[st..pos]) ==
      if Alnu(cc, code, pos - 1) != Alnu(cc, code, pos)
      then [code[st..pos]] + RawFrom(cc, code, pos + 1, code[pos..pos + 1])
      else RawFrom(cc, code, pos + 1, code[st..pos + 1])
  {
    var buf := code[st..pos];
    assert buf != "" && buf[|buf| - 1] == code[pos - 1];
    assert [code[pos]] == code[pos..pos + 1];
    assert buf + [code[pos]] == code[st..pos + 1];
    OldClass(cc, code, pos);
  }

  /** The generator's result with the run from st to pos in the buffer:
      that run, finished, then the reference tokens after it. */
  predicate BufferDone(cc: CharClasses, code: string, st: nat, pos: nat)
    requires st < pos <= |code|
  {
    RawFrom(cc, code, pos, code[st..pos]) ==
      [code[st..RunEnd(cc, code, true, st, pos)]] + RefFrom(cc, code, true, RunEnd(cc, code, true, st, pos))
  }

  /** At whitespace the buffer is yielded and the generator starts afresh. */
  lemma BufferAtSpace(cc: CharClasses, code: string, st: nat, pos: nat)
    requires st < pos < |code| && cc.isSpace(code[pos])
    requires RawFrom(cc, code, pos + 1, "") == RefFrom(cc, code, true, pos + 1)
    ensures BufferDone(cc, code, st, pos)
  {
    assert code[st..pos] != "";
  }

  /** Where the class changes the buffer is yielded and a new run starts. */
  lemma BufferAtChange(cc: CharClasses, code: string, st: nat, pos: nat)
    requires st < pos < |code| && !cc.isSpace(code[pos])
    requires Alnu(cc, code, pos - 1) == Alnu(cc, code, st) != Alnu(cc, code, pos)
    requires BufferDone(cc, code, pos, pos + 1)
    ensures BufferDone(cc, code, st, pos)
  {
    var e := RunEnd(cc, code, true, pos, pos + 1);
    var next := [code[pos..e]] + RefFrom(cc, code, true, e);
    assert RawFrom(cc, code, pos + 1, code[pos..pos + 1]) == next;
    RawStep(cc, code, st, pos);
    assert RawFrom(cc, code, pos, code[st..pos]) == [code[st..pos]] + next;
    RefFromAtRun(cc, code, pos);
    assert RunEnd(cc, code, true, st, pos) == pos;
  }

  /** From a non-space position the reference yields the run that starts
      there, then continues after it. */
  lemma RefFromAtRun(cc: CharClasses, code: string, i: nat)
    requires i < |code| && !cc.isSpace(code[i])
    ensures RefFrom(cc, code, true, i) ==
      [code[i..RunEnd(cc, code, true, i, i + 1)]] + RefFrom(cc, code, true, RunEnd(cc, code, true, i, i + 1))
  {
  }

  /** Within a run the character joins the buffer. */
  lemma BufferInRun(cc: CharClasses, code: string, st: nat, pos: nat)
    requires st < pos < |code| && !cc.isSpace(code[pos])
    requires Alnu(cc, code, pos - 1) == Alnu(cc, code, st) == Alnu(cc, code, pos)
    requires BufferDone(cc, code, st, pos + 1)
    ensures BufferDone(cc, code, st, pos)
  {
    RawStep(cc, code, st, pos);
    assert RunEnd(cc, code, true, st, pos) == RunEnd(cc, code, true, st, pos + 1);
  }

  /** With the buffer holding the run from position st up to pos, the
      generator finishes that run and then yields the reference tokens. */
  lemma {:induction false} RawBuffer(cc: CharClasses, code: string, st: nat, pos: nat)
    requires st < pos <= |code|
    requires Alnu(cc, code, pos - 1) == Alnu(cc, code, st)
    decreases |code| - pos, 0
    ensures BufferDone(cc, code, st, pos)
  {
    if pos == |code| {
      assert code[st..pos] != "";
    } else if cc.isSpace(code[pos]) {
      RawEmpty(cc, code, pos + 1);
      BufferAtSpace(cc, code, st, pos);
    } else if Alnu(cc, code, pos - 1) != Alnu(cc, code, pos) {
      RawBuffer(cc, code, pos, pos + 1);
      BufferAtChange(cc, code, st, pos);
    } else {
      RawBuffer(cc, code, st, pos + 1);
      BufferInRun(cc, code, st, pos);
    }
  }

  /** `code.split()` also yields non-empty, whitespace-free words that glue
      back to the input without its whitespace. */
  lemma WordsShape(cc: CharClasses, code: string)
    ensures forall k :: 0 <= k < |Words(cc, code)| ==> Words(cc, code)[k] != ""
    ensures forall k, j :: 0 <= k < |Words(cc, code)| && 0 <= j < |Words(cc, code)[k]| ==> !cc.isSpace(Words(cc, code)[k][j])
    ensures Concat(Words(cc, code)) == NoSpace(cc, code)
  {
    RefFromShape(cc, code, false, 0);
    assert code[0..] == code;
  }

  /* ---------- the marked token list: `tokenizer_e` ---------- */

  /** `LBP.get(tok) == 100`: a prefix operator, preceded by `$PRE`. */
  predicate IsPrefix(t: Table, tok: string) {
    tok in t.lbp && t.lbp[tok] == UNARY
  }

  /** `RBP.get(tok) == 100`: a postfix operator, followed by `$POST`. */
  predicate IsPostfix(t: Table, tok: string) {
    tok in t.rbp && t.rbp[tok] == UNARY
  }

  /** What the loop of `tokenizer_e` yields for one raw token. */
  function ExpandTok(t: Table, tok: string): seq<string> {
    (if IsPrefix(t, tok) then [PRE] else []) + [tok] + (if IsPostfix(t, tok) then [POST] else [])
  }

  /** The loop of `tokenizer_e` over a list of raw tokens. */
  function Expand(t: Table, raw: seq<string>): seq<string> {
    if raw == [] then [] else ExpandTok(t, raw[0]) + Expand(t, raw[1..])
  }

  /** The raw tokens never spell one of the four inserted names. */
  predicate NoMarkers(raw: seq<string>) {
    forall k :: 0 <= k < |raw| ==> !IsMarker(raw[k])
  }

  /** `list(tokenizer_e(code))`: bracketed by `$BEGIN` and `$END`, and when
      no raw token is a marker name, deleting the four inserted names gives
      `_raw_toklist` back and the placeholders sit exactly at the prefix and
      postfix operators. */
  function TokE(t: Table, cc: CharClasses, code: string): (r: seq<string>)
    ensures |r| >= 2 && r[0] == BEGIN && r[|r| - 1] == END
    ensures NoMarkers(RawTokens(cc, code)) ==> Strip(r) == RawTokens(cc, code)
    ensures NoMarkers(RawTokens(cc, code)) ==> PlaceholdersPlaced(t, r[1..|r| - 1])
  {
    Bracketed(t, RawTokens(cc, code))
  }

  /** `tokenizer_b`'s list: `tokenizer_e`'s with the placeholders deleted. */
  function TokB(t: Table, cc: CharClasses, code: string): (r: seq<string>)
    ensures NoMarkers(RawTokens(cc, code)) ==> r == [BEGIN] + Strip(TokE(t, cc, code)) + [END]
  {
    [BEGIN] + RawTokens(cc, code) + [END]
  }

  predicate IsMarker(x: string) {
    x == BEGIN || x == END || x == PRE || x == POST
  }

  /** The list with the four inserted names deleted. */
  function Strip(s: seq<string>): seq<string> {
    if s == [] then [] else (if IsMarker(s[0]) then [] else [s[0]]) + Strip(s[1..])
  }

  lemma {:induction false} ExpandAppend(t: Table, a: seq<string>, b: seq<string>)
    ensures Expand(t, a + b) == Expand(t, a) + Expand(t, b)
  {
    if a == [] {
      assert a + b == b;
    } else {
      assert (a + b)[1..] == a[1..] + b;
      ExpandAppend(t, a[1..], b);
    }
  }

  lemma {:induction false} StripAppend(a: seq<string>, b: seq<string>)
    ensures Strip(a + b) == Strip(a) + Strip(b)
  {
    if a == [] {
      assert a + b == b;
    } else {
      assert (a + b)[1..] == a[1..] + b;
      StripAppend(a[1..], b);
    }
  }

  /** Deleting the placeholders around one token leaves the token. */
  lemma StripExpandTok(t: Table, tok: string)
    requires !IsMarker(tok)
    ensures Strip(ExpandTok(t, tok)) == [tok]
  {
    var pre: seq<string> := if IsPrefix(t, tok) then [PRE] else [];
    var post: seq<string> := if IsPostfix(t, tok) then [POST] else [];
    StripAppend(pre + [tok], post);
    StripAppend(pre, [tok]);
    assert Strip([tok]) == [tok];
  }

  /** Deleting the placeholders from an expansion gives the raw tokens back. */
  lemma {:induction false} StripExpand(t: Table, raw: seq<string>)
    requires forall k :: 0 <= k < |raw| ==> !IsMarker(raw[k])
    ensures Strip(Expand(t, raw)) == raw
  {
    if raw != [] {
      StripExpand(t, raw[1..]);
      StripAppend(ExpandTok(t, raw[0]), Expand(t, raw[1..]));
      StripExpandTok(t, raw[0]);
    }
  }

  /* ---------- where the placeholders go ---------- */

  /** A source token carries `$PRE` right before it exactly when its LBP is 100. */
  predicate PreBefore(t: Table, x: seq<string>) {
    forall j {:trigger x[j]} :: 0 <= j < |x| && !IsMarker(x[j]) ==> (IsPrefix(t, x[j]) <==> 0 < j && x[j - 1] == PRE)
  }

  /** A source token carries `$POST` right after it exactly when its RBP is 100. */
  predicate PostAfter(t: Table, x: seq<string>) {
    forall j {:trigger x[j]} :: 0 <= j < |x| && !IsMarker(x[j]) ==> (IsPostfix(t, x[j]) <==> j + 1 < |x| && x[j + 1] == POST)
  }

  /** Every `$PRE` is followed, and every `$POST` preceded, by a source token. */
  predicate PlaceholdersAttached(x: seq<string>) {
    && (forall j :: 0 <= j < |x| && x[j] == PRE ==> j + 1 < |x| && !IsMarker(x[j + 1]))
    && (forall j :: 0 <= j < |x| && x[j] == POST ==> 0 < j && !IsMarker(x[j - 1]))
  }

  predicate NoBrackets(x: seq<string>) {
    forall j :: 0 <= j < |x| ==> x[j] != BEGIN && x[j] != END
  }

  /** The list between `$BEGIN` and `$END` has its placeholders where the
      tokenizers put them, and nowhere else. */
  predicate PlaceholdersPlaced(t: Table, x: seq<string>) {
    PreBefore(t, x) && PostAfter(t, x) && PlaceholdersAttached(x) && NoBrackets(x)
  }

  /** The four inserted names are pairwise different. */
  lemma MarkersDistinct()
    ensures PRE != POST && PRE != BEGIN && PRE != END && POST != BEGIN && POST != END
  {
    assert PRE[1] != END[1] && |PRE| != |BEGIN| && |POST| != |BEGIN| && |POST| != |END| && |PRE| != |POST|;
  }

  lemma PreBeforeAppend(t: Table, a: seq<string>, b: seq<string>)
    requires PreBefore(t, a) && PreBefore(t, b) && PlaceholdersAttached(a) && PlaceholdersAttached(b)
    ensures PreBefore(t, a + b)
  {
    var x := a + b;
    MarkersDistinct();
    forall j | 0 <= j < |x| && !IsMarker(x[j])
      ensures IsPrefix(t, x[j]) <==> 0 < j && x[j - 1] == PRE
    {
      if j < |a| {
        assert x[j] == a[j];
        if 0 < j { assert x[j - 1] == a[j - 1]; }
      } else if j == |a| {
        assert x[j] == b[0];
        if 0 < j { assert x[j - 1] == a[|a| - 1]; }
      } else {
        assert x[j] == b[j - |a|] && x[j - 1] == b[j - |a| - 1];
      }
    }
  }

  lemma PostAfterAppend(t: Table, a: seq<string>, b: seq<string>)
    requires PostAfter(t, a) && PostAfter(t, b) && PlaceholdersAttached(a) && PlaceholdersAttached(b)
    ensures PostAfter(t, a + b)
  {
    var x := a + b;
    MarkersDistinct();
    forall j | 0 <= j < |x| && !IsMarker(x[j])
      ensures IsPostfix(t, x[j]) <==> j + 1 < |x| && x[j + 1] == POST
    {
      if j < |a| {
        assert x[j] == a[j];
        if j + 1 < |a| {
          assert x[j + 1] == a[j + 1];
        } else if j + 1 < |x| {
          assert x[j + 1] == b[0];
        }
      } else {
        assert x[j] == b[j - |a|];
        if j + 1 < |x| { assert x[j + 1] == b[j - |a| + 1]; }
      }
    }
  }

  lemma AttachedAppend(a: seq<string>, b: seq<string>)
    requires PlaceholdersAttached(a) && PlaceholdersAttached(b)
    ensures PlaceholdersAttached(a + b)
  {
    var x := a + b;
    forall j | 0 <= j < |x| && x[j] == PRE
      ensures j + 1 < |x| && !IsMarker(x[j + 1])
    {
      if j < |a| {
        assert x[j] == a[j] && x[j + 1] == a[j + 1];
      } else {
        assert x[j] == b[j - |a|] && x[j + 1] == b[j - |a| + 1];
      }
    }
    forall j | 0 <= j < |x| && x[j] == POST
      ensures 0 < j && !IsMarker(x[j - 1])
    {
      if j < |a| {
        assert x[j] == a[j] && x[j - 1] == a[j - 1];
      } else {
        assert x[j] == b[j - |a|] && x[j - 1] == b[j - |a| - 1];
      }
    }
  }

  /** Two well-placed lists glue into a well-placed list. */
  lemma PlacedAppend(t: Table, a: seq<string>, b: seq<string>)
    requires PlaceholdersPlaced(t, a) && PlaceholdersPlaced(t, b)
    ensures PlaceholdersPlaced(t, a + b)
  {
    PreBeforeAppend(t, a, b);
    PostAfterAppend(t, a, b);
    AttachedAppend(a, b);
    assert NoBrackets(a + b) by {
      forall j | 0 <= j < |a + b| ensures (a + b)[j] != BEGIN && (a + b)[j] != END {
        if j < |a| { assert (a + b)[j] == a[j]; } else { assert (a + b)[j] == b[j - |a|]; }
      }
    }
  }

  lemma ExpandTokPlaced(t: Table, tok: string)
    requires !IsMarker(tok)
    ensures PlaceholdersPlaced(t, ExpandTok(t, tok))
  {
    var pre: seq<string> := if IsPrefix(t, tok) then [PRE] else [];
    var post: seq<string> := if IsPostfix(t, tok) then [POST] else [];
    var x := ExpandTok(t, tok);
    assert x == pre + [tok] + post;
    var i := |pre|;
    MarkersDistinct();
    assert x[i] == tok;
    assert forall j :: 0 <= j < |x| && j != i ==> IsMarker(x[j]) && x[j] != BEGIN && x[j] != END;
    assert forall j :: 0 <= j < |x| && x[j] == PRE ==> j + 1 == i;
    assert forall j :: 0 <= j < |x| && x[j] == POST ==> j == i + 1;
  }

  /** `tokenizer_e`'s loop puts `$PRE` right before exactly the tokens with
      LBP 100 and `$POST` right after exactly those with RBP 100. */
  lemma {:induction false} ExpandPlacement(t: Table, raw: seq<string>)
    requires NoMarkers(raw)
    ensures PlaceholdersPlaced(t, Expand(t, raw))
  {
    if raw != [] {
      assert NoMarkers(raw[1..]) by {
        forall k | 0 <= k < |raw[1..]| ensures !IsMarker(raw[1..][k]) { assert raw[1..][k] == raw[k + 1]; }
      }
      ExpandPlacement(t, raw[1..]);
      ExpandTokPlaced(t, raw[0]);
      PlacedAppend(t, ExpandTok(t, raw[0]), Expand(t, raw[1..]));
    }
  }

  /** The loop shared by `tokenizer_e` and the direct demo's `tokenizer`:
      `$BEGIN`, each token with its placeholders, `$END`. */
  function Bracketed(t: Table, raw: seq<string>): (r: seq<string>)
    ensures |r| >= 2 && r[0] == BEGIN && r[|r| - 1] == END
    ensures NoMarkers(raw) ==> Strip(r) == raw
    ensures NoMarkers(raw) ==> PlaceholdersPlaced(t, r[1..|r| - 1])
  {
    StripAppend([BEGIN] + Expand(t, raw), [END]);
    StripAppend([BEGIN], Expand(t, raw));
    if NoMarkers(raw) then
      StripExpand(t, raw);
      ExpandPlacement(t, raw);
      var r := [BEGIN] + Expand(t, raw) + [END];
      assert r[1..|r| - 1] == Expand(t, raw);
      r
    else [BEGIN] + Expand(t, raw) + [END]
  }

  /** With ASCII classes a marker name can never be a raw token: `$` and a
      letter belong to different classes, so no run holds both. */
  lemma {:induction false} AsciiRunsNoMarkers(code: string, i: nat)
    requires i <= |code|
    decreases |code| - i
    ensures forall k :: 0 <= k < |RefFrom(Ascii, code, true, i)| ==> !IsMarker(RefFrom(Ascii, code, true, i)[k])
  {
    if i < |code| {
      if Ascii.isSpace(code[i]) {
        AsciiRunsNoMarkers(code, i + 1);
      } else {
        var e := RunEnd(Ascii, code, true, i, i + 1);
        RunEndRun(Ascii, code, true, i, i + 1);
        AsciiRunsNoMarkers(code, e);
        var r := RefFrom(Ascii, code, true, i);
        var tok := code[i..e];
        assert i + 1 < e ==> Alnu(Ascii, code, i + 1) == Alnu(Ascii, code, i);
        assert !IsMarker(tok);
        forall k | 0 <= k < |r|
          ensures !IsMarker(r[k])
        {
          if k > 0 {
            assert r[k] == RefFrom(Ascii, code, true, e)[k - 1];
          }
        }
      }
    }
  }

  lemma AsciiNoMarkers(code: string)
    ensures forall k :: 0 <= k < |RawTokens(Ascii, code)| ==> !IsMarker(RawTokens(Ascii, code)[k])
  {
    AsciiRunsNoMarkers(code, 0);
  }

  /* ---------- the cursor closures: `tokenizer_a`, `tokenizer_b` ---------- */

  /** The state of the closure `toks`: the list and the position. */
  datatype Cursor = Cursor(toklist: seq<string>, pos: nat)

  /** `toks(advance)`: move forward by `advance`, then read. */
  function Toks(c: Cursor, advance: nat): (r: (Cursor, string))
    requires c.pos + advance < |c.toklist|
    ensures r.0.toklist == c.toklist
  {
    var c1 := c.(pos := c.pos + advance);
    (c1, c1.toklist[c1.pos])
  }

  /** The tokens at and after the cursor. */
  function Remaining(c: Cursor): seq<string>
    requires c.pos <= |c.toklist|
  {
    c.toklist[c.pos..]
  }

  /** Reading through the cursor is reading the remaining list: `toks(n)`
      returns its n-th element and leaves it shortened by n, and `toks()`
      does not move. The parsers therefore work on the remaining list. */
  lemma ToksOnRemaining(c: Cursor, advance: nat)
    requires c.pos + advance < |c.toklist|
    ensures Toks(c, advance).1 == Remaining(c)[advance]
    ensures Remaining(Toks(c, advance).0) == Remaining(c)[advance..]
    ensures Toks(c, 0).0 == c
  {
  }

  function TokenizerA(t: Table, cc: CharClasses, code: string): (c: Cursor)
    ensures c.pos == 0 && Remaining(c) == TokE(t, cc, code)
  {
    Cursor(TokE(t, cc, code), 0)
  }

  function TokenizerB(t: Table, cc: CharClasses, code: string): (c: Cursor)
    ensures c.pos == 0 && Remaining(c) == TokB(t, cc, code)
  {
    Cursor(TokB(t, cc, code), 0)
  }

  /* ---------- the pair lists: `tokenizer_c`, `tokenizer_d` ---------- */

  /** A list built from Python pairs `(head, tail)`, ending in `None`. */
  datatype PairList<T> = Nil | Pair(head: T, tail: PairList<T>)

  function Len<T>(l: PairList<T>): nat {
    if l.Nil? then 0 else 1 + Len(l.tail)
  }

  function ToSeq<T>(l: PairList<T>): (s: seq<T>)
    ensures |s| == Len(l)
  {
    if l.Nil? then [] else [l.head] + ToSeq(l.tail)
  }

  /** `functools.reduce(lambda x, m: (m, x), reversed(s), acc)`: pairs up
      the elements from the last one back to the first. */
  function PairUp<T>(s: seq<T>, acc: PairList<T>): PairList<T>
    decreases |s|
  {
    if s == [] then acc else PairUp(s[..|s| - 1], Pair(s[|s| - 1], acc))
  }

  /** The pair list holds the elements in their original order. */
  lemma {:induction false} PairUpOrder<T>(s: seq<T>, acc: PairList<T>)
    decreases |s|
    ensures ToSeq(PairUp(s, acc)) == s + ToSeq(acc)
  {
    if s != [] {
      PairUpOrder(s[..|s| - 1], Pair(s[|s| - 1], acc));
      assert s[..|s| - 1] + ([s[|s| - 1]] + ToSeq(acc)) == s + ToSeq(acc);
    }
  }

  /** `first`, `second`, `third`, `rrest`: car, cadr, caddr, cddr. */
  function First<T>(l: PairList<T>): (x: T)
    requires Len(l) >= 1
    ensures x == ToSeq(l)[0]
  {
    l.head
  }

  function Second<T>(l: PairList<T>): (x: T)
    requires Len(l) >= 2
    ensures x == ToSeq(l)[1]
  {
    assert Len(l.tail) >= 1;
    l.tail.head
  }

  function Third<T>(l: PairList<T>): (x: T)
    requires Len(l) >= 3
    ensures x == ToSeq(l)[2]
  {
    assert Len(l.tail) >= 2 && Len(l.tail.tail) >= 1;
    assert ToSeq(l)[2] == ToSeq(l.tail)[1] == ToSeq(l.tail.tail)[0];
    l.tail.tail.head
  }

  function RRest<T>(l: PairList<T>): (r: PairList<T>)
    requires Len(l) >= 2
    ensures ToSeq(r) == ToSeq(l)[2..]
  {
    assert Len(l.tail) >= 1;
    assert ToSeq(l)[2..] == ToSeq(l.tail)[1..];
    l.tail.tail
  }

  /** `tokenizer_c`: `tokenizer_e`'s tokens as a pair list. */
  function TokenizerC(t: Table, cc: CharClasses, code: string): (l: PairList<string>)
    ensures ToSeq(l) == TokE(t, cc, code)
  {
    PairUpOrder(TokE(t, cc, code), Nil);
    PairUp(TokE(t, cc, code), Nil)
  }

  /** The named tuple `Token(nam, lp, rp)`; `None` is absent power. */
  datatype Token = Token(nam: string, lp: Option<int>, rp: Option<int>)

  /** A name with its binding powers attached, as `tokenizer_d` does it:
      both powers when the name is in LBP, neither otherwise. */
  function ToToken(t: Table, x: string): (k: Token)
    requires x in t.lbp ==> x in t.rbp
    ensures k.nam == x
    ensures k.lp.Some? <==> x in t.lbp
    ensures k.lp.Some? ==> k.lp.value == t.lbp[x] && k.rp == Some(t.rbp[x])
    ensures k.lp.None? ==> k.rp.None?
  {
    if x in t.lbp then Token(x, Some(t.lbp[x]), Some(t.rbp[x])) else Token(x, None, None)
  }

  /** Attach binding powers to every name of a list. */
  function ToTokens(t: Table, s: seq<string>): (r: seq<Token>)
    requires forall x :: x in t.lbp ==> x in t.rbp
    ensures |r| == |s|
  {
    if s == [] then [] else [ToToken(t, s[0])] + ToTokens(t, s[1..])
  }

  /** The token at each position is the name at that position with its
      powers. */
  lemma {:induction false} ToTokensAt(t: Table, s: seq<string>, i: nat)
    requires forall x :: x in t.lbp ==> x in t.rbp
    requires i < |s|
    ensures ToTokens(t, s)[i] == ToToken(t, s[i])
  {
    if i > 0 {
      ToTokensAt(t, s[1..], i - 1);
    }
  }

  /** Dropping two names drops their two tokens. */
  lemma ToTokensTail(t: Table, s: seq<string>)
    requires forall x :: x in t.lbp ==> x in t.rbp
    requires |s| >= 2
    ensures ToTokens(t, s[2..]) == ToTokens(t, s)[2..]
  {
    assert s[1..][1..] == s[2..];
  }

  /** `tokenizer_d`: `tokenizer_e`'s tokens with their binding powers, as a
      pair list. */
  function TokenizerD(t: Table, cc: CharClasses, code: string): (l: PairList<Token>)
    requires forall x :: x in t.lbp ==> x in t.rbp
    ensures ToSeq(l) == ToTokens(t, TokE(t, cc, code))
  {
    PairUpOrder(ToTokens(t, TokE(t, cc, code)), Nil);
    PairUp(ToTokens(t, TokE(t, cc, code)), Nil)
  }

  /** The names of `tokenizer_d`'s tokens are `tokenizer_e`'s tokens. */
  lemma TokenizerDNames(t: Table, cc: CharClasses, code: string)
    requires forall x :: x in t.lbp ==> x in t.rbp
    ensures |ToSeq(TokenizerD(t, cc, code))| == |TokE(t, cc, code)|
    ensures forall i :: 0 <= i < |TokE(t, cc, code)| ==> ToSeq(TokenizerD(t, cc, code))[i].nam == TokE(t, cc, code)[i]
  {
    forall i | 0 <= i < |TokE(t, cc, code)|
      ensures ToSeq(TokenizerD(t, cc, code))[i].nam == TokE(t, cc, code)[i]
    {
      ToTokensAt(t, TokE(t, cc, code), i);
    }
  }

  /* ---------- the direct demo's tokenizer ---------- */

  /** The table updates of the direct demo's `tokenizer`: a name with only
      an RBP gets LBP 100, then a name with only an LBP gets RBP 100, then
      LBP[`$END`] becomes -1. `$BEGIN` is left alone. */
  function DirectTable(t: Table): (r: Table)
    ensures forall k :: k in r.lbp <==> k in t.lbp || k in t.rbp || k == END
    ensures forall k :: k in r.rbp <==> k in t.lbp || k in t.rbp
    ensures forall k :: k in t.lbp && k != END ==> r.lbp[k] == t.lbp[k]
    ensures forall k :: k in t.rbp ==> r.rbp[k] == t.rbp[k]
    ensures forall k :: k in t.rbp && k !in t.lbp && k != END ==> r.lbp[k] == UNARY
    ensures forall k :: k in t.lbp && k !in t.rbp ==> r.rbp[k] == UNARY
    ensures r.lbp[END] == -1
  {
    var lbp1 := map k | k in t.lbp.Keys + t.rbp.Keys :: if k in t.lbp then t.lbp[k] else UNARY;
    var rbp1 := map k | k in lbp1 :: if k in t.rbp then t.rbp[k] else UNARY;
    Table(lbp1[END := -1], rbp1)
  }

  /** The direct demo's `tokenizer`: the updated table and the cursor over
      the split words, bracketed and with placeholders. */
  function DirectTokenizer(t: Table, cc: CharClasses, code: string): (r: (Table, Cursor))
    ensures r.0 == DirectTable(t)
    ensures r.1.pos == 0 && r.1.toklist == Bracketed(r.0, Words(cc, code))
    ensures NoMarkers(Words(cc, code)) ==> Strip(r.1.toklist) == Words(cc, code)
    ensures NoMarkers(Words(cc, code)) ==> PlaceholdersPlaced(r.0, r.1.toklist[1..|r.1.toklist| - 1])
  {
    var t1 := DirectTable(t);
    (t1, Cursor(Bracketed(t1, Words(cc, code)), 0))
  }
}

=== FILE: tokenparsers.dfy ===
/** The functional parsers over `tokenizer_d`'s pair list of tokens that
    carry their own binding powers: `pcp_rec_0_2` (test the threshold
    first, like the loop of `pcp_ir_0`) and `pcp_rec_0_3` (build the right
    operand first, like `pcp_rec_0_0`). Neither reads the global tables;
    the powers come from the tokens. After `extr_names` both give
    `pcp_ir_0`'s tree. */
module TokenParsers {
  import opened Wrappers
  import opened Tables
  import opened Trees
  import opened Tokenizers
  import opened Climbing
  import opened Recursive

  /** A token that may stand between two operands. */
  predicate RealTok(k: Token) {
    k.lp.Some? && k.rp.Some? && k.lp.value > 0 && k.rp.value >= 0
  }

  /** `OpSeq` for tokens: operator, operand, ..., operand, then a last token
      with a negative LBP. */
  predicate TokOpSeq(ts: seq<Token>) {
    && |ts| % 2 == 1
    && ts[|ts| - 1].lp.Some? && ts[|ts| - 1].lp.value < 0
    && forall i :: 0 <= i < |ts| - 1 && i % 2 == 0 ==> RealTok(ts[i])
  }

  /** The LBP of the last token of a token operator sequence. */
  function EndLp(ts: seq<Token>): int
    requires TokOpSeq(ts)
  {
    ts[|ts| - 1].lp.value
  }

  lemma TokOpSeqHead(ts: seq<Token>)
    requires TokOpSeq(ts)
    ensures ts[0].lp.Some?
    ensures |ts| >= 3 ==> RealTok(ts[0]) && TokOpSeq(ts[2..]) && EndLp(ts[2..]) == EndLp(ts)
    ensures |ts| == 1 ==> ts[0].lp.value < 0
  {
    if |ts| >= 3 {
      forall i | 0 <= i < |ts[2..]| - 1 && i % 2 == 0
        ensures RealTok(ts[2..][i])
      {
        assert ts[2..][i] == ts[i + 2];
      }
    }
  }

  /** `parse_expr(tol, sub, min_rbp)` of `pcp_rec_0_2`: stop when the first
      token does not bind above the threshold; otherwise parse the right
      operand with the token's RBP, join, and go on. */
  function TokExpr2(tol: PairList<Token>, sub: Tree<Token>, m: int): (r: (PairList<Token>, Tree<Token>))
    requires TokOpSeq(ToSeq(tol)) && EndLp(ToSeq(tol)) <= m
    decreases Len(tol)
    ensures Flat(sub) + ToSeq(tol) == Flat(r.1) + ToSeq(r.0)
    ensures Len(r.0) <= Len(tol) && TokOpSeq(ToSeq(r.0)) && EndLp(ToSeq(r.0)) == EndLp(ToSeq(tol))
    ensures First(r.0).lp.value <= m
  {
    TokOpSeqHead(ToSeq(tol));
    if m >= First(tol).lp.value then (tol, sub)
    else
      var inner := TokExpr2(RRest(tol), Atom(Second(tol)), First(tol).rp.value);
      NodeFlat(sub, ToSeq(tol), inner.1, ToSeq(inner.0));
      TokExpr2(inner.0, Node(First(tol), sub, inner.1), m)
  }

  /** `parse_expr(tol, sub, min_rbp)` of `pcp_rec_0_3`: build the right
      operand first, then stop or go on with the new node. */
  function TokExpr3(tol: PairList<Token>, sub: Tree<Token>, m: int): (r: (PairList<Token>, Tree<Token>))
    requires TokOpSeq(ToSeq(tol)) && EndLp(ToSeq(tol)) <= m < First(tol).lp.value
    decreases Len(tol), 1
    ensures Flat(sub) + ToSeq(tol) == Flat(r.1) + ToSeq(r.0)
    ensures Len(r.0) <= Len(tol) - 2 && TokOpSeq(ToSeq(r.0)) && EndLp(ToSeq(r.0)) == EndLp(ToSeq(tol))
    ensures First(r.0).lp.value <= m
  {
    TokOpSeqHead(ToSeq(tol));
    var inner := TokOperand3(tol);
    NodeFlat(sub, ToSeq(tol), inner.1, ToSeq(inner.0));
    if m >= First(inner.0).lp.value then (inner.0, Node(First(tol), sub, inner.1))
    else TokExpr3(inner.0, Node(First(tol), sub, inner.1), m)
  }

  /** The pair `(tom, suc)` of `pcp_rec_0_3`: the second token alone when
      the first token's RBP is at least the third token's LBP, otherwise
      the recursion from the third token with the first token's RBP. */
  function TokOperand3(tol: PairList<Token>): (r: (PairList<Token>, Tree<Token>))
    requires TokOpSeq(ToSeq(tol)) && Len(tol) >= 3 && RealTok(First(tol))
    decreases Len(tol), 0
    ensures [Second(tol)] + ToSeq(RRest(tol)) == Flat(r.1) + ToSeq(r.0)
    ensures Len(r.0) <= Len(tol) - 2 && TokOpSeq(ToSeq(r.0)) && EndLp(ToSeq(r.0)) == EndLp(ToSeq(tol))
    ensures First(r.0).lp.value <= First(tol).rp.value
  {
    TokOpSeqHead(ToSeq(tol));
    TokOpSeqHead(ToSeq(RRest(tol)));
    if First(tol).rp.value >= Third(tol).lp.value then (RRest(tol), Atom(Second(tol)))
    else TokExpr3(RRest(tol), Atom(Second(tol)), First(tol).rp.value)
  }

  /** `extr_names`: the tree of names under a tree of tokens. */
  function ExtrNames(tree: Tree<Token>): (r: Tree<string>)
    ensures Congruent(r, tree) && |Flat(r)| == |Flat(tree)|
    ensures forall i :: 0 <= i < |Flat(tree)| ==> Flat(r)[i] == Flat(tree)[i].nam
  {
    match tree
    case Atom(k) => Atom(k.nam)
    case Node(k, l, r) => Node(k.nam, ExtrNames(l), ExtrNames(r))
  }

  /** A token list `parse` accepts: a first token, an operand, then a token
      operator sequence whose last LBP is negative. */
  predicate TokWellFormed(ts: seq<Token>) {
    |ts| >= 3 && TokOpSeq(ts[2..])
  }

  /** `parse` of `pcp_rec_0_2`. */
  function TokParse2(tol: PairList<Token>): (tree: Tree<string>)
    requires TokWellFormed(ToSeq(tol))
    ensures Flat(tree) == Names(ToSeq(tol)[1..|ToSeq(tol)| - 1])
  {
    TokOpSeqHead(ToSeq(tol)[2..]);
    var r := TokExpr2(RRest(tol), Atom(Second(tol)), 0);
    ParsedAll(ToSeq(tol), r.1, ToSeq(r.0));
    ExtrNames(r.1)
  }

  /** `parse` of `pcp_rec_0_3`: the lone operand when the third token has
      a negative LBP. */
  function TokParse3(tol: PairList<Token>): (tree: Tree<string>)
    requires TokWellFormed(ToSeq(tol))
    ensures Flat(tree) == Names(ToSeq(tol)[1..|ToSeq(tol)| - 1])
  {
    TokOpSeqHead(ToSeq(tol)[2..]);
    if Third(tol).lp.value < 0 then
      ParsedAll(ToSeq(tol), Atom(Second(tol)), ToSeq(RRest(tol)));
      ExtrNames(Atom(Second(tol)))
    else
      var r := TokExpr3(RRest(tol), Atom(Second(tol)), 0);
      ParsedAll(ToSeq(tol), r.1, ToSeq(r.0));
      ExtrNames(r.1)
  }

  /** The names of a list of tokens. */
  function Names(ts: seq<Token>): (r: seq<string>)
    ensures |r| == |ts| && forall i :: 0 <= i < |ts| ==> r[i] == ts[i].nam
  {
    seq(|ts|, i requires 0 <= i < |ts| => ts[i].nam)
  }

  /** When the top-level call stops, only the last token is left, so the
      tree holds every token between the first and the last. */
  lemma ParsedAll(ts: seq<Token>, tree: Tree<Token>, rest: seq<Token>)
    requires TokWellFormed(ts)
    requires [ts[1]] + ts[2..] == Flat(tree) + rest
    requires TokOpSeq(rest) && rest[0].lp.value <= 0
    ensures Flat(ExtrNames(tree)) == Names(ts[1..|ts| - 1])
  {
    assert 0 < |rest| - 1 ==> RealTok(rest[0]);
    assert ts[1..] == [ts[1]] + ts[2..];
    assert Flat(tree) == ts[1..|ts| - 1];
  }

  /* ---------- agreement with the parsers over names ---------- */

  /** The table gives every name with an LBP an RBP as well, which
      `tokenizer_d` needs to attach both. */
  predicate Paired(t: Table) {
    forall x :: x in t.lbp ==> x in t.rbp
  }

  /** The tree of tokens `tokenizer_d` would give for a tree of names. */
  function TokTree(t: Table, tree: Tree<string>): (r: Tree<Token>)
    requires Paired(t)
    ensures ExtrNames(r) == tree
  {
    match tree
    case Atom(a) => Atom(ToToken(t, a))
    case Node(op, l, r) => Node(ToToken(t, op), TokTree(t, l), TokTree(t, r))
  }

  /** Attaching the powers turns an operator sequence into a token operator
      sequence that ends with LBP[`$END`]. */
  lemma TokensOfOpSeq(t: Table, s: seq<string>)
    requires Paired(t) && OpSeq(t, s)
    ensures TokOpSeq(ToTokens(t, s)) && EndLp(ToTokens(t, s)) == t.lbp[END]
  {
    var ts := ToTokens(t, s);
    forall i | 0 <= i < |ts| - 1 && i % 2 == 0
      ensures RealTok(ts[i])
    {
      ToTokensAt(t, s, i);
      assert RealOp(t, s[i]);
    }
    ToTokensAt(t, s, |s| - 1);
  }

  /** The first token of `tokenizer_d`'s list of an operator sequence
      carries the first operator's LBP. */
  lemma FirstTok(t: Table, s: seq<string>, tol: PairList<Token>)
    requires Paired(t) && OpSeq(t, s)
    requires ToSeq(tol) == ToTokens(t, s)
    ensures TokOpSeq(ToSeq(tol)) && EndLp(ToSeq(tol)) == t.lbp[END]
    ensures s[0] in t.lbp && First(tol) == ToToken(t, s[0]) && First(tol).lp == Some(t.lbp[s[0]])
  {
    TokensOfOpSeq(t, s);
    ToTokensAt(t, s, 0);
    assert 0 < |s| - 1 ==> RealOp(t, s[0]);
  }

  /** Reading the first three tokens of `tokenizer_d`'s list of an
      operator sequence that goes on past its first operator. */
  lemma TokStep(t: Table, s: seq<string>, tol: PairList<Token>)
    requires Paired(t) && OpSeq(t, s) && |s| >= 3
    requires ToSeq(tol) == ToTokens(t, s)
    ensures RealOp(t, s[0]) && OpSeq(t, s[2..])
    ensures First(tol) == ToToken(t, s[0]) && Second(tol) == ToToken(t, s[1])
    ensures Third(tol) == ToToken(t, s[2]) && ToSeq(RRest(tol)) == ToTokens(t, s[2..])
  {
    OpSeqTail(t, s);
    ToTokensTail(t, s);
    ToTokensAt(t, s, 0);
    ToTokensAt(t, s, 1);
    ToTokensAt(t, s, 2);
  }

  /** `pcp_rec_0_2`'s recursion is the loop of `pcp_ir_0`: on the tokens of
      an operator sequence it builds the tokens of `Climb`'s tree and leaves
      the tokens of `Climb`'s rest. */
  lemma {:induction false} TokExpr2IsClimb(t: Table, s: seq<string>, tol: PairList<Token>, sub: Tree<string>, m: int)
    requires Paired(t) && OpSeq(t, s) && t.lbp[END] <= m
    requires ToSeq(tol) == ToTokens(t, s)
    decreases |s|
    ensures TokOpSeq(ToSeq(tol)) && EndLp(ToSeq(tol)) <= m
    ensures TokExpr2(tol, TokTree(t, sub), m).1 == TokTree(t, Climb(t, s, sub, m).0)
    ensures ToSeq(TokExpr2(tol, TokTree(t, sub), m).0) == ToTokens(t, Climb(t, s, sub, m).1)
  {
    FirstTok(t, s, tol);
    if m < t.lbp[s[0]] {
      var rt, rest := ClimbStep(t, s, sub, m);
      TokStep(t, s, tol);
      TokExpr2IsClimb(t, s[2..], RRest(tol), Atom(s[1]), t.rbp[s[0]]);
      var inner := TokExpr2Step(tol, TokTree(t, sub), m);
      assert inner.1 == TokTree(t, rt);
      TokExpr2IsClimb(t, rest, inner.0, Node(s[0], sub, rt), m);
    }
  }

  /** One round of `pcp_rec_0_2`'s recursion: parse the right operand of
      the first token, then go on from the new node. */
  lemma TokExpr2Step(tol: PairList<Token>, sub: Tree<Token>, m: int) returns (inner: (PairList<Token>, Tree<Token>))
    requires TokOpSeq(ToSeq(tol)) && EndLp(ToSeq(tol)) <= m
    requires First(tol).lp.Some? && m < First(tol).lp.value
    ensures Len(tol) >= 3 && RealTok(First(tol))
    ensures TokOpSeq(ToSeq(RRest(tol))) && EndLp(ToSeq(RRest(tol))) == EndLp(ToSeq(tol))
    ensures inner == TokExpr2(RRest(tol), Atom(Second(tol)), First(tol).rp.value)
    ensures TokExpr2(tol, sub, m) == TokExpr2(inner.0, Node(First(tol), sub, inner.1), m)
  {
    TokOpSeqHead(ToSeq(tol));
    inner := TokExpr2(RRest(tol), Atom(Second(tol)), First(tol).rp.value);
  }

  /** `pcp_rec_0_3`'s recursion is `pcp_rec_0_0`'s over tokens. */
  lemma {:induction false} TokExpr3IsRecExpr(t: Table, s: seq<string>, tol: PairList<Token>, sub: Tree<string>, m: int)
    requires Paired(t) && OpSeq(t, s) && t.lbp[END] <= m < t.lbp[s[0]]
    requires ToSeq(tol) == ToTokens(t, s)
    decreases |s|, 1
    ensures TokOpSeq(ToSeq(tol)) && EndLp(ToSeq(tol)) <= m < First(tol).lp.value
    ensures TokExpr3(tol, TokTree(t, sub), m).1 == TokTree(t, RecExpr(t, s, sub, m).0)
    ensures ToSeq(TokExpr3(tol, TokTree(t, sub), m).0) == ToTokens(t, RecExpr(t, s, sub, m).1)
  {
    TokensOfOpSeq(t, s);
    OpSeqTail(t, s);
    TokStep(t, s, tol);
    TokOperand3IsRecOperand(t, s, tol);
    var (rt, rest) := RecOperand(t, s);
    var inner := TokOperand3(tol);
    FirstTok(t, rest, inner.0);
    assert Node(First(tol), TokTree(t, sub), inner.1) == TokTree(t, Node(s[0], sub, rt));
    if m < t.lbp[rest[0]] {
      TokExpr3IsRecExpr(t, rest, inner.0, Node(s[0], sub, rt), m);
    }
  }

  lemma {:induction false} TokOperand3IsRecOperand(t: Table, s: seq<string>, tol: PairList<Token>)
    requires Paired(t) && OpSeq(t, s) && |s| >= 3
    requires ToSeq(tol) == ToTokens(t, s)
    decreases |s|, 0
    ensures TokOpSeq(ToSeq(tol)) && Len(tol) >= 3 && RealTok(First(tol))
    ensures TokOperand3(tol).1 == TokTree(t, RecOperand(t, s).0)
    ensures ToSeq(TokOperand3(tol).0) == ToTokens(t, RecOperand(t, s).1)
  {
    TokensOfOpSeq(t, s);
    TokStep(t, s, tol);
    if t.rbp[s[0]] < t.lbp[s[2]] {
      TokExpr3IsRecExpr(t, s[2..], RRest(tol), Atom(s[1]), t.rbp[s[0]]);
    }
  }

  /** On `tokenizer_d`'s list for a well-formed token list, `pcp_rec_0_2`
      and `pcp_rec_0_3` give the tree `pcp_ir_0` gives. */
  lemma TokParsesAreParse(t: Table, toks: seq<string>, tol: PairList<Token>)
    requires Paired(t) && WellFormed(t, toks)
    requires ToSeq(tol) == ToTokens(t, toks)
    ensures TokWellFormed(ToSeq(tol))
    ensures TokParse2(tol) == Parse(t, toks)
    ensures TokParse3(tol) == Parse(t, toks)
  {
    ToTokensTail(t, toks);
    TokensOfOpSeq(t, toks[2..]);
    assert ToSeq(RRest(tol)) == ToTokens(t, toks[2..]);
    ToTokensAt(t, toks, 1);
    ToTokensAt(t, toks, 2);
    TokExpr2IsClimb(t, toks[2..], RRest(tol), Atom(toks[1]), 0);
    assert ParseExpr(t, toks, 0) == Climb(t, toks[2..], Atom(toks[1]), 0);
    OpSeqHead(t, toks[2..]);
    if t.lbp[toks[2]] >= 0 {
      assert toks[2..][0] == toks[2];
      TokExpr3IsRecExpr(t, toks[2..], RRest(tol), Atom(toks[1]), 0);
    }
    RecParseIsParse(t, toks);
  }

  /** The whole `pcp_rec_0_2` and `pcp_rec_0_3` pipelines: with a paired
      table whose `tokenizer_e` list is well formed, both give `pcp_ir_0`'s
      tree on the same code. */
  lemma TokPipelinesAreParse(t: Table, cc: CharClasses, code: string)
    requires Paired(t) && WellFormed(t, TokE(t, cc, code))
    ensures TokWellFormed(ToSeq(TokenizerD(t, cc, code)))
    ensures TokParse2(TokenizerD(t, cc, code)) == Parse(t, TokE(t, cc, code))
    ensures TokParse3(TokenizerD(t, cc, code)) == Parse(t, TokE(t, cc, code))
  {
    TokParsesAreParse(t, TokE(t, cc, code), TokenizerD(t, cc, code));
  }
}

=== FILE: trees.dfy ===
/** Parse trees. The Python code uses nested lists: an atom is a string, a
    node is `[op, left, right]` (or `[op, child]` for the parsers that do
    not insert placeholder operands). */
module Trees {
  import opened Wrappers
  import opened Tables

  /** A binary parse tree; the element type is `string` for most parsers and
      `Token` for the functional parsers that carry binding powers. */
  datatype Tree<T> = Atom(val: T) | Node(op: T, left: Tree<T>, right: Tree<T>)

  /** In-order list of the tokens of a tree: the expression it parses. */
  function Flat<T>(tree: Tree<T>): (s: seq<T>)
    ensures |s| % 2 == 1
  {
    match tree
    case Atom(a) => [a]
    case Node(op, l, r) => Flat(l) + [op] + Flat(r)
  }

  /** Two trees have the same shape: both operands, or both nodes whose
      children have the same shape pairwise. */
  predicate Congruent<A, B>(a: Tree<A>, b: Tree<B>) {
    match a
    case Atom(_) => b.Atom?
    case Node(_, al, ar) => b.Node? && Congruent(al, b.left) && Congruent(ar, b.right)
  }

  /** Trees of the same shape have token lists of the same length. */
  lemma {:induction false} CongruentLength<A, B>(a: Tree<A>, b: Tree<B>)
    requires Congruent(a, b)
    decreases a
    ensures |Flat(a)| == |Flat(b)|
  {
    if a.Node? {
      CongruentLength(a.left, b.left);
      CongruentLength(a.right, b.right);
    }
  }

  /** A shape and a token list determine the tree: two trees of the shape
      of c with the same tokens are equal. */
  lemma {:induction false} CongruentFlatUnique<T, B>(a: Tree<T>, b: Tree<T>, c: Tree<B>)
    requires Congruent(a, c) && Congruent(b, c) && Flat(a) == Flat(b)
    decreases a
    ensures a == b
  {
    if a.Node? {
      CongruentLength(a.left, c.left);
      CongruentLength(b.left, c.left);
      var n := |Flat(a.left)|;
      assert Flat(a) == Flat(a.left) + [a.op] + Flat(a.right);
      assert Flat(b) == Flat(b.left) + [b.op] + Flat(b.right);
      assert Flat(a.left) == Flat(a)[..n] == Flat(b)[..n] == Flat(b.left);
      assert a.op == Flat(a)[n] == Flat(b)[n] == b.op;
      assert Flat(a.right) == Flat(a)[n + 1..] == Flat(b)[n + 1..] == Flat(b.right);
      CongruentFlatUnique(a.left, b.left, c.left);
      CongruentFlatUnique(a.right, b.right, c.right);
    }
  }

  /** `_num_toks_in_tree`: an expression always has an odd number of
      tokens. */
  function NumToks<T>(tree: Tree<T>): (n: nat)
    ensures n % 2 == 1
  {
    match tree
    case Atom(_) => 1
    case Node(_, l, r) => 1 + NumToks(l) + NumToks(r)
  }

  /** The count is the length of the token list. */
  lemma {:induction false} NumToksIsLength<T>(tree: Tree<T>)
    ensures NumToks(tree) == |Flat(tree)|
  {
    if tree.Node? {
      NumToksIsLength(tree.left);
      NumToksIsLength(tree.right);
    }
  }

  /** `_root_pos`: zero-based position of the root operator in the expression,
      None for an atom. */
  function RootPos<T>(tree: Tree<T>): (p: Option<nat>)
    ensures p.None? <==> tree.Atom?
    ensures p.Some? ==> p.value < |Flat(tree)| && Flat(tree)[p.value] == tree.op
    ensures p.Some? ==> p.value % 2 == 1
  {
    if tree.Atom? then None
    else
      NumToksIsLength(tree.left);
      Some(NumToks(tree.left))
  }

  /** Two trees with the same root position and the same token list have
      the same token lists below the root. */
  lemma FlatSplit<T>(a: Tree<T>, b: Tree<T>)
    requires a.Node? && b.Node?
    requires Flat(a) == Flat(b)
    requires |Flat(a.left)| == |Flat(b.left)|
    ensures a.op == b.op
    ensures Flat(a.left) == Flat(b.left)
    ensures Flat(a.right) == Flat(b.right)
  {
    var k := |Flat(a.left)|;
    assert Flat(a)[k] == a.op;
    assert Flat(b)[k] == b.op;
    assert Flat(a.left) == Flat(a)[..k];
    assert Flat(b.left) == Flat(b)[..k];
    assert Flat(a.right) == Flat(a)[k + 1..];
    assert Flat(b.right) == Flat(b)[k + 1..];
  }

  /** Every name in operator position of the tree satisfies `p`. */
  predicate AllOps<T>(tree: Tree<T>, p: T -> bool) {
    match tree
    case Atom(_) => true
    case Node(op, l, r) => p(op) && AllOps(l, p) && AllOps(r, p)
  }

  /** Odd positions of the token list hold exactly the operators. */
  predicate OddPositions<T>(s: seq<T>, p: T -> bool) {
    forall i :: 0 <= i < |s| && i % 2 == 1 ==> p(s[i])
  }

  lemma OddPositionsSplit<T>(a: seq<T>, x: T, b: seq<T>, p: T -> bool)
    requires |a| % 2 == 1
    ensures OddPositions(a + [x] + b, p) <==> OddPositions(a, p) && p(x) && OddPositions(b, p)
  {
    var s := a + [x] + b;
    if OddPositions(s, p) {
      forall i | 0 <= i < |a| && i % 2 == 1 ensures p(a[i]) {
        assert s[i] == a[i];
      }
      forall i | 0 <= i < |b| && i % 2 == 1 ensures p(b[i]) {
        assert s[i + |a| + 1] == b[i];
      }
      assert s[|a|] == x;
    }
    if OddPositions(a, p) && p(x) && OddPositions(b, p) {
      forall i | 0 <= i < |s| && i % 2 == 1 ensures p(s[i]) {
        if i < |a| {
          assert s[i] == a[i];
        } else if i > |a| {
          assert s[i] == b[i - |a| - 1];
        }
      }
    }
  }

  /** The operators of a tree sit exactly at the odd positions of its
      token list. */
  lemma {:induction false} OpsAtOddPositions<T>(tree: Tree<T>, p: T -> bool)
    ensures AllOps(tree, p) <==> OddPositions(Flat(tree), p)
  {
    match tree
    case Atom(_) =>
    case Node(op, l, r) =>
      OpsAtOddPositions(l, p);
      OpsAtOddPositions(r, p);
      OddPositionsSplit(Flat(l), op, Flat(r), p);
  }

  /** `s_expr`: the Lisp-like rendering that the drivers print. */
  function SExpr(tree: Tree<string>): (s: string)
    ensures tree.Atom? ==> s == tree.val
    ensures tree.Node? ==> |s| >= 2 && s[0] == '(' && s[|s| - 1] == ')'
  {
    match tree
    case Atom(a) => a
    case Node(op, l, r) => "(" + op + " " + SExpr(l) + " " + SExpr(r) + ")"
  }

  /** Number of occurrences of `c` in `s`. */
  function Count(s: string, c: char): nat {
    multiset(s)[c]
  }

  function NumNodes<T>(tree: Tree<T>): nat {
    match tree
    case Atom(_) => 0
    case Node(_, l, r) => 1 + NumNodes(l) + NumNodes(r)
  }

  predicate NoParens(s: string) {
    forall i :: 0 <= i < |s| ==> s[i] != '(' && s[i] != ')'
  }

  /** When no token contains a parenthesis, the rendering is balanced: one
      pair of parentheses per operator node. */
  lemma {:induction false} SExprBalanced(tree: Tree<string>)
    requires forall i :: 0 <= i < |Flat(tree)| ==> NoParens(Flat(tree)[i])
    ensures Count(SExpr(tree), '(') == NumNodes(tree)
    ensures Count(SExpr(tree), ')') == NumNodes(tree)
  {
    match tree
    case Atom(a) =>
      assert Flat(tree)[0] == a;
      NoParensCount(a);
    case Node(op, l, r) =>
      var fl := Flat(l);
      assert Flat(tree) == fl + [op] + Flat(r);
      forall i | 0 <= i < |fl| ensures NoParens(fl[i]) {
        assert Flat(tree)[i] == fl[i];
      }
      forall i | 0 <= i < |Flat(r)| ensures NoParens(Flat(r)[i]) {
        assert Flat(tree)[i + |fl| + 1] == Flat(r)[i];
      }
      assert Flat(tree)[|fl|] == op;
      SExprBalanced(l);
      SExprBalanced(r);
      NoParensCount(op);
      var m := multiset(SExpr(tree));
      assert m == multiset("(") + multiset(op) + multiset(" ") + multiset(SExpr(l))
        + multiset(" ") + multiset(SExpr(r)) + multiset(")");
  }

  lemma NoParensCount(s: string)
    requires NoParens(s)
    ensures Count(s, '(') == 0 && Count(s, ')') == 0
  {
    assert '(' !in multiset(s);
    assert ')' !in multiset(s);
  }

  /** Trees of the parser that inserts no placeholder operands: a prefix or
      postfix operator node has one child. */
  datatype UTree =
    | UAtom(name: string)
    | Unary(op: string, child: UTree)
    | Binary(op: string, left: UTree, right: UTree)

  /** `c_sex` without its tracing side effect: a node with one or two operands. */
  function CSex(op: string, a: UTree, b: Option<UTree>): (r: UTree)
    ensures b.Some? <==> r.Binary?
    ensures !r.UAtom? && r.op == op
    ensures r.Binary? ==> r.left == a && r.right == b.value
    ensures r.Unary? ==> r.child == a
  {
    if b.Some? then Binary(op, a, b.value) else Unary(op, a)
  }

  /** Every unary node has a prefix or a postfix operator. */
  predicate UnaryTagged(u: UTree, pre: set<string>, post: set<string>) {
    match u
    case UAtom(_) => true
    case Unary(op, c) => (op in pre || op in post) && UnaryTagged(c, pre, post)
    case Binary(_, l, r) => UnaryTagged(l, pre, post) && UnaryTagged(r, pre, post)
  }

  /** `_fakes_to_tree`: put `$PRE`/`$POST` back into a tree built without
      placeholders. `pre` and `post` are the operators that were given only a
      right, respectively only a left, binding power. */
  function FakesToTree(u: UTree, pre: set<string>, post: set<string>): (r: Result<Tree<string>>)
    ensures r.Ok? <==> UnaryTagged(u, pre, post)
    ensures r.Err? ==> r.error == InvalidTreeShape
  {
    match u
    case UAtom(a) => Ok(Atom(a))
    case Binary(op, l, rt) =>
      (match FakesToTree(l, pre, post)
       case Err(e) => Err(e)
       case Ok(l1) =>
         (match FakesToTree(rt, pre, post)
          case Err(e) => Err(e)
          case Ok(r1) => Ok(Node(op, l1, r1))))
    case Unary(op, c) =>
      if op in pre then
        (match FakesToTree(c, pre, post)
         case Err(e) => Err(e)
         case Ok(c1) => Ok(Node(op, Atom(PRE), c1)))
      else if op in post then
        (match FakesToTree(c, pre, post)
         case Err(e) => Err(e)
         case Ok(c1) => Ok(Node(op, c1, Atom(POST))))
      else Err(InvalidTreeShape)
  }

  /** Inverse of `FakesToTree`: drop the placeholder operands again. */
  function DropFakes(t: Tree<string>, pre: set<string>, post: set<string>): UTree {
    match t
    case Atom(a) => UAtom(a)
    case Node(op, l, r) =>
      if op in pre && l == Atom(PRE) then Unary(op, DropFakes(r, pre, post))
      else if op !in pre && op in post && r == Atom(POST) then Unary(op, DropFakes(l, pre, post))
      else Binary(op, DropFakes(l, pre, post), DropFakes(r, pre, post))
  }

  predicate NoPlaceholders(u: UTree) {
    match u
    case UAtom(a) => a != PRE && a != POST
    case Unary(_, c) => NoPlaceholders(c)
    case Binary(_, l, r) => NoPlaceholders(l) && NoPlaceholders(r)
  }

  /** When `_fakes_to_tree` succeeds on a tree without placeholder atoms,
      dropping the placeholders gives the tree back. */
  lemma {:induction false} FakesToTreeRoundTrip(u: UTree, pre: set<string>, post: set<string>)
    requires NoPlaceholders(u)
    ensures FakesToTree(u, pre, post).Ok? ==> DropFakes(FakesToTree(u, pre, post).value, pre, post) == u
  {
    match u
    case UAtom(_) =>
    case Unary(op, c) => FakesToTreeRoundTrip(c, pre, post);
    case Binary(op, l, r) =>
      FakesToTreeRoundTrip(l, pre, post);
      FakesToTreeRoundTrip(r, pre, post);
      if FakesToTree(u, pre, post).Ok? {
        var l1 := FakesToTree(l, pre, post).value;
        assert l1 != Atom(PRE);
        if op !in pre && op in post {
          assert FakesToTree(r, pre, post).value != Atom(POST);
        }
      }
  }

  /* ---------- reading a rendering back ---------- */

  /** A character that can occur in a token: the tokenizers split on
      white space, and `s_expr` uses the parentheses. */
  predicate NameChar(c: char) {
    c != ' ' && c != '(' && c != ')'
  }

  /** Every character of `a` can occur in a token. */
  predicate NameChars(a: string) {
    |a| == 0 || (NameChar(a[0]) && NameChars(a[1..]))
  }

  predicate GoodName(a: string) {
    |a| > 0 && NameChars(a)
  }

  /** Every name in a tree, operator or atom, is a good name. */
  predicate GoodNames(u: UTree) {
    match u
    case UAtom(a) => GoodName(a)
    case Unary(op, c) => GoodName(op) && GoodNames(c)
    case Binary(op, l, r) => GoodName(op) && GoodNames(l) && GoodNames(r)
  }

  /** `s_expr` on a tree of the parser without placeholders: a unary node
      is the list `[op, child]` and prints as `(op child)`. */
  function USExpr(u: UTree): (s: string)
    ensures u.UAtom? ==> s == u.name
    ensures !u.UAtom? ==> |s| >= 2 && s[0] == '(' && s[|s| - 1] == ')'
  {
    match u
    case UAtom(a) => a
    case Unary(op, c) => "(" + op + " " + USExpr(c) + ")"
    case Binary(op, l, r) => "(" + op + " " + USExpr(l) + " " + USExpr(r) + ")"
  }

  /** A tree with placeholders read as one without: every node is binary. */
  function AsUTree(tree: Tree<string>): (u: UTree)
    ensures tree.Atom? <==> u.UAtom?
    ensures tree.Node? ==> u.Binary? && u.op == tree.op
  {
    match tree
    case Atom(a) => UAtom(a)
    case Node(op, l, r) => Binary(op, AsUTree(l), AsUTree(r))
  }

  /** Both renderings print a binary node the same way. */
  lemma {:induction false} SExprIsUSExpr(tree: Tree<string>)
    ensures SExpr(tree) == USExpr(AsUTree(tree))
  {
    match tree
    case Atom(_) =>
    case Node(op, l, r) =>
      SExprIsUSExpr(l);
      SExprIsUSExpr(r);
  }

  /** The end of the run of name characters that starts at `i`. */
  function NameEnd(s: string, i: nat): (k: nat)
    requires i <= |s|
    decreases |s| - i
    ensures i <= k <= |s|
  {
    if i == |s| || !NameChar(s[i]) then i else NameEnd(s, i + 1)
  }

  /** A reader for the rendering: the tree that starts at position `i` of
      `s` and the position just after it, or `None` when no rendering
      starts there. */
  function ReadAt(s: string, i: nat): (r: Option<(UTree, nat)>)
    requires i <= |s|
    decreases |s| - i, 1
    ensures r.Some? ==> i < r.value.1 <= |s|
  {
    if i == |s| then None
    else if s[i] == '(' then ReadNodeAt(s, i)
    else ReadAtomAt(s, i)
  }

  /** An atom: a run of name characters. */
  function ReadAtomAt(s: string, i: nat): (r: Option<(UTree, nat)>)
    requires i < |s|
    ensures r.Some? ==> i < r.value.1 <= |s|
  {
    var k := NameEnd(s, i);
    if k == i then None else Some((UAtom(s[i..k]), k))
  }

  /** A node: an opening parenthesis, the operator and a space, then the
      operands. */
  function ReadNodeAt(s: string, i: nat): (r: Option<(UTree, nat)>)
    requires i < |s|
    decreases |s| - i, 0
    ensures r.Some? ==> i < r.value.1 <= |s|
  {
    var k := NameEnd(s, i + 1);
    if k == i + 1 || k == |s| || s[k] != ' ' then None
    else ReadOperands(s, s[i + 1..k], k + 1)
  }

  /** The operands of a node with operator `op` from position `j`: one
      operand and `)`, or two operands separated by a space and `)`. */
  function ReadOperands(s: string, op: string, j: nat): (r: Option<(UTree, nat)>)
    requires j <= |s|
    decreases |s| - j + 1, 2
    ensures r.Some? ==> j < r.value.1 <= |s|
  {
    match ReadAt(s, j)
    case None => None
    case Some((c, j1)) =>
      if j1 < |s| && s[j1] == ')' then Some((Unary(op, c), j1 + 1))
      else if j1 < |s| && s[j1] == ' ' then
        match ReadAt(s, j1 + 1)
        case None => None
        case Some((d, j2)) =>
          if j2 < |s| && s[j2] == ')' then Some((Binary(op, c, d), j2 + 1))
          else None
      else None
  }

  /** The tree a whole string renders, if any. */
  function ReadU(s: string): (r: Option<UTree>)
    ensures r.Some? ==> ReadAt(s, 0) == Some((r.value, |s|))
  {
    match ReadAt(s, 0)
    case Some((u, j)) => if j == |s| then Some(u) else None
    case None => None
  }

  /** A rendering may end at position `j`: the string ends there, or the
      rendering is followed by a separator or a closing parenthesis. */
  predicate EndsAt(s: string, j: nat) {
    j == |s| || (j < |s| && (s[j] == ' ' || s[j] == ')'))
  }

  /** The text `x` stands at position `i` of `s`. */
  predicate At(s: string, i: nat, x: string) {
    i + |x| <= |s| && forall k :: 0 <= k < |x| ==> s[i + k] == x[k]
  }

  lemma AtIsSlice(s: string, i: nat, x: string)
    ensures At(s, i, x) <==> i + |x| <= |s| && s[i..i + |x|] == x
  {
    if i + |x| <= |s| && s[i..i + |x|] == x {
      forall k | 0 <= k < |x| ensures s[i + k] == x[k] {
        assert s[i..i + |x|][k] == x[k];
      }
    }
  }

  lemma AtAppend(s: string, i: nat, x: string, y: string)
    ensures At(s, i, x + y) <==> At(s, i, x) && At(s, i + |x|, y)
  {
    if At(s, i, x + y) {
      forall k | 0 <= k < |x| ensures s[i + k] == x[k] {
        assert (x + y)[k] == x[k];
      }
      forall k | 0 <= k < |y| ensures s[i + |x| + k] == y[k] {
        assert (x + y)[|x| + k] == y[k];
      }
    }
    if At(s, i, x) && At(s, i + |x|, y) {
      forall k | 0 <= k < |x + y| ensures s[i + k] == (x + y)[k] {
        if k >= |x| {
          assert s[i + |x| + (k - |x|)] == y[k - |x|];
        }
      }
    }
  }

  lemma AtChar(s: string, i: nat, c: char)
    ensures At(s, i, [c]) <==> i < |s| && s[i] == c
  {
    if At(s, i, [c]) {
      assert s[i + 0] == [c][0];
    }
    if i < |s| && s[i] == c {
      forall k | 0 <= k < 1 ensures s[i + k] == [c][k] {
      }
    }
  }

  /** A good name at position `i` ends where the name ends. */
  lemma {:induction false} NameEndOf(s: string, i: nat, a: string)
    requires GoodName(a) && At(s, i, a) && EndsAt(s, i + |a|)
    decreases |a|
    ensures NameEnd(s, i) == i + |a|
  {
    assert s[i + 0] == a[0];
    if |a| > 1 {
      AtAppend(s, i, a[..1], a[1..]);
      assert a[..1] + a[1..] == a;
      NameEndOf(s, i + 1, a[1..]);
    }
  }

  /** Reading an atom whose name stands at `i`. */
  lemma ReadAtomStep(s: string, i: nat, a: string)
    requires GoodName(a) && At(s, i, a) && EndsAt(s, i + |a|)
    ensures ReadAt(s, i) == Some((UAtom(a), i + |a|))
  {
    NameEndOf(s, i, a);
    AtIsSlice(s, i, a);
    assert ReadAtomAt(s, i) == Some((UAtom(a), i + |a|));
  }

  /** Reading a node with one operand, from the positions of its parts. */
  lemma ReadUnaryStep(s: string, i: nat, op: string, c: UTree, j: nat)
    requires i + 1 + |op| < |s| && |op| > 0
    requires s[i] == '(' && NameEnd(s, i + 1) == i + 1 + |op| && s[i + 1 + |op|] == ' '
    requires At(s, i + 1, op)
    requires ReadAt(s, i + 2 + |op|) == Some((c, j)) && j < |s| && s[j] == ')'
    ensures ReadAt(s, i) == Some((Unary(op, c), j + 1))
  {
    AtIsSlice(s, i + 1, op);
    assert ReadOperands(s, op, i + 2 + |op|) == Some((Unary(op, c), j + 1));
    assert ReadNodeAt(s, i) == ReadOperands(s, op, i + 2 + |op|);
  }

  /** Reading a node with two operands, from the positions of its parts. */
  lemma ReadBinaryStep(s: string, i: nat, op: string, l: UTree, p: nat, r: UTree, j: nat)
    requires i + 1 + |op| < |s| && |op| > 0
    requires s[i] == '(' && NameEnd(s, i + 1) == i + 1 + |op| && s[i + 1 + |op|] == ' '
    requires At(s, i + 1, op)
    requires ReadAt(s, i + 2 + |op|) == Some((l, p)) && p < |s| && s[p] == ' '
    requires ReadAt(s, p + 1) == Some((r, j)) && j < |s| && s[j] == ')'
    ensures ReadAt(s, i) == Some((Binary(op, l, r), j + 1))
  {
    AtIsSlice(s, i + 1, op);
    assert ReadOperands(s, op, i + 2 + |op|) == Some((Binary(op, l, r), j + 1));
    assert ReadNodeAt(s, i) == ReadOperands(s, op, i + 2 + |op|);
  }

  /** The opening parenthesis, the operator and the space of a node
      rendering standing at `i`, and the rest after them. */
  lemma NodeHead(s: string, i: nat, op: string, body: string)
    requires GoodName(op) && At(s, i, "(" + (op + (" " + body)))
    ensures s[i] == '(' && At(s, i + 1, op) && s[i + 1 + |op|] == ' '
    ensures NameEnd(s, i + 1) == i + 1 + |op|
    ensures At(s, i + 2 + |op|, body)
  {
    AtAppend(s, i, "(", op + (" " + body));
    AtAppend(s, i + 1, op, " " + body);
    AtAppend(s, i + 1 + |op|, " ", body);
    AtChar(s, i, '(');
    AtChar(s, i + 1 + |op|, ' ');
    NameEndOf(s, i + 1, op);
  }

  /** Where the parts of a unary node rendering standing at `i` are. */
  lemma UnaryLayout(s: string, i: nat, op: string, c: UTree)
    requires GoodName(op) && At(s, i, USExpr(Unary(op, c)))
    ensures |USExpr(Unary(op, c))| == 3 + |op| + |USExpr(c)|
    ensures s[i] == '(' && At(s, i + 1, op) && s[i + 1 + |op|] == ' '
    ensures NameEnd(s, i + 1) == i + 1 + |op|
    ensures At(s, i + 2 + |op|, USExpr(c)) && s[i + 2 + |op| + |USExpr(c)|] == ')'
  {
    var ce := USExpr(c);
    var k := i + 2 + |op|;
    assert USExpr(Unary(op, c)) == "(" + (op + (" " + (ce + ")")));
    NodeHead(s, i, op, ce + ")");
    AtAppend(s, k, ce, ")");
    AtChar(s, k + |ce|, ')');
  }

  /** Where the parts of a binary node rendering standing at `i` are. */
  lemma BinaryLayout(s: string, i: nat, op: string, l: UTree, r: UTree)
    requires GoodName(op) && At(s, i, USExpr(Binary(op, l, r)))
    ensures |USExpr(Binary(op, l, r))| == 4 + |op| + |USExpr(l)| + |USExpr(r)|
    ensures s[i] == '(' && At(s, i + 1, op) && s[i + 1 + |op|] == ' '
    ensures NameEnd(s, i + 1) == i + 1 + |op|
    ensures At(s, i + 2 + |op|, USExpr(l)) && s[i + 2 + |op| + |USExpr(l)|] == ' '
    ensures At(s, i + 3 + |op| + |USExpr(l)|, USExpr(r))
    ensures s[i + 3 + |op| + |USExpr(l)| + |USExpr(r)|] == ')'
  {
    var le := USExpr(l);
    var re := USExpr(r);
    assert USExpr(Binary(op, l, r)) == "(" + (op + (" " + (le + (" " + (re + ")")))));
    BinaryText(s, i, op, le, re);
  }

  /** The same, for the operand texts `le` and `re`. */
  lemma BinaryText(s: string, i: nat, op: string, le: string, re: string)
    requires GoodName(op) && At(s, i, "(" + (op + (" " + (le + (" " + (re + ")"))))))
    ensures s[i] == '(' && At(s, i + 1, op) && s[i + 1 + |op|] == ' '
    ensures NameEnd(s, i + 1) == i + 1 + |op|
    ensures At(s, i + 2 + |op|, le) && s[i + 2 + |op| + |le|] == ' '
    ensures At(s, i + 3 + |op| + |le|, re) && s[i + 3 + |op| + |le| + |re|] == ')'
  {
    NodeHead(s, i, op, le + (" " + (re + ")")));
    OperandPair(s, i + 2 + |op|, le, re);
  }

  /** Two operand texts `le` and `re`, a space between them and `)` after
      them, standing at `k`. */
  lemma OperandPair(s: string, k: nat, le: string, re: string)
    requires At(s, k, le + (" " + (re + ")")))
    ensures At(s, k, le) && s[k + |le|] == ' '
    ensures At(s, k + |le| + 1, re) && s[k + |le| + 1 + |re|] == ')'
  {
    var p := k + |le|;
    AtAppend(s, k, le, " " + (re + ")"));
    AtAppend(s, p, " ", re + ")");
    AtAppend(s, p + 1, re, ")");
    AtChar(s, p, ' ');
    AtChar(s, p + 1 + |re|, ')');
  }

  /** Reading a rendering back, wherever it stands, gives the tree and the
      position after it. */
  lemma {:induction false} ReadAtUSExpr(u: UTree, s: string, i: nat)
    requires GoodNames(u) && At(s, i, USExpr(u)) && EndsAt(s, i + |USExpr(u)|)
    decreases u, 1
    ensures ReadAt(s, i) == Some((u, i + |USExpr(u)|))
  {
    if u.UAtom? {
      ReadAtomStep(s, i, u.name);
    } else if u.Unary? {
      ReadUnaryNode(s, i, u);
    } else {
      ReadBinaryNode(s, i, u);
    }
  }

  /** A unary node rendering reads back: its operand does. */
  lemma {:induction false} ReadUnaryNode(s: string, i: nat, u: UTree)
    requires u.Unary? && GoodNames(u) && At(s, i, USExpr(u))
    decreases u, 0
    ensures ReadAt(s, i) == Some((u, i + |USExpr(u)|))
  {
    var op, c := u.op, u.child;
    UnaryLayout(s, i, op, c);
    ReadAtUSExpr(c, s, i + 2 + |op|);
    ReadUnaryStep(s, i, op, c, i + 2 + |op| + |USExpr(c)|);
  }

  /** A binary node rendering reads back: its operands do. */
  lemma {:induction false} ReadBinaryNode(s: string, i: nat, u: UTree)
    requires u.Binary? && GoodNames(u) && At(s, i, USExpr(u))
    decreases u, 0
    ensures ReadAt(s, i) == Some((u, i + |USExpr(u)|))
  {
    var op, l, r := u.op, u.left, u.right;
    var p := i + 2 + |op| + |USExpr(l)|;
    BinaryLayout(s, i, op, l, r);
    ReadAtUSExpr(l, s, i + 2 + |op|);
    ReadAtUSExpr(r, s, p + 1);
    ReadBinaryStep(s, i, op, l, p, r, p + 1 + |USExpr(r)|);
  }

  /** Reading a whole rendering back gives the tree. */
  lemma ReadUSExpr(u: UTree)
    requires GoodNames(u)
    ensures ReadU(USExpr(u)) == Some(u)
  {
    var e := USExpr(u);
    AtIsSlice(e, 0, e);
    assert e[0..|e|] == e;
    ReadAtUSExpr(u, e, 0);
  }

  /** Different trees with good names print differently. */
  lemma USExprInjective(a: UTree, b: UTree)
    requires GoodNames(a) && GoodNames(b)
    ensures USExpr(a) == USExpr(b) ==> a == b
  {
    ReadUSExpr(a);
    ReadUSExpr(b);
  }

  /** The same for trees with placeholders, whose nodes are all binary. */
  lemma SExprInjective(x: Tree<string>, y: Tree<string>)
    requires GoodNames(AsUTree(x)) && GoodNames(AsUTree(y))
    ensures SExpr(x) == SExpr(y) ==> x == y
  {
    SExprIsUSExpr(x);
    SExprIsUSExpr(y);
    USExprInjective(AsUTree(x), AsUTree(y));
    AsUTreeInjective(x, y);
  }

  lemma {:induction false} AsUTreeInjective(x: Tree<string>, y: Tree<string>)
    ensures AsUTree(x) == AsUTree(y) ==> x == y
  {
    match x
    case Atom(_) =>
    case Node(_, l, r) =>
      if y.Node? {
        AsUTreeInjective(l, y.left);
        AsUTreeInjective(r, y.right);
      }
  }
}

=== FILE: weights.dfy ===
/** Tree weights and weight correctness (`_left_weight`, `_right_weight`,
    `_is_weight_correct`). */
module Weights {
  import opened Tables
  import opened Trees

  predicate IsKnown(t: Table, x: string) {
    Known(t, x)
  }

  /** Every operator of the tree has both binding powers (no KeyError). */
  predicate OpsKnown(t: Table, tree: Tree<string>) {
    match tree
    case Atom(_) => true
    case Node(op, l, r) => Known(t, op) && OpsKnown(t, l) && OpsKnown(t, r)
  }

  /** Operators of a tree known <==> its odd positions are known. */
  lemma {:induction false} OpsKnownFlat(t: Table, tree: Tree<string>)
    ensures OpsKnown(t, tree) <==> OddPositions(Flat(tree), x => IsKnown(t, x))
  {
    match tree
    case Atom(_) =>
    case Node(op, l, r) =>
      OpsKnownFlat(t, l);
      OpsKnownFlat(t, r);
      OddPositionsSplit(Flat(l), op, Flat(r), x => IsKnown(t, x));
  }

  /** The operators along the left edge of a tree, root first. */
  function LeftSpine(tree: Tree<string>): seq<string> {
    match tree
    case Atom(_) => []
    case Node(op, l, _) => [op] + LeftSpine(l)
  }

  function RightSpine(tree: Tree<string>): seq<string> {
    match tree
    case Atom(_) => []
    case Node(op, _, r) => [op] + RightSpine(r)
  }

  /** `_left_weight`: infinite at an atom, otherwise the smaller of the
      root's LBP and the left weight of the left child. */
  function LeftWeight(t: Table, tree: Tree<string>): (w: W)
    requires OpsKnown(t, tree)
    ensures w.Inf? <==> tree.Atom?
    ensures tree.Node? ==> AtMost(w, Fin(t.lbp[tree.op]))
  {
    match tree
    case Atom(_) => Inf
    case Node(op, l, _) => Min(Fin(t.lbp[op]), LeftWeight(t, l))
  }

  /** `_right_weight`: the mirror image, with RBP and the right child. */
  function RightWeight(t: Table, tree: Tree<string>): (w: W)
    requires OpsKnown(t, tree)
    ensures w.Inf? <==> tree.Atom?
    ensures tree.Node? ==> AtMost(w, Fin(t.rbp[tree.op]))
  {
    match tree
    case Atom(_) => Inf
    case Node(op, _, r) => Min(Fin(t.rbp[op]), RightWeight(t, r))
  }

  /** The left weight is the smallest LBP along the left edge: at most
      each of them, and equal to one of them unless the tree is an atom. */
  lemma {:induction false} LeftWeightIsSpineMin(t: Table, tree: Tree<string>)
    requires OpsKnown(t, tree)
    ensures forall i :: 0 <= i < |LeftSpine(tree)| ==> LeftSpine(tree)[i] in t.lbp && AtMost(LeftWeight(t, tree), Fin(t.lbp[LeftSpine(tree)[i]]))
    ensures LeftWeight(t, tree).Fin? ==> exists i :: 0 <= i < |LeftSpine(tree)| && LeftSpine(tree)[i] in t.lbp && LeftWeight(t, tree).n == t.lbp[LeftSpine(tree)[i]]
  {
    if tree.Node? {
      var l := tree.left;
      LeftWeightIsSpineMin(t, l);
      assert LeftSpine(tree)[0] == tree.op;
      assert forall i :: 1 <= i < |LeftSpine(tree)| ==> LeftSpine(tree)[i] == LeftSpine(l)[i - 1];
      if LeftWeight(t, tree) != Fin(t.lbp[tree.op]) {
        var j :| 0 <= j < |LeftSpine(l)| && LeftSpine(l)[j] in t.lbp && LeftWeight(t, tree).n == t.lbp[LeftSpine(l)[j]];
        assert LeftSpine(tree)[j + 1] == LeftSpine(l)[j];
      }
    }
  }

  lemma {:induction false} RightWeightIsSpineMin(t: Table, tree: Tree<string>)
    requires OpsKnown(t, tree)
    ensures forall i :: 0 <= i < |RightSpine(tree)| ==> RightSpine(tree)[i] in t.rbp && AtMost(RightWeight(t, tree), Fin(t.rbp[RightSpine(tree)[i]]))
    ensures RightWeight(t, tree).Fin? ==> exists i :: 0 <= i < |RightSpine(tree)| && RightSpine(tree)[i] in t.rbp && RightWeight(t, tree).n == t.rbp[RightSpine(tree)[i]]
  {
    if tree.Node? {
      var r := tree.right;
      RightWeightIsSpineMin(t, r);
      assert RightSpine(tree)[0] == tree.op;
      assert forall i :: 1 <= i < |RightSpine(tree)| ==> RightSpine(tree)[i] == RightSpine(r)[i - 1];
      if RightWeight(t, tree) != Fin(t.rbp[tree.op]) {
        var j :| 0 <= j < |RightSpine(r)| && RightSpine(r)[j] in t.rbp && RightWeight(t, tree).n == t.rbp[RightSpine(r)[j]];
        assert RightSpine(tree)[j + 1] == RightSpine(r)[j];
      }
    }
  }

  /** `_is_weight_correct`: every node's left operand is bound at least as
      strongly on its right edge as the node's LBP, and its right operand
      more strongly on its left edge than the node's RBP. */
  predicate IsWeightCorrect(t: Table, tree: Tree<string>)
    requires OpsKnown(t, tree)
  {
    match tree
    case Atom(_) => true
    case Node(op, l, r) =>
      && IsWeightCorrect(t, l)
      && IsWeightCorrect(t, r)
      && Gt(LeftWeight(t, r), t.rbp[op])
      && Geq(RightWeight(t, l), t.lbp[op])
  }
}

=== FILE: wrappers.dfy ===
/** Failure-carrying results used wherever the Python code would raise. */
module Wrappers {

  datatype Option<+T> = None | Some(value: T)

  /** The error kinds of the parsing core. */
  datatype Error =
    | UnknownOperator(name: string)   // a lookup in LBP/RBP that raises KeyError
    | MalformedSequence               // operand/operator alternation violated
    | PastEnd                         // a read beyond the end of the token list, which raises IndexError
    | InvalidTreeShape                // a unary node whose operator is neither prefix nor postfix

  datatype Result<+R> = Ok(value: R) | Err(error: Error)
}
